=== FILE: README.md ===
# Code explanation generator — a Dafny model of its core

The system explains coding problems. A browser client takes a LeetCode or
HackerRank URL, or pasted problem text, and posts it to a FastAPI backend.
The backend fetches and cleans the problem description, prompts a Hugging
Face causal language model, and answers with an `ExplanationOutput` record.
The client renders that record as eight collapsible sections.

This project models the rules the two halves apply to strings and records:

- the API records and their validation (`Models`);
- the client helpers: `formatCode`, `truncate`, the difficulty badge,
  `formatComplexity`, `toggleSection`, `createList` and the single toast
  (`Utils`);
- the renderer, as a pure function from the response to an abstract document
  of sections, blocks and pieces, where each piece says whether its text is
  inserted as markup, unescaped data, escaped data or a badge (`Document`,
  `Renderer`, `Html`);
- the client controller, as a state machine over the page's flags
  (`App`);
- the problem parser: platform dispatch, the LeetCode fallback chain and
  status mapping, HackerRank, and `clean_text` (`Parser`);
- the `/generate` and `/health` routes, including `extract_json`
  (`Routes`);
- the model pipeline's device and quantisation choice, prompt formatting,
  reply extraction, pad-token fallback and the lazy singleton (`Pipeline`,
  with the settings in `Config`);
- the end-to-end path from a blocked URL to the guidance the page shows
  (`Chain`).

Shared pieces are `Wrappers` (`Option`, `Result`), `Strings` (ASCII
whitespace, `strip`/`trim`, substring search) and `Decimal` (printing
non-negative integers).

Nothing here talks to a network, a browser or a model. The things the code
asks of the outside world are parameters:

- the HTTP outcome of fetching a problem page (`Parser.Fetch`), with the
  texts of the page elements the parser looks for as `Option<string>`;
- the model call of the route (`generate`), whose `Err` stands for any
  exception raised while loading the pipeline or generating;
- the decoded model output for a formatted prompt (`decode`);
- `json.loads` (`parse`);
- whether CUDA is available, and whether the 4-bit configuration can be
  built;
- what each construction of the pipeline yields.

## Model

| member | source | states |
|---|---|---|
| Models.ParseInputType | backend/api/models.py:5 | exactly "url" and "text" are accepted, and each reads back as the input type that prints as it |
| Models.ValidateProblemInput | backend/api/models.py:4-6 | a body validates iff both fields are present and `input_type` is one of the two literals; `content` is taken as is, the empty string included |
| Models.ProblemInputRoundTrip | backend/api/models.py:4-6 | every request body the client can build validates back to the same input |
| Models.ValidateApproach | backend/api/models.py:15-23 | an approach validates iff name, pseudocode, time and space complexity are present; the four optional fields become "" when absent |
| Models.ApproachRoundTrip | backend/api/models.py:15-23 | serialising an approach and validating it gives the same approach |
| Models.ApproachOmittedOptional | backend/api/models.py:17-18 | leaving an optional field out validates the same as sending it empty |
| Utils.FormatCode | frontend/js/utils.js:6-10 | empty code gives ""; other code gives its unescaped text with only whitespace cut off at both ends, so no whitespace is left at either end and no backslash-n pair |
| Utils.UnescapeNewlinesComplete | frontend/js/utils.js:9 | the global replacement leaves no backslash-n pair, not even one formed by the replacement |
| Utils.UnescapeNewlinesAt | frontend/js/utils.js:9 | the first backslash-n pair becomes a line break, the text before it is kept, and the replacement carries on after it |
| Strings.ReplaceAllKeeps | frontend/js/utils.js:9 | a global replacement keeps text in which no occurrence of the pattern starts and carries on after it |
| Utils.UnescapeNewlinesIdentity | frontend/js/utils.js:9 | text without a backslash-n pair is left unchanged by the replacement |
| Utils.FormatCodeIdempotent | frontend/js/utils.js:6-10 | formatting formatted code changes nothing |
| Utils.FormatCodeBreaksLines | frontend/js/utils.js:9 | the escaped newline in "a\\nb" becomes a line break |
| Utils.FormatCodeTrims | frontend/js/utils.js:9 | the surrounding spaces of "  x  " are trimmed |
| Utils.Truncate | frontend/js/utils.js:24-27 | empty text, or text no longer than the limit, is returned unchanged; longer text keeps its first `maxLength` characters and ends with "...", so it is `maxLength + 3` long |
| Utils.TruncateBound | frontend/js/utils.js:24-27 | a truncated text is never longer than `maxLength + 3` |
| Utils.DifficultyColor | frontend/js/utils.js:80-85 | Easy, Medium and Hard get their fixed colours; a name the object literal inherits from `Object.prototype` (`constructor`, `toString`, `__proto__`, …) gets that member's text; `#ff0033` is chosen exactly for every other difficulty; no colour holds a `>` |
| Utils.InheritedColor | frontend/js/utils.js:85 | an inherited member's text is longer than a hex colour, so it is never the default, and holds no `>` when the name holds none |
| Utils.DifficultyBadge | frontend/js/utils.js:79-87 | the badge is the opening tag for the chosen colour followed by the difficulty and the closing tag |
| Utils.BadgeShowsDifficulty | frontend/js/utils.js:86 | the text a badge displays, after the `>` that closes its opening tag, is the difficulty, verbatim, whatever the colour |
| Utils.UnknownDifficultyBadge | frontend/js/utils.js:85-86 | a difficulty outside the three known ones and the inherited names ("Expert") gets the default colour and is still displayed |
| Utils.InheritedDifficultyBadge | frontend/js/utils.js:85-86 | the difficulty "constructor" is coloured with the text of the function `Object`, not the default, and is still displayed |
| Utils.FormatComplexity | frontend/js/utils.js:92-94 | the markup is the time label, the time, the space label and the space, in that order and nothing else |
| Utils.ToggleClass | frontend/js/utils.js:49 | the class flips and every other class is kept |
| Utils.ToggleSection | frontend/js/utils.js:48-54 | `collapsed` flips on the header, and on the next sibling exactly when it has class `section-content`; nothing else changes |
| Utils.ToggleSectionTwice | frontend/js/utils.js:48-54 | toggling twice restores both elements |
| Utils.CreateList | frontend/js/utils.js:121-132 | an ordered list exactly when asked, one item per element in order, strings inserted as is and other values serialised |
| Utils.ListShowsStrings | frontend/js/utils.js:125-129 | a list built from strings shows exactly those strings, in order |
| Utils.RemoveFirstToast | frontend/js/utils.js:212-215 | removing the existing toast drops one toast, when there is one, and keeps every other node in order |
| Utils.ShowToast | frontend/js/utils.js:210-240 | the new toast is last and carries the message and kind; at most one toast is on the page afterwards; other nodes are kept |
| Utils.AtMostOneToast | frontend/js/utils.js:210-253 | from a page with at most one toast, no sequence of shows and dismissals ever leaves two |
| Html.Esc | frontend/js/utils.js:15-19 | escaped text holds no `<` or `>`, and text without special characters is unchanged |
| Html.UnescapeEsc | frontend/js/utils.js:15-19 | decoding the escaped text gives the text back |
| Html.EscInjective | frontend/js/utils.js:15-19 | different texts never escape to the same markup |
| Decimal.ParsePrinted | frontend/js/app.js:99 | printing a status code and reading it back gives the number |
| Renderer.CodeHtml | frontend/js/renderer.js:237 | a code block holds no tag of its own making and reads back as `formatCode` of the value |
| Renderer.RenderOutput | frontend/js/renderer.js:6-33 | exactly eight sections, in the fixed order of titles, with the naive and optimal approaches third and fourth |
| Renderer.RenderOverview | frontend/js/renderer.js:38-53 | the overview section has the single Description block |
| Renderer.RenderConcepts | frontend/js/renderer.js:58-89 | six blocks labelled Core Concepts, Prerequisites, Difficulty and Analogy, with the two lists after their labels |
| Renderer.ApproachLabelsHold | frontend/js/renderer.js:103-126 | the approach blocks are Approach, Intuition iff given, Key Insight iff given, Pseudocode, Complexity, Limitation iff given, Why Optimal iff given |
| Renderer.ApproachOptionalBlocks | frontend/js/renderer.js:106-126 | each optional block appears iff its field is non-empty, and both of a pair may appear |
| Renderer.ApproachBlockCount | frontend/js/renderer.js:103-126 | an approach has three blocks plus one per non-empty optional field |
| Renderer.ComplexityMarkup | frontend/js/renderer.js:117-118 | the Complexity block carries exactly the `formatComplexity` markup |
| Renderer.RenderWorkedExample | frontend/js/renderer.js:138-168 | the step list is ordered and has one item per step, in order |
| Renderer.RenderPitfalls | frontend/js/renderer.js:173-199 | one card per pitfall, the i-th (from 0) headed "Pitfall i+1" |
| Renderer.PitfallCardTexts | frontend/js/renderer.js:186-188 | a pitfall card shows mistake, why-fails and fix, all escaped |
| Renderer.RenderEdgeCases | frontend/js/renderer.js:204-220 | a label block and an unordered list of the edge cases |
| Renderer.RenderRelatedProblems | frontend/js/renderer.js:264-294 | one card per related problem, in order |
| Renderer.RelatedCardTexts | frontend/js/renderer.js:275-285 | name, platform, similarity and difference are escaped; the difficulty goes through the badge |
| Renderer.OutputSectionsShown | frontend/js/renderer.js:6-294 | for each of the eight sections, which fields it shows unescaped, escaped, as a badge and as code |
| Renderer.RenderOutputShown | frontend/js/renderer.js:6-294 | over the whole document: the overview, concept texts, approach texts and edge cases unescaped; the worked example, pitfalls and related-problem texts escaped; the concepts difficulty and each related problem's difficulty as badges; the two pseudocodes as code |
| App.NewlinesToBreaks | frontend/js/app.js:250 | the notice markup holds no newline |
| App.BreaksRoundTrip | frontend/js/app.js:250 | for a message without `<`, turning the breaks back into newlines gives the message |
| App.ShowError | frontend/js/app.js:232-272 | one notice is added, the message with breaks for newlines, and nothing else changes |
| App.HandleToggle | frontend/js/app.js:41-52 | the clicked mode becomes active, exactly its input is visible, and the typed texts are untouched |
| App.HandleToggleIdempotent | frontend/js/app.js:41-52 | clicking the same mode twice is clicking it once |
| App.StartGenerate | frontend/js/app.js:57-82 | nothing happens while generating; otherwise a request is made iff the trimmed active text has at least 10 characters, it carries the active mode and the trimmed text, and the flags are set; empty or short input only adds its notice |
| App.KeyPress | frontend/js/app.js:31-35 | only Enter while idle starts a generation |
| App.RequestIsValid | frontend/js/app.js:91-94 | every request sent is trimmed, at least 10 long, and passes the server's validation unchanged |
| App.ErrorMessage | frontend/js/app.js:98-99 | the detail when non-empty, else "Server error: " and the status |
| App.RewriteError | frontend/js/app.js:102-106 | a message mentioning 403, blocking or Forbidden becomes the guidance; else an HTTP error is wrapped in the warning and the tip; else the message is kept; the first rule wins |
| App.GuidanceIsFixed | frontend/js/app.js:102-103 | the guidance is rewritten to itself |
| App.BareForbidden | frontend/js/app.js:99-103 | a 403 without detail still produces the guidance |
| App.MessageKept | frontend/js/app.js:102-106 | a message is shown unchanged iff neither the blocking rule nor the HTTP-error rule matches it, or it already is the guidance |
| App.FailureMessage | frontend/js/app.js:97-126 | a failed request always shows a non-empty message: the rewritten HTTP message, or the thrown message, or the fallback text |
| App.CompleteGenerate | frontend/js/app.js:111-130 | every completion leaves the page idle with the button enabled; success renders the data; failure adds exactly one notice and keeps the previous output |
| App.RunConsistent | frontend/js/app.js:57-130 | whatever events happen, at most one request is in flight, exactly while the flag is set, and the button, loading state and inputs agree with the flags |
| Parser.BlockingMessages | backend/services/parser.py:73-77 | the LeetCode 403 message mentions "403" and "blocking"; the missing-description message mentions "blocking" |
| Parser.CollapseSpace | backend/services/parser.py:110 | the result has no whitespace run longer than one space, is no longer than the input and keeps its first visible character |
| Parser.CollapseKeepsWord | backend/services/parser.py:110 | characters other than whitespace are copied unchanged |
| Parser.CollapseRun | backend/services/parser.py:110 | a whole whitespace run, up to the next visible character or the end, becomes exactly one space |
| Parser.CollapseKeepsVisible | backend/services/parser.py:110 | collapsing keeps every non-whitespace character, in order |
| Parser.CollapseIdempotent | backend/services/parser.py:110 | collapsing twice is collapsing once |
| Parser.MatchLength | backend/services/parser.py:112 | zero iff no word starts here case-insensitively, else the length of the first word in the list that does: the alternative the pattern takes, so "Solutions" matches nine characters |
| Parser.NoiseAt | backend/services/parser.py:112 | zero iff no noise word starts here, else the length of the first noise word in the pattern's order that does |
| Parser.RemoveNoiseUnchanged | backend/services/parser.py:112 | the removal changes the text iff some noise word occurs in it |
| Parser.LeadingNoiseRemoved | backend/services/parser.py:112 | a leading noise word in any case mix is deleted whatever follows it, unless an alternative the pattern tries earlier matches there |
| Parser.LeadingPremiumRemoved | backend/services/parser.py:112 | a leading "Premium" is removed whatever follows, with no word boundary needed |
| Parser.RemoveNoiseKeeps | backend/services/parser.py:112 | text in which no noise word starts is kept as it is, and removal carries on after it |
| Parser.RemoveNoisePlainSpaced | backend/services/parser.py:112 | removing noise words introduces no whitespace other than spaces |
| Parser.VisibleOfTrim | backend/services/parser.py:114 | stripping keeps every non-whitespace character, in order |
| Parser.QuietTextKeepsVisible | backend/services/parser.py:107-115 | when the collapsed text holds no noise word, cleaning keeps every non-whitespace character, in order |
| Parser.CleanText | backend/services/parser.py:107-115 | the cleaned text has no whitespace at either end, no whitespace other than spaces, and is no longer than the input; without noise words it keeps every non-whitespace character of the input, in order |
| Parser.CleanTextOfClean | backend/services/parser.py:107-115 | collapsed, trimmed, noise-free text is cleaned to itself |
| Parser.FirstNonEmpty | backend/services/parser.py:51-68 | empty iff every candidate is missing or empty, else one of the candidates |
| Parser.DescriptionFallback | backend/services/parser.py:51-68 | the description div text if non-empty, else the og:description if non-empty, else the title |
| Parser.ParseLeetCode | backend/services/parser.py:26-80 | success iff a 2xx page has a description longer than 20, then cleaned; 403 gives the blocking message, other statuses the HTTP message, transport failures the network message, a short description the "blocking" message; an exception outside `httpx.HTTPError` (a malformed URL) passes through with its own message |
| Parser.ParseHackerRank | backend/services/parser.py:82-105 | success iff a 2xx page has the statement div, then cleaned; a missing statement gives "Could not extract…"; HTTP failures give the HackerRank HTTP message; an exception outside `httpx.HTTPError` passes through with its own message |
| Parser.UncaughtErrorMessage | backend/services/parser.py:23-24 | for a LeetCode or HackerRank URL whose request raises outside `httpx.HTTPError`, the result is the outer prefix followed by that exception's own message, the same from both platforms |
| Parser.PlatformOf | backend/services/parser.py:16-21 | LeetCode iff the URL mentions leetcode.com; HackerRank iff it mentions hackerrank.com but not leetcode.com; else unsupported |
| Parser.Wrap | backend/services/parser.py:23-24 | every error gets the "Failed to parse problem from URL: " prefix over the inner message; values pass through |
| Parser.ParseProblem | backend/services/parser.py:6-24 | errors all start with the prefix; parsed text is trimmed and plain-spaced; the stripped URL selects the platform parser or the unsupported error |
| Parser.ParseProblemStripsUrl | backend/services/parser.py:13 | a URL and its stripped form parse alike |
| Parser.LeetCodeForbiddenMessage | backend/services/parser.py:75-77 | a LeetCode 403 fails with the wrapped message, which mentions "403" and "blocking" |
| Parser.ShortDescriptionSaysBlocking | backend/services/parser.py:70-73 | a LeetCode page with a description of at most 20 characters fails with a message that mentions "blocking" |
| Parser.HackerRankStatusMessage | backend/services/parser.py:104-105 | a HackerRank 403 fails with the wrapped status error, which mentions "403" when the status error does |
| Routes.FirstOf | backend/api/routes.py:17 | the position of the first occurrence of a character, present iff the character occurs |
| Routes.LastOf | backend/api/routes.py:17 | the position of the last occurrence of a character, present iff the character occurs |
| Routes.JsonCandidate | backend/api/routes.py:17 | a candidate exists iff some `{` comes before some `}`; it starts with `{` and ends with `}` |
| Routes.CandidateSurroundings | backend/api/routes.py:17 | the candidate runs from the first `{` to the last `}`: no `{` before it and no `}` after it |
| Routes.CandidateOfEmbedded | backend/api/routes.py:17-20 | an object between text without braces is found exactly |
| Routes.Quote | backend/api/routes.py:28 | at most 200 characters, a prefix of the text: the whole text when short, exactly its first 200 characters otherwise |
| Routes.ExtractJson | backend/api/routes.py:11-28 | the candidate if it parses, else the whole stripped text if it parses, else the error prefix followed by exactly the quoted start (the first 200 characters) of the stripped text |
| Routes.ParseFailure | backend/api/routes.py:42-51 | status 400; "Cannot access URL" iff the message mentions 403 or blocking, else "Failed to parse URL"; the detail is exactly `Cannot access URL: ` + message + ` SOLUTION: Switch to 'Paste Text' mode.` for a blocking message, and exactly `Failed to parse URL: ` + message otherwise |
| Routes.ProblemText | backend/api/routes.py:36-53 | pasted text is used verbatim; a URL gives the parsed text or a 400 reply |
| Routes.Prompt | backend/api/routes.py:64-77 | the prompt is the fixed head, then the problem text verbatim, then the fixed tail |
| Routes.Overview | backend/api/routes.py:86 | at most 303 characters, ending in "...", starting with a prefix of the text; exactly text plus "..." iff the text is at most 300 long, and otherwise exactly its first 300 characters plus "..." |
| Routes.FallbackOutput | backend/api/routes.py:85-130 | the overview is built from the problem text and the optimal pseudocode is the generated text |
| Routes.OnlyTwoFieldsVary | backend/api/routes.py:87-129 | two responses differ at most in the overview and the optimal pseudocode |
| Routes.FallbackOptionalFields | backend/api/routes.py:94-111 | the naive approach has no why-optimal text and the optimal one no limitation |
| Routes.GenerateExplanation | backend/api/routes.py:30-136 | only 400 and 500 failures; parse failures pass through; text shorter than 10 gives the too-short reply; success iff the text is long enough and generation succeeds, with the fallback output; a generation error becomes 500 "Generation error: …" |
| Routes.PastedTextNotTrimmed | backend/api/routes.py:52-57 | ten spaces of pasted text pass the length check |
| Routes.BlockedUrlReply | backend/api/routes.py:42-49 | a blocked URL gets the 400 "Cannot access URL" reply with the solution hint |
| Routes.HealthCheck | backend/api/routes.py:138-151 | "healthy" with exactly model and device when the settings load, else "error" with exactly the message |
| Routes.HealthReportRoundTrip | backend/api/routes.py:138-151 | a reader of the report, defined for the statement (the client only logs it, frontend/js/app.js:143-145), gets back the model and device of loaded settings, or the settings error |
| Pipeline.EffectiveDevice | backend/services/hf_pipeline.py:17-20 | "cuda" without CUDA becomes "cpu"; any other request is kept |
| Pipeline.EffectiveDeviceStable | backend/services/hf_pipeline.py:17-20 | the fallback applied twice is applied once |
| Pipeline.PlanLoad | backend/services/hf_pipeline.py:22-70 | quantised iff "4bit" on CUDA and the config builds, then with automatic device map and float16; bfloat16 otherwise; moved to the CPU iff the device is "cpu" |
| Pipeline.DefaultPlans | backend/config/settings.py:5-9 | with the declared settings: 4-bit on the GPU when the config builds, a bfloat16 CPU model without CUDA |
| Pipeline.InitPadToken | backend/services/hf_pipeline.py:45-46 | an unset pad token becomes the end-of-sequence token |
| Pipeline.GenerationPadId | backend/services/hf_pipeline.py:105 | a missing or zero pad id falls back to the end-of-sequence id |
| Pipeline.PromptFamily | backend/services/hf_pipeline.py:78-85 | phi iff the lower-cased name mentions "microsoft/phi"; llama iff it mentions "llama" and not phi |
| Pipeline.ReplyFamily | backend/services/hf_pipeline.py:120-128 | llama iff the lower-cased name mentions "llama"; phi iff it mentions "microsoft/phi" and not llama |
| Pipeline.FamiliesAgree | backend/services/hf_pipeline.py:78-128 | formatting and extraction disagree exactly on names that mention both families |
| Pipeline.FormatPrompt | backend/services/hf_pipeline.py:78-85 | the formatted prompt contains the prompt; other names leave it unchanged; phi gives exactly `Instruct: ` + prompt + a newline + `Output:`; llama gives exactly the system turn, the user tag, the prompt, `</s>`, a newline and `<|assistant|>` followed by a newline |
| Pipeline.DefaultModelIsPlain | backend/config/settings.py:5 | with the default model every prompt passes through unchanged |
| Strings.AfterFirst | backend/services/hf_pipeline.py:123-127 | `split(p, 1)[1]`: present iff p occurs, and then exactly the text after its first occurrence |
| Pipeline.ExtractResponse | backend/services/hf_pipeline.py:119-131 | the text after the first occurrence of the family's marker, stripped, or the output unchanged without the marker; for other models the prompt's length is cut from the start when the prompt occurs anywhere |
| Pipeline.PlainCutsFromStart | backend/services/hf_pipeline.py:128-129 | the cut is made at the start of the output, not at the occurrence of the prompt |
| Pipeline.PhiMarkerInPrompt | backend/services/hf_pipeline.py:124-127 | for a phi model and the prompt "Output:", the echo "x" is extracted as "Output:x" |
| Pipeline.ChatMarkerFirst | backend/services/hf_pipeline.py:83-121 | for a chat prompt without the assistant marker, the marker the template puts after the prompt is the first in the output |
| Pipeline.PhiMarkerFirst | backend/services/hf_pipeline.py:80-125 | for an instruction prompt without "Output:", the marker the template puts after the prompt is the first in the output |
| Pipeline.ExtractGenerated | backend/services/hf_pipeline.py:119-129 | the correction: an output that starts with the formatted prompt is cut right after it and stripped; any other output is extracted as the source does |
| Pipeline.EchoRoundTrip | backend/services/hf_pipeline.py:119-129 | with the cut made after the echoed prompt (the correction of the finding below), every model turns an output that echoes the formatted prompt and continues with g into g, stripped |
| Pipeline.PlainUnchanged | backend/services/hf_pipeline.py:128-129 | for other models the corrected extraction agrees with the original when the output starts with the prompt |
| Pipeline.Generate | backend/services/hf_pipeline.py:74-131 | as written: when the decoded output is the formatted prompt followed by g, the reply is g, stripped, for other models always, for phi models when the prompt holds no "Output:", and for chat-formatted llama models when the prompt holds no assistant marker |
| Pipeline.GenerateCorrected | backend/services/hf_pipeline.py:74-131 | with the corrected extraction, the reply is g, stripped, for every model and every prompt |
| Pipeline.GenerateMissesEcho | backend/services/hf_pipeline.py:119-127 | for a phi model, the prompt "Output:" and the continuation "x", the source replies "Output:x" and the correction "x" |
| Pipeline.GetPipeline | backend/services/hf_pipeline.py:140-145 | a held instance is returned without building; otherwise the built instance is stored, and a failed build stores nothing |
| Pipeline.HeldInstanceReturned | backend/services/hf_pipeline.py:143-145 | once an instance is held, every call returns it and none builds |
| Pipeline.AtMostOneInstance | backend/services/hf_pipeline.py:138-145 | over any sequence of calls at most one construction succeeds and every successful call returns the same instance |
| Chain.ClientOutcome | backend/api/routes.py:46-51 | a reply reaches the client as delivered data or as an HTTP failure carrying its status and detail |
| Chain.BlockedParseErrorGuidance | frontend/js/app.js:102-103 | a parse failure the route calls "Cannot access URL" is shown as the Paste-Text guidance |
| Chain.BlockedUrlGuidance | backend/api/routes.py:45-49 | any URL whose parse error mentions 403 or blocking ends in the guidance on the page |
| Chain.LeetCodeForbiddenShowsGuidance | backend/services/parser.py:76-77 | a LeetCode 403 becomes the exact 400 reply and then the Paste-Text guidance on the page |
| Chain.ShortDescriptionShowsGuidance | backend/services/parser.py:70-73 | a LeetCode page without a long enough description also ends in the guidance |
| Chain.HackerRankForbiddenShowsGuidance | backend/services/parser.py:104-105 | a HackerRank 403 whose status error mentions 403 ends in the LeetCode guidance too |
| Chain.ClientTextPassesLengthCheck | frontend/js/app.js:72-75 | every pasted text the client sends passes the server's length check; it renders iff generation succeeds, else fails with 500 |
| Chain.ProblemTextShownVerbatim | backend/api/routes.py:86 | the overview, which holds the problem text, is shown unescaped; the generated text is shown only as code |
| Chain.ReplyCompletes | frontend/js/app.js:123-130 | an error reply leaves the page idle and adds exactly the rewritten detail as a notice |

## Left out

- Network, HTML parsing, DOM, timers, clipboard, logging and `Math.random` ids. Each is replaced by the parameters listed above, or dropped where it only affects presentation.
- `json.loads`, `JSON.stringify`, `deepClone` and `isEmpty`. JSON parsing is the `parse` parameter; a non-string list item is shown through an opaque serialised string.
- Torch and transformers: tokenisation, sampling and the float temperature clamp `max(TEMPERATURE, 0.1)`. `Settings` has no temperature field because floating point is not modelled.
- The `/warmup` route and backend/main.py (application wiring) are not part of this model.
- The prompt templates in backend/services/prompts.py are not part of this model; the route does not use them.
- `createCollapsibleHeader`, `smoothScrollTo`, `debounce`, `copyToClipboard` and `checkBackendHealth`. They only build markup or log.
- The duplicate global `showError` (frontend/js/utils.js:71) and `createContentBlock` (frontend/js/utils.js:99). The versions in app.js and renderer.js are modelled, on the assumption that those scripts load last.
- Html.Esc: `escapeHtml` delegates to the browser. It is given the body of the "escaping a string" step of the HTML Standard (section 13.3, serialising HTML fragments), in text mode: `&`, no-break space, `<` and `>`.
- Strings.IsSpace: whitespace is the ASCII set (space, tab, line feed, vertical tab, form feed, carriage return). The ASCII separators U+001C–U+001F and the non-ASCII whitespace that Python's `str.strip` and `\s` accept, and the non-ASCII whitespace that JavaScript's `trim` accepts, are not modelled.
- Strings.ToLower: case-insensitive matching and `lower()` fold ASCII letters only.
- String lengths count characters, whereas JavaScript's `length` counts UTF-16 code units. The two differ only for characters outside the Basic Multilingual Plane.
- Renderer.RenderOutput: content-block markup is abstracted as labelled pieces. `CodeHtml` states what the code branch of `createContentBlock` displays. Exact whitespace and styles of the templates are not modelled.
- App.StartGenerate: `showLoading`'s staged step animation is left out, and `currentStage` is only reset.
- Routes.FallbackOutput: the constant text `"O(nÂ²) or higher"` is kept exactly as the source writes it. That is the UTF-8 encoding of `²` read as Latin-1.
- Pipeline.Generate: the echo round trip is not promised for a name that mentions both families, whose prompt is formatted for phi but whose reply is cut at the chat marker. Nor is it promised for a prompt that holds its family's marker; there the source cuts inside the echoed prompt (see Findings). The clauses also take the decoded output to be the formatted prompt followed by the generated text, which two source behaviours work against. `skip_special_tokens=True` (backend/services/hf_pipeline.py:117) drops the template's `</s>`, a special token for TinyLlama, so that echo is not produced verbatim. Truncation to `MAX_LENGTH` (backend/services/hf_pipeline.py:87-93) cuts long prompts, so a plain model's whole output, echo included, is returned. `Config.Settings.maxLength` is carried but not used.
- Utils.DifficultyColor: the text of an inherited built-in function is written as V8 prints it (`function Object() { [native code] }`). ECMAScript leaves that text to the implementation, and other engines lay it out differently. A hex colour's length of 7 is promised only for names that are not inherited.
- Pipeline.GetPipeline: the global is a value passed in and returned. Concurrent first calls are not modelled.

## Findings

| source | as written | input that shows it | evidently intended | confidence | as-written member | corrected member |
|---|---|---|---|---|---|---|
| backend/services/hf_pipeline.py:124-127 | for phi models the reply is cut after the first "Output:" of the decoded output, which echoes the prompt; a problem text that itself contains "Output:" (as examples in problem statements do) cuts inside the echoed prompt | phi model, prompt "Output:", generated text "x": reply "Output:x" | the reply is the generated text "x", cut after the echoed formatted prompt | not executed | Pipeline.GenerateMissesEcho | Pipeline.GenerateCorrected |

Other behaviours the model keeps as written and proves:

- The 20-character threshold is measured on the raw description, before cleaning (`Parser.ParseLeetCode`).
- `clean_text` removes noise words without word boundaries (a leading "Premium" is removed whatever follows it, see `Parser.LeadingPremiumRemoved`). Removal can also leave two spaces side by side.
- The route does not trim pasted text, so ten spaces pass its length check (`Routes.PastedTextNotTrimmed`).
- A HackerRank 403 is shown with the LeetCode guidance (`Chain.HackerRankForbiddenShowsGuidance`).
- A malformed URL (`https://leetcode.com:x/`) makes the request raise `httpx.InvalidURL`, which is not an `httpx.HTTPError`. Neither platform handler catches it, so the user sees the outer prefix and the raw exception text instead of the network or HackerRank message (`Parser.UncaughtErrorMessage`).
- The colour lookup is made on a plain object literal, so a difficulty such as "constructor" picks up an inherited member instead of the default colour (`Utils.InheritedDifficultyBadge`).
- A pad id of 0 falls back to the end-of-sequence id (`Pipeline.GenerationPadId`).
- Prompt formatting checks phi first and extraction checks llama first (`Pipeline.FamiliesAgree`).
- The overview, which holds problem text fetched from a third-party page, is rendered without escaping (`Chain.ProblemTextShownVerbatim`).

=== FILE: app.dfy ===
/**
 * The client controller (frontend/js/app.js) as a state machine over a
 * record of flags.  The page is reduced to the state the handlers read and
 * write; the request itself is an effect returned to the caller, and its
 * completion is an input.  Timers, scrolling and console output are left
 * out.
 */
module App {
  import opened Wrappers
  import opened Strings
  import opened Decimal
  import opened Models
  import opened Document
  import Renderer

  /** The controller's view of the page.  `notices` lists the markup of the
      error notifications shown so far, oldest first; `output` is the
      content of the output container. */
  datatype Session = Session(
    isGenerating: bool,
    currentStage: nat,
    activeMode: InputType,
    urlText: string,
    pasteText: string,
    urlInputHidden: bool,
    textInputHidden: bool,
    loadingShown: bool,
    outputShown: bool,
    buttonEnabled: bool,
    output: seq<Section>,
    notices: seq<string>)

  /** A page with `mode` selected, before any request. */
  function Initial(mode: InputType): Session {
    Session(false, 0, mode, "", "", mode != Url, mode != Text, false, false, true, [], [])
  }

  // ---------------------------------------------------------------- showError

  /** `message.replace(/\n/g, '<br>')`. */
  function NewlinesToBreaks(message: string): (r: string)
    ensures '\n' !in r
  {
    NoNewlineAfterReplace(message);
    ReplaceAll(message, "\n", "<br>")
  }

  lemma {:induction false} NoNewlineAfterReplace(s: string)
    ensures '\n' !in ReplaceAll(s, "\n", "<br>")
    decreases |s|
  {
    if StartsWith(s, "\n") {
      NoNewlineAfterReplace(s[1..]);
    } else if |s| > 0 {
      NoNewlineAfterReplace(s[1..]);
    }
  }

  /** A message without `<` is recovered from its notification markup by
      turning every `<br>` back into a newline. */
  lemma {:induction false} BreaksRoundTrip(m: string)
    requires '<' !in m
    ensures ReplaceAll(NewlinesToBreaks(m), "<br>", "\n") == m
    decreases |m|
  {
    if |m| > 0 {
      var rest := NewlinesToBreaks(m[1..]);
      BreaksRoundTrip(m[1..]);
      if m[0] == '\n' {
        assert StartsWith(m, "\n");
        assert NewlinesToBreaks(m) == "<br>" + rest;
        assert StartsWith("<br>" + rest, "<br>");
        assert ("<br>" + rest)[4..] == rest;
      } else {
        assert !StartsWith(m, "\n");
        assert NewlinesToBreaks(m) == [m[0]] + rest;
        assert m[0] in m;
        var x := [m[0]] + rest;
        assert x[0] != '<';
        assert |x| >= 4 ==> x[..4][0] == x[0];
        assert !StartsWith(x, "<br>");
        assert ([m[0]] + rest)[1..] == rest;
      }
      assert [m[0]] + m[1..] == m;
    }
  }

  /** `showError(message)` appends one notification showing the message
      with its newlines as line breaks. */
  function ShowError(s: Session, message: string): (r: Session)
    ensures r.notices == s.notices + [NewlinesToBreaks(message)]
    ensures r.(notices := s.notices) == s
  {
    s.(notices := s.notices + [NewlinesToBreaks(message)])
  }

  // ---------------------------------------------------------------- handleToggle

  /** `handleToggle`: the clicked mode becomes the only active one, each
      input is hidden exactly when its mode is not the clicked one, and the
      typed texts are kept. */
  function HandleToggle(s: Session, mode: InputType): (r: Session)
    ensures r.activeMode == mode
    ensures !r.urlInputHidden <==> mode == Url
    ensures !r.textInputHidden <==> mode == Text
    ensures r.urlInputHidden != r.textInputHidden
    ensures r.(activeMode := s.activeMode, urlInputHidden := s.urlInputHidden, textInputHidden := s.textInputHidden) == s
  {
    s.(activeMode := mode, urlInputHidden := mode != Url, textInputHidden := mode != Text)
  }

  lemma HandleToggleIdempotent(s: Session, mode: InputType)
    ensures HandleToggle(HandleToggle(s, mode), mode) == HandleToggle(s, mode)
  {
  }

  // ---------------------------------------------------------------- handleGenerate, first half

  const EmptyInputMessage: string := "Please provide a problem URL or text"
  const ShortInputMessage: string := "Problem description is too short. Please provide more details."
  /** The shortest content the client sends. */
  const MinContentLength: nat := 10

  /** The text of the active mode's field. */
  function ActiveText(s: Session): string {
    if s.activeMode == Url then s.urlText else s.pasteText
  }

  /** The outcome of a click: the new session and the request, if one is sent. */
  datatype Started = Started(session: Session, request: Option<ProblemInput>)

  /** `handleGenerate` up to the `fetch` call.  While a request is in flight
      nothing happens.  Otherwise the active field is trimmed; empty or short
      content shows an error and changes nothing else; any other content is
      sent as the request of the active mode, and the page switches to the
      loading state. */
  function StartGenerate(s: Session): (r: Started)
    ensures s.isGenerating ==> r == Started(s, None)
    ensures !s.isGenerating ==> (r.request.Some? <==> |Trim(ActiveText(s))| >= MinContentLength)
    ensures r.request.Some? ==>
              && r.request.value == ProblemInput(s.activeMode, Trim(ActiveText(s)))
              && r.session.isGenerating && r.session.currentStage == 0
              && r.session.loadingShown && !r.session.outputShown && !r.session.buttonEnabled
              && r.session.(isGenerating := s.isGenerating, currentStage := s.currentStage,
                            loadingShown := s.loadingShown, outputShown := s.outputShown,
                            buttonEnabled := s.buttonEnabled) == s
    ensures !s.isGenerating && r.request.None? ==>
              r.session == ShowError(s, if Trim(ActiveText(s)) == "" then EmptyInputMessage else ShortInputMessage)
  {
    if s.isGenerating then Started(s, None)
    else
      var content := Trim(ActiveText(s));
      if content == "" then Started(ShowError(s, EmptyInputMessage), None)
      else if |content| < MinContentLength then Started(ShowError(s, ShortInputMessage), None)
      else
        Started(s.(isGenerating := true, currentStage := 0, loadingShown := true,
                   outputShown := false, buttonEnabled := false),
                Some(ProblemInput(s.activeMode, content)))
  }

  /** The Enter key in the URL field starts a generation only when none is
      running; any other key does nothing. */
  function KeyPress(s: Session, key: string): (r: Started)
    ensures key != "Enter" || s.isGenerating ==> r == Started(s, None)
    ensures key == "Enter" && !s.isGenerating ==> r == StartGenerate(s)
  {
    if key == "Enter" && !s.isGenerating then StartGenerate(s) else Started(s, None)
  }

  /** Every request the client sends carries trimmed content of at least
      ten characters, and validates on the server unchanged. */
  lemma RequestIsValid(s: Session)
    requires StartGenerate(s).request.Some?
    ensures var p := StartGenerate(s).request.value;
            && Trimmed(p.content) && |p.content| >= MinContentLength
            && ValidateProblemInput(ProblemInputBody(p)) == Some(p)
  {
    ProblemInputRoundTrip(StartGenerate(s).request.value);
  }

  // ---------------------------------------------------------------- error messages

  /** `errorData.detail || \`Server error: ${response.status}\``: a missing or
      empty detail falls back to the status. */
  function ErrorMessage(detail: Option<string>, status: nat): (r: string)
    ensures detail.Some? && detail.value != "" ==> r == detail.value
    ensures detail.None? || detail.value == "" ==> r == "Server error: " + NatToString(status)
  {
    if detail.Some? && detail.value != "" then detail.value else "Server error: " + NatToString(status)
  }

  const BlockedHeadline: string := "\U{1F6AB} LeetCode is blocking URL access."
  const PasteTextGuidance: string :=
    BlockedHeadline + "\n\n\U{2705} SOLUTION: Click \"Paste Text\" button above and copy-paste the problem description directly from LeetCode!"
  const WarningPrefix: string := "\U{26A0}\U{FE0F} "
  const TipSuffix: string := "\n\n\U{1F4A1} TIP: Try using \"Paste Text\" mode instead!"

  /** The messages the client reads as "the site is blocking us". */
  predicate LooksBlocked(msg: string) {
    Contains(msg, "403") || Contains(msg, "blocking") || Contains(msg, "Forbidden")
  }

  /** The guidance rewrite: a blocked message becomes the Paste-Text
      guidance; otherwise an HTTP error is wrapped in a warning and a tip;
      any other message is kept.  The first rule wins when both apply. */
  function RewriteError(msg: string): (r: string)
    ensures LooksBlocked(msg) ==> r == PasteTextGuidance
    ensures !LooksBlocked(msg) && Contains(msg, "HTTP error") ==>
              && |r| == |WarningPrefix| + |msg| + |TipSuffix|
              && r[..|WarningPrefix|] == WarningPrefix
              && r[|WarningPrefix|..|WarningPrefix| + |msg|] == msg
              && r[|WarningPrefix| + |msg|..] == TipSuffix
    ensures !LooksBlocked(msg) && !Contains(msg, "HTTP error") ==> r == msg
  {
    if LooksBlocked(msg) then PasteTextGuidance
    else if Contains(msg, "HTTP error") then WarningPrefix + msg + TipSuffix
    else msg
  }

  /** The guidance is itself a blocked message, so rewriting it again keeps it. */
  lemma GuidanceIsFixed()
    ensures RewriteError(PasteTextGuidance) == PasteTextGuidance
  {
    var h := BlockedHeadline;
    assert h[14..22] == "blocking";
    ContainsAt(h, "blocking", 14);
    ContainsInPrefix(h, PasteTextGuidance[|h|..], "blocking");
    assert PasteTextGuidance == h + PasteTextGuidance[|h|..];
  }

  /** A bare 403 response, with no usable detail, ends in the guidance. */
  lemma BareForbidden(detail: Option<string>)
    requires detail.None? || detail.value == ""
    ensures RewriteError(ErrorMessage(detail, 403)) == PasteTextGuidance
  {
    ThreeDigits(403);
    var m := "Server error: " + NatToString(403);
    assert m[14..17] == "403";
    ContainsAt(m, "403", 14);
  }

  /** A message is shown as it is exactly when neither rule matches it, or
      when it already is the guidance. */
  lemma MessageKept(m: string)
    ensures RewriteError(m) == m <==> m == PasteTextGuidance || (!LooksBlocked(m) && !Contains(m, "HTTP error"))
  {
    if m == PasteTextGuidance {
      GuidanceIsFixed();
    }
  }

  const FailureFallback: string := "Failed to generate explanation. Please try again."

  /** How a request ended: a response body that renders, an HTTP error with
      the `detail` of its JSON body (absent when the body is not JSON or has
      none), or an exception with its message. */
  datatype Outcome =
    | Delivered(data: ExplanationOutput)
    | HttpFailure(status: nat, detail: Option<string>)
    | Thrown(message: string)

  /** The message the `catch` block shows for a failed request. */
  function FailureMessage(o: Outcome): (r: string)
    requires !o.Delivered?
    ensures r != ""
    ensures o.HttpFailure? ==> r == RewriteError(ErrorMessage(o.detail, o.status))
    ensures o.Thrown? && o.message != "" ==> r == o.message
  {
    match o
    case HttpFailure(status, detail) =>
      var m := RewriteError(ErrorMessage(detail, status));
      assert m != "" by {
        var e := ErrorMessage(detail, status);
        assert e != "";
      }
      m
    case Thrown(m) => if m == "" then FailureFallback else m
  }

  // ---------------------------------------------------------------- handleGenerate, second half

  /** `handleGenerate` after the request ends.  Success replaces the output
      with the rendered explanation and shows it; failure shows one error
      notification.  On every path the loading state is left and, in the
      `finally` block, the flag is cleared and the button re-enabled. */
  function CompleteGenerate(s: Session, o: Outcome): (r: Session)
    ensures !r.isGenerating && r.buttonEnabled && !r.loadingShown
    ensures r.outputShown == (o.Delivered? || s.outputShown)
    ensures o.Delivered? ==> r.output == Renderer.RenderOutput(o.data) && r.notices == s.notices
    ensures !o.Delivered? ==> r.output == s.output && r.notices == s.notices + [NewlinesToBreaks(FailureMessage(o))]
    ensures r.activeMode == s.activeMode && r.urlText == s.urlText && r.pasteText == s.pasteText
    ensures r.urlInputHidden == s.urlInputHidden && r.textInputHidden == s.textInputHidden
    ensures r.currentStage == s.currentStage
  {
    var done := s.(loadingShown := false);
    var shown :=
      if o.Delivered? then done.(output := Renderer.RenderOutput(o.data), outputShown := true)
      else ShowError(done, FailureMessage(o));
    shown.(isGenerating := false, buttonEnabled := true)
  }

  // ---------------------------------------------------------------- the controller over time

  /** What can happen on the page. */
  datatype Event =
    | Click
    | Key(key: string)
    | Toggle(mode: InputType)
    | TypeUrl(text: string)
    | TypePaste(text: string)
    | Complete(outcome: Outcome)

  /** The page together with the number of requests in flight. */
  datatype World = World(session: Session, inFlight: nat)

  function Launch(w: World, r: Started): World {
    World(r.session, w.inFlight + if r.request.Some? then 1 else 0)
  }

  /** One event.  A completion arrives only for a request in flight. */
  function Step(w: World, e: Event): World {
    match e
    case Click => Launch(w, StartGenerate(w.session))
    case Key(k) => Launch(w, KeyPress(w.session, k))
    case Toggle(m) => w.(session := HandleToggle(w.session, m))
    case TypeUrl(t) => w.(session := w.session.(urlText := t))
    case TypePaste(t) => w.(session := w.session.(pasteText := t))
    case Complete(o) =>
      if w.inFlight == 0 then w else World(CompleteGenerate(w.session, o), w.inFlight - 1)
  }

  function Run(w: World, events: seq<Event>): World
    decreases |events|
  {
    if |events| == 0 then w else Run(Step(w, events[0]), events[1..])
  }

  /** At most one request is in flight, exactly while the flag is set; the
      button is enabled and the loading state hidden exactly when no request
      is in flight; exactly the active mode's input is visible. */
  predicate Consistent(w: World) {
    && w.inFlight <= 1
    && (w.inFlight == 1 <==> w.session.isGenerating)
    && (w.session.buttonEnabled <==> !w.session.isGenerating)
    && (w.session.loadingShown <==> w.session.isGenerating)
    && (w.session.urlInputHidden <==> w.session.activeMode != Url)
    && (w.session.textInputHidden <==> w.session.activeMode != Text)
  }

  lemma InitialConsistent(mode: InputType)
    ensures Consistent(World(Initial(mode), 0))
  {
  }

  lemma StepConsistent(w: World, e: Event)
    requires Consistent(w)
    ensures Consistent(Step(w, e))
  {
  }

  /** Single flight: however the user clicks, types and toggles, and however
      requests end, the page never has two requests in flight and its flags
      never disagree. */
  lemma {:induction false} RunConsistent(w: World, events: seq<Event>)
    requires Consistent(w)
    ensures Consistent(Run(w, events))
    decreases |events|
  {
    if |events| > 0 {
      StepConsistent(w, events[0]);
      RunConsistent(Step(w, events[0]), events[1..]);
    }
  }
}

=== FILE: chain.dfy ===
/**
 * Properties that cross the client/server boundary: what the page shows
 * for a reply of the `/generate` route.  FastAPI sends an `HTTPException`
 * as a JSON body `{"detail": ...}` with its status; the client reads the
 * detail back from that body.
 */
module Chain {
  import opened Wrappers
  import opened Strings
  import opened Models
  import Parser
  import Routes
  import App
  import Renderer
  import Document

  /** How a reply of the route reaches the client. */
  function ClientOutcome(r: Routes.Reply): (o: App.Outcome)
    ensures r.Success? <==> o.Delivered?
    ensures r.Success? ==> o.data == r.output
    ensures r.Failure? ==> o == App.HttpFailure(r.status, Some(r.detail))
  {
    match r
    case Success(out) => App.Delivered(out)
    case Failure(status, detail) => App.HttpFailure(status, Some(detail))
  }

  /** A parse error the route calls "Cannot access URL" becomes the client's
      Paste-Text guidance. */
  lemma BlockedParseErrorGuidance(msg: string)
    requires Routes.MentionsBlocking(msg)
    ensures App.FailureMessage(ClientOutcome(Routes.ParseFailure(msg))) == App.PasteTextGuidance
  {
    var detail := Routes.CannotAccessPrefix + msg + Routes.SolutionHint;
    assert Routes.ParseFailure(msg).detail == detail;
    if Contains(msg, "403") {
      ContainsInSuffix(Routes.CannotAccessPrefix, msg, "403");
      ContainsInPrefix(Routes.CannotAccessPrefix + msg, Routes.SolutionHint, "403");
    } else {
      ContainsInSuffix(Routes.CannotAccessPrefix, msg, "blocking");
      ContainsInPrefix(Routes.CannotAccessPrefix + msg, Routes.SolutionHint, "blocking");
    }
    assert detail != "";
  }

  /** Any URL whose parse fails with a message naming the status 403 or
      "blocking" ends in the Paste-Text guidance on the page. */
  lemma BlockedUrlGuidance(url: string, fetch: Parser.Fetch,
                           generate: (string, nat) -> Result<string, string>)
    requires Parser.ParseProblem(url, fetch).Err?
    requires Routes.MentionsBlocking(Parser.ParseProblem(url, fetch).error)
    ensures var reply := Routes.GenerateExplanation(ProblemInput(Url, url), fetch, generate);
            reply.Failure? && App.FailureMessage(ClientOutcome(reply)) == App.PasteTextGuidance
  {
    Routes.BlockedUrlReply(url, fetch, generate);
    BlockedParseErrorGuidance(Parser.ParseProblem(url, fetch).error);
  }

  /** LeetCode answering 403: the parser's message names the status, the
      route answers 400 "Cannot access URL", and the page shows the
      Paste-Text guidance. */
  lemma LeetCodeForbiddenShowsGuidance(url: string, e: string, page: Parser.Page,
                                       generate: (string, nat) -> Result<string, string>)
    requires Contains(Trim(url), "leetcode.com")
    ensures var reply := Routes.GenerateExplanation(ProblemInput(Url, url), Parser.Response(403, e, page), generate);
            && reply == Routes.Failure(400, Routes.CannotAccessPrefix + (Parser.FailurePrefix
                                            + Parser.LeetCodeForbidden) + Routes.SolutionHint)
            && App.FailureMessage(ClientOutcome(reply)) == App.PasteTextGuidance
  {
    var fetch := Parser.Response(403, e, page);
    Parser.LeetCodeForbiddenMessage(url, e, page);
    Routes.BlockedUrlReply(url, fetch, generate);
    BlockedUrlGuidance(url, fetch, generate);
  }

  /** The same guidance appears when LeetCode answers normally but the page
      holds no description longer than twenty characters. */
  lemma ShortDescriptionShowsGuidance(url: string, status: nat, e: string, page: Parser.Page,
                                      generate: (string, nat) -> Result<string, string>)
    requires Contains(Trim(url), "leetcode.com")
    requires Parser.IsSuccess(status) && |Parser.LeetCodeDescription(page)| <= Parser.MinDescriptionLength
    ensures var reply := Routes.GenerateExplanation(ProblemInput(Url, url), Parser.Response(status, e, page), generate);
            reply.Failure? && App.FailureMessage(ClientOutcome(reply)) == App.PasteTextGuidance
  {
    Parser.ShortDescriptionSaysBlocking(url, page, e, status);
    BlockedParseErrorGuidance(Parser.FailurePrefix + Parser.LeetCodeNoDescription);
  }

  /** A HackerRank 403 whose status error mentions the status gets the
      LeetCode guidance too: the route and the client only look for "403". */
  lemma HackerRankForbiddenShowsGuidance(url: string, e: string, page: Parser.Page,
                                         generate: (string, nat) -> Result<string, string>)
    requires !Contains(Trim(url), "leetcode.com") && Contains(Trim(url), "hackerrank.com")
    requires Contains(e, "403")
    ensures var reply := Routes.GenerateExplanation(ProblemInput(Url, url), Parser.Response(403, e, page), generate);
            reply.Failure? && App.FailureMessage(ClientOutcome(reply)) == App.PasteTextGuidance
  {
    Parser.HackerRankStatusMessage(url, e, page);
    BlockedUrlGuidance(url, Parser.Response(403, e, page), generate);
  }

  /** Every pasted-text request the client sends passes the server's length
      check: it either renders or fails in the model with a 500. */
  lemma ClientTextPassesLengthCheck(s: App.Session, fetch: Parser.Fetch,
                                    generate: (string, nat) -> Result<string, string>)
    requires App.StartGenerate(s).request.Some? && s.activeMode == Text
    ensures var p := App.StartGenerate(s).request.value;
            var reply := Routes.GenerateExplanation(p, fetch, generate);
            var g := generate(Routes.Prompt(p.content), Routes.MaxNewTokens);
            && (reply.Success? <==> g.Ok?)
            && (reply.Failure? ==> reply.status == 500)
  {
    App.RequestIsValid(s);
  }

  /** A delivered explanation shows the overview — the start of the problem
      text — without escaping, and the generated text only as code, which
      is escaped. */
  lemma ProblemTextShownVerbatim(t: string, g: string)
    ensures var shown := Document.DocShown(Renderer.RenderOutput(Routes.FallbackOutput(t, g)));
            && shown.verbatim[0] == Routes.Overview(t)
            && shown.code == ["# Brute force approach\n# Try all combinations\n# Check each possibility", g]
  {
    Renderer.RenderOutputShown(Routes.FallbackOutput(t, g));
  }

  /** Completing a request with a reply leaves the page idle; an error
      reply adds exactly the rewritten message as a notice. */
  lemma ReplyCompletes(s: App.Session, reply: Routes.Reply)
    requires reply.Failure?
    ensures var r := App.CompleteGenerate(s, ClientOutcome(reply));
            && !r.isGenerating && r.buttonEnabled
            && r.notices == s.notices + [App.NewlinesToBreaks(App.RewriteError(App.ErrorMessage(Some(reply.detail), reply.status)))]
  {
  }
}

=== FILE: decimal.dfy ===
/**
 * Decimal rendering of natural numbers, as JavaScript template literals and
 * Python f-strings print an integer status code or a 1-based position.
 */
module Decimal {

  predicate IsDigit(c: char) {
    '0' <= c <= '9'
  }

  predicate AllDigits(s: string) {
    forall i :: 0 <= i < |s| ==> IsDigit(s[i])
  }

  function DigitChar(d: nat): (c: char)
    requires d < 10
    ensures IsDigit(c)
  {
    ((d + '0' as int) as char)
  }

  function DigitValue(c: char): (d: nat)
    requires IsDigit(c)
    ensures d < 10
  {
    (c as int) - ('0' as int)
  }

  /** `${n}` / `f"{n}"` for a non-negative integer: its decimal digits,
      without leading zeros. */
  function NatToString(n: nat): (r: string)
    ensures |r| >= 1 && AllDigits(r)
    ensures |r| > 1 ==> r[0] != '0'
    decreases n
  {
    if n < 10 then [DigitChar(n)] else NatToString(n / 10) + [DigitChar(n % 10)]
  }

  /** The value of a string of decimal digits (the partner of `NatToString`). */
  function ParseNat(s: string): nat
    requires AllDigits(s)
    decreases |s|
  {
    if |s| == 0 then 0 else ParseNat(s[..|s| - 1]) * 10 + DigitValue(s[|s| - 1])
  }

  /** Printing a number and reading it back gives the number. */
  lemma {:induction false} ParsePrinted(n: nat)
    ensures ParseNat(NatToString(n)) == n
    decreases n
  {
    var r := NatToString(n);
    if n >= 10 {
      var front := NatToString(n / 10);
      assert r[..|r| - 1] == front;
      ParsePrinted(n / 10);
    }
  }

  /** Distinct numbers print differently. */
  lemma PrintInjective(m: nat, n: nat)
    requires NatToString(m) == NatToString(n)
    ensures m == n
  {
    ParsePrinted(m);
    ParsePrinted(n);
  }

  /** The digits of a three-digit number, most significant first. */
  lemma ThreeDigits(n: nat)
    requires 100 <= n < 1000
    ensures NatToString(n) == [DigitChar(n / 100), DigitChar(n / 10 % 10), DigitChar(n % 10)]
  {
    assert NatToString(n / 10) == NatToString(n / 10 / 10) + [DigitChar(n / 10 % 10)];
    assert n / 10 / 10 == n / 100;
  }
}

=== FILE: document.dfy ===
/**
 * The abstract document the client builds instead of DOM nodes.  A rendered
 * explanation is a sequence of collapsible sections; each section holds
 * content blocks.  Inside a block, every piece of text records how it
 * reaches the markup: written by the template itself, inserted verbatim
 * from the response, inserted through `escapeHtml`, or turned into a
 * difficulty badge.
 */
module Document {

  datatype Piece =
    | Markup(text: string)       // literal text of the template
    | Raw(text: string)          // response data inserted without escaping
    | Escaped(text: string)      // response data inserted as `escapeHtml(text)`
    | Badge(difficulty: string)  // `getDifficultyBadge(difficulty)`

  datatype Block =
    | ContentBlock(caption: string, value: seq<Piece>)  // `createContentBlock(caption, value)`
    | CodeBlock(caption: string, code: string)          // `createContentBlock(caption, code, true)`
    | ListBlock(ordered: bool, items: seq<seq<Piece>>)  // an `ol`/`ul` of `li` items
    | Card(pieces: seq<Piece>)                          // a hand-built `content-block`

  /** A collapsible section: header (icon and title) and content blocks. */
  datatype Section = Section(title: string, icon: string, blocks: seq<Block>)

  /** The label a single block carries: its caption, for content and code blocks. */
  function BlockLabel(b: Block): seq<string> {
    if b.ContentBlock? || b.CodeBlock? then [b.caption] else []
  }

  /** The labels of the content and code blocks, in order. */
  function Labels(blocks: seq<Block>): seq<string>
    decreases |blocks|
  {
    if |blocks| == 0 then [] else BlockLabel(blocks[0]) + Labels(blocks[1..])
  }

  lemma {:induction false} LabelsAppend(a: seq<Block>, b: seq<Block>)
    ensures Labels(a + b) == Labels(a) + Labels(b)
    decreases |a|
  {
    if |a| == 0 {
      assert a + b == b;
    } else {
      assert (a + b)[0] == a[0];
      assert (a + b)[1..] == a[1..] + b;
      LabelsAppend(a[1..], b);
      SeqAssoc3(BlockLabel(a[0]), Labels(a[1..]), Labels(b));
    }
  }

  lemma SeqAssoc3<T>(a: seq<T>, b: seq<T>, c: seq<T>)
    ensures a + (b + c) == a + b + c
  {
  }

  lemma SeqAssoc4<T>(a: seq<T>, b: seq<T>, c: seq<T>, d: seq<T>)
    ensures a + (b + (c + d)) == a + b + c + d
  {
  }

  lemma SeqAssoc5<T>(a: seq<T>, b: seq<T>, c: seq<T>, d: seq<T>, e: seq<T>)
    ensures a + (b + (c + (d + e))) == a + b + c + d + e
  {
  }

  /** The ways response data reaches the markup. */
  datatype Channel = Verbatim | Escaping | Badging

  /** The response text a single piece sends through `c`, if any. */
  function PieceTexts(p: Piece, c: Channel): seq<string> {
    match (p, c)
    case (Raw(t), Verbatim) => [t]
    case (Escaped(t), Escaping) => [t]
    case (Badge(d), Badging) => [d]
    case _ => []
  }

  /** The response texts among `ps` that reach the markup through `c`, in order. */
  function TextsVia(ps: seq<Piece>, c: Channel): seq<string>
    decreases |ps|
  {
    if |ps| == 0 then [] else PieceTexts(ps[0], c) + TextsVia(ps[1..], c)
  }

  /** `TextsVia` on a literal sequence of pieces, one piece at a time. */
  lemma TextsViaUnrolled(ps: seq<Piece>, c: Channel)
    ensures forall k :: 0 <= k < |ps| ==> TextsVia(ps[k..], c) == PieceTexts(ps[k], c) + TextsVia(ps[k + 1..], c)
    ensures TextsVia(ps[|ps|..], c) == []
  {
    forall k | 0 <= k < |ps|
      ensures TextsVia(ps[k..], c) == PieceTexts(ps[k], c) + TextsVia(ps[k + 1..], c)
    {
      assert ps[k..][1..] == ps[k + 1..];
    }
  }

  /** `TextsVia` of a block of up to four pieces, piece by piece. */
  lemma TextsVia1(ps: seq<Piece>, c: Channel)
    requires |ps| == 1
    ensures TextsVia(ps, c) == PieceTexts(ps[0], c)
  {
    TextsViaUnrolled(ps, c);
    assert TextsVia(ps[0..], c) == PieceTexts(ps[0], c) + TextsVia(ps[1..], c);
    assert ps[0..] == ps;
  }

  lemma TextsVia2(ps: seq<Piece>, c: Channel)
    requires |ps| == 2
    ensures TextsVia(ps, c) == PieceTexts(ps[0], c) + PieceTexts(ps[1], c)
  {
    TextsViaUnrolled(ps, c);
    assert TextsVia(ps[1..], c) == PieceTexts(ps[1], c) + TextsVia(ps[2..], c);
    assert TextsVia(ps[0..], c) == PieceTexts(ps[0], c) + TextsVia(ps[1..], c);
    assert ps[0..] == ps;
  }

  lemma TextsVia3(ps: seq<Piece>, c: Channel)
    requires |ps| == 3
    ensures TextsVia(ps, c) == PieceTexts(ps[0], c) + PieceTexts(ps[1], c) + PieceTexts(ps[2], c)
  {
    TextsViaUnrolled(ps, c);
    assert TextsVia(ps[2..], c) == PieceTexts(ps[2], c) + TextsVia(ps[3..], c);
    assert TextsVia(ps[1..], c) == PieceTexts(ps[1], c) + TextsVia(ps[2..], c);
    assert TextsVia(ps[0..], c) == PieceTexts(ps[0], c) + TextsVia(ps[1..], c);
    assert ps[0..] == ps;
  }

  lemma TextsVia4(ps: seq<Piece>, c: Channel)
    requires |ps| == 4
    ensures TextsVia(ps, c) == PieceTexts(ps[0], c) + PieceTexts(ps[1], c) + PieceTexts(ps[2], c) + PieceTexts(ps[3], c)
  {
    TextsViaUnrolled(ps, c);
    assert TextsVia(ps[3..], c) == PieceTexts(ps[3], c) + TextsVia(ps[4..], c);
    assert TextsVia(ps[2..], c) == PieceTexts(ps[2], c) + TextsVia(ps[3..], c);
    assert TextsVia(ps[1..], c) == PieceTexts(ps[1], c) + TextsVia(ps[2..], c);
    assert TextsVia(ps[0..], c) == PieceTexts(ps[0], c) + TextsVia(ps[1..], c);
    assert ps[0..] == ps;
  }

  /** `TextsVia` of a seven-piece card, piece by piece. */
  lemma TextsVia7(ps: seq<Piece>, c: Channel)
    requires |ps| == 7
    ensures TextsVia(ps, c) == PieceTexts(ps[0], c) + PieceTexts(ps[1], c) + PieceTexts(ps[2], c) + PieceTexts(ps[3], c) + PieceTexts(ps[4], c) + PieceTexts(ps[5], c) + PieceTexts(ps[6], c)
  {
    TextsViaUnrolled(ps, c);
    assert TextsVia(ps[6..], c) == PieceTexts(ps[6], c) + TextsVia(ps[7..], c);
    assert TextsVia(ps[5..], c) == PieceTexts(ps[5], c) + TextsVia(ps[6..], c);
    assert TextsVia(ps[4..], c) == PieceTexts(ps[4], c) + TextsVia(ps[5..], c);
    assert TextsVia(ps[3..], c) == PieceTexts(ps[3], c) + TextsVia(ps[4..], c);
    assert TextsVia(ps[2..], c) == PieceTexts(ps[2], c) + TextsVia(ps[3..], c);
    assert TextsVia(ps[1..], c) == PieceTexts(ps[1], c) + TextsVia(ps[2..], c);
    assert TextsVia(ps[0..], c) == PieceTexts(ps[0], c) + TextsVia(ps[1..], c);
    assert ps[0..] == ps;
  }

  lemma {:induction false} TextsViaAppend(a: seq<Piece>, b: seq<Piece>, c: Channel)
    ensures TextsVia(a + b, c) == TextsVia(a, c) + TextsVia(b, c)
    decreases |a|
  {
    if |a| == 0 {
      assert a + b == b;
    } else {
      assert (a + b)[1..] == a[1..] + b;
      TextsViaAppend(a[1..], b, c);
    }
  }

  /** The pieces of a list, item after item. */
  function Flatten(items: seq<seq<Piece>>): seq<Piece>
    decreases |items|
  {
    if |items| == 0 then [] else items[0] + Flatten(items[1..])
  }

  /** The pieces a block shows besides code. */
  function BlockPieces(b: Block): seq<Piece> {
    match b
    case ContentBlock(_, v) => v
    case CodeBlock(_, _) => []
    case ListBlock(_, items) => Flatten(items)
    case Card(ps) => ps
  }

  /** The response texts a sequence of blocks shows through `c`, in order. */
  function BlocksTexts(bs: seq<Block>, c: Channel): seq<string>
    decreases |bs|
  {
    if |bs| == 0 then [] else TextsVia(BlockPieces(bs[0]), c) + BlocksTexts(bs[1..], c)
  }

  lemma {:induction false} BlocksTextsAppend(a: seq<Block>, b: seq<Block>, c: Channel)
    ensures BlocksTexts(a + b, c) == BlocksTexts(a, c) + BlocksTexts(b, c)
    decreases |a|
  {
    if |a| == 0 {
      assert a + b == b;
    } else {
      assert (a + b)[1..] == a[1..] + b;
      BlocksTextsAppend(a[1..], b, c);
    }
  }

  /** The code a single block shows. */
  function BlockCode(b: Block): seq<string> {
    if b.CodeBlock? then [b.code] else []
  }

  /** The texts shown in code blocks, in order. */
  function BlocksCode(bs: seq<Block>): seq<string>
    decreases |bs|
  {
    if |bs| == 0 then [] else BlockCode(bs[0]) + BlocksCode(bs[1..])
  }

  lemma {:induction false} BlocksCodeAppend(a: seq<Block>, b: seq<Block>)
    ensures BlocksCode(a + b) == BlocksCode(a) + BlocksCode(b)
    decreases |a|
  {
    if |a| == 0 {
      assert a + b == b;
    } else {
      assert (a + b)[1..] == a[1..] + b;
      BlocksCodeAppend(a[1..], b);
    }
  }

  /** The collectors over a section of up to six blocks, block by block. */
  lemma Blocks1(bs: seq<Block>, c: Channel)
    requires |bs| == 1
    ensures BlocksTexts(bs, c) == TextsVia(BlockPieces(bs[0]), c)
    ensures BlocksCode(bs) == BlockCode(bs[0])
  {
    assert bs[1..] == [];
  }

  lemma Blocks2(bs: seq<Block>, c: Channel)
    requires |bs| == 2
    ensures BlocksTexts(bs, c) == TextsVia(BlockPieces(bs[0]), c) + TextsVia(BlockPieces(bs[1]), c)
    ensures BlocksCode(bs) == BlockCode(bs[0]) + BlockCode(bs[1])
  {
    Blocks1(bs[1..], c);
  }

  lemma Blocks3(bs: seq<Block>, c: Channel)
    requires |bs| == 3
    ensures BlocksTexts(bs, c) == TextsVia(BlockPieces(bs[0]), c) + (TextsVia(BlockPieces(bs[1]), c) + TextsVia(BlockPieces(bs[2]), c))
    ensures BlocksCode(bs) == BlockCode(bs[0]) + (BlockCode(bs[1]) + BlockCode(bs[2]))
  {
    Blocks2(bs[1..], c);
  }

  lemma Blocks4(bs: seq<Block>, c: Channel)
    requires |bs| == 4
    ensures BlocksTexts(bs, c) == TextsVia(BlockPieces(bs[0]), c) + (TextsVia(BlockPieces(bs[1]), c) + (TextsVia(BlockPieces(bs[2]), c) + TextsVia(BlockPieces(bs[3]), c)))
    ensures BlocksCode(bs) == BlockCode(bs[0]) + (BlockCode(bs[1]) + (BlockCode(bs[2]) + BlockCode(bs[3])))
  {
    Blocks3(bs[1..], c);
  }

  lemma Blocks5(bs: seq<Block>, c: Channel)
    requires |bs| == 5
    ensures BlocksTexts(bs, c) == TextsVia(BlockPieces(bs[0]), c) + (TextsVia(BlockPieces(bs[1]), c) + (TextsVia(BlockPieces(bs[2]), c) + (TextsVia(BlockPieces(bs[3]), c) + TextsVia(BlockPieces(bs[4]), c))))
    ensures BlocksCode(bs) == BlockCode(bs[0]) + (BlockCode(bs[1]) + (BlockCode(bs[2]) + (BlockCode(bs[3]) + BlockCode(bs[4]))))
  {
    Blocks4(bs[1..], c);
  }

  lemma Blocks6(bs: seq<Block>, c: Channel)
    requires |bs| == 6
    ensures BlocksTexts(bs, c) == TextsVia(BlockPieces(bs[0]), c) + (TextsVia(BlockPieces(bs[1]), c) + (TextsVia(BlockPieces(bs[2]), c) + (TextsVia(BlockPieces(bs[3]), c) + (TextsVia(BlockPieces(bs[4]), c) + TextsVia(BlockPieces(bs[5]), c)))))
    ensures BlocksCode(bs) == BlockCode(bs[0]) + (BlockCode(bs[1]) + (BlockCode(bs[2]) + (BlockCode(bs[3]) + (BlockCode(bs[4]) + BlockCode(bs[5])))))
  {
    Blocks5(bs[1..], c);
  }

  /** The response texts a whole document shows through `c`, section by section. */
  function DocTexts(doc: seq<Section>, c: Channel): seq<string>
    decreases |doc|
  {
    if |doc| == 0 then [] else BlocksTexts(doc[0].blocks, c) + DocTexts(doc[1..], c)
  }

  /** The code a whole document shows, section by section. */
  function DocCode(doc: seq<Section>): seq<string>
    decreases |doc|
  {
    if |doc| == 0 then [] else BlocksCode(doc[0].blocks) + DocCode(doc[1..])
  }

  /** The document collectors over up to eight sections, section by section. */
  lemma Doc1(doc: seq<Section>, c: Channel)
    requires |doc| == 1
    ensures DocTexts(doc, c) == BlocksTexts(doc[0].blocks, c)
    ensures DocCode(doc) == BlocksCode(doc[0].blocks)
  {
    assert doc[1..] == [];
  }

  lemma Doc2(doc: seq<Section>, c: Channel)
    requires |doc| == 2
    ensures DocTexts(doc, c) == BlocksTexts(doc[0].blocks, c) + BlocksTexts(doc[1].blocks, c)
    ensures DocCode(doc) == BlocksCode(doc[0].blocks) + BlocksCode(doc[1].blocks)
  {
    Doc1(doc[1..], c);
  }

  lemma Doc3(doc: seq<Section>, c: Channel)
    requires |doc| == 3
    ensures DocTexts(doc, c) == BlocksTexts(doc[0].blocks, c) + (BlocksTexts(doc[1].blocks, c) + BlocksTexts(doc[2].blocks, c))
    ensures DocCode(doc) == BlocksCode(doc[0].blocks) + (BlocksCode(doc[1].blocks) + BlocksCode(doc[2].blocks))
  {
    Doc2(doc[1..], c);
  }

  lemma Doc4(doc: seq<Section>, c: Channel)
    requires |doc| == 4
    ensures DocTexts(doc, c) == BlocksTexts(doc[0].blocks, c) + (BlocksTexts(doc[1].blocks, c) + (BlocksTexts(doc[2].blocks, c) + BlocksTexts(doc[3].blocks, c)))
    ensures DocCode(doc) == BlocksCode(doc[0].blocks) + (BlocksCode(doc[1].blocks) + (BlocksCode(doc[2].blocks) + BlocksCode(doc[3].blocks)))
  {
    Doc3(doc[1..], c);
  }

  lemma Doc5(doc: seq<Section>, c: Channel)
    requires |doc| == 5
    ensures DocTexts(doc, c) == BlocksTexts(doc[0].blocks, c) + (BlocksTexts(doc[1].blocks, c) + (BlocksTexts(doc[2].blocks, c) + (BlocksTexts(doc[3].blocks, c) + BlocksTexts(doc[4].blocks, c))))
    ensures DocCode(doc) == BlocksCode(doc[0].blocks) + (BlocksCode(doc[1].blocks) + (BlocksCode(doc[2].blocks) + (BlocksCode(doc[3].blocks) + BlocksCode(doc[4].blocks))))
  {
    Doc4(doc[1..], c);
  }

  lemma Doc6(doc: seq<Section>, c: Channel)
    requires |doc| == 6
    ensures DocTexts(doc, c) == BlocksTexts(doc[0].blocks, c) + (BlocksTexts(doc[1].blocks, c) + (BlocksTexts(doc[2].blocks, c) + (BlocksTexts(doc[3].blocks, c) + (BlocksTexts(doc[4].blocks, c) + BlocksTexts(doc[5].blocks, c)))))
    ensures DocCode(doc) == BlocksCode(doc[0].blocks) + (BlocksCode(doc[1].blocks) + (BlocksCode(doc[2].blocks) + (BlocksCode(doc[3].blocks) + (BlocksCode(doc[4].blocks) + BlocksCode(doc[5].blocks)))))
  {
    Doc5(doc[1..], c);
  }

  lemma Doc7(doc: seq<Section>, c: Channel)
    requires |doc| == 7
    ensures DocTexts(doc, c) == BlocksTexts(doc[0].blocks, c) + (BlocksTexts(doc[1].blocks, c) + (BlocksTexts(doc[2].blocks, c) + (BlocksTexts(doc[3].blocks, c) + (BlocksTexts(doc[4].blocks, c) + (BlocksTexts(doc[5].blocks, c) + BlocksTexts(doc[6].blocks, c))))))
    ensures DocCode(doc) == BlocksCode(doc[0].blocks) + (BlocksCode(doc[1].blocks) + (BlocksCode(doc[2].blocks) + (BlocksCode(doc[3].blocks) + (BlocksCode(doc[4].blocks) + (BlocksCode(doc[5].blocks) + BlocksCode(doc[6].blocks))))))
  {
    Doc6(doc[1..], c);
  }

  lemma Doc8(doc: seq<Section>, c: Channel)
    requires |doc| == 8
    ensures DocTexts(doc, c) == BlocksTexts(doc[0].blocks, c) + (BlocksTexts(doc[1].blocks, c) + (BlocksTexts(doc[2].blocks, c) + (BlocksTexts(doc[3].blocks, c) + (BlocksTexts(doc[4].blocks, c) + (BlocksTexts(doc[5].blocks, c) + (BlocksTexts(doc[6].blocks, c) + BlocksTexts(doc[7].blocks, c)))))))
    ensures DocCode(doc) == BlocksCode(doc[0].blocks) + (BlocksCode(doc[1].blocks) + (BlocksCode(doc[2].blocks) + (BlocksCode(doc[3].blocks) + (BlocksCode(doc[4].blocks) + (BlocksCode(doc[5].blocks) + (BlocksCode(doc[6].blocks) + BlocksCode(doc[7].blocks)))))))
  {
    Doc7(doc[1..], c);
  }

  /** What a group of blocks shows, channel by channel, and its code. */
  datatype Shown = Shown(verbatim: seq<string>, escaped: seq<string>, badges: seq<string>, code: seq<string>)

  function ShownBy(bs: seq<Block>): Shown {
    Shown(BlocksTexts(bs, Verbatim), BlocksTexts(bs, Escaping), BlocksTexts(bs, Badging), BlocksCode(bs))
  }

  function DocShown(doc: seq<Section>): Shown {
    Shown(DocTexts(doc, Verbatim), DocTexts(doc, Escaping), DocTexts(doc, Badging), DocCode(doc))
  }
}

=== FILE: html.dfy ===
/**
 * `escapeHtml` (frontend/js/utils.js) assigns the text to a `div`'s
 * `textContent` and reads back `innerHTML`.  The browser serialises the
 * text node with the "escaping a string" step of the HTML fragment
 * serialisation algorithm (section 13.3 of the HTML Standard), not in
 * attribute mode: `&` becomes `&amp;`, U+00A0 becomes `&nbsp;`, `<`
 * becomes `&lt;` and `>` becomes `&gt;`; every other character is kept.
 */
module Html {
  import opened Strings

  const Nbsp: char := '\U{00A0}'

  /** The characters the serialiser replaces by a character reference. */
  predicate IsSpecial(c: char) {
    c == '&' || c == Nbsp || c == '<' || c == '>'
  }

  function EscapeChar(c: char): (r: string)
    ensures |r| >= 1
    ensures '<' !in r && '>' !in r
  {
    if c == '&' then "&amp;"
    else if c == Nbsp then "&nbsp;"
    else if c == '<' then "&lt;"
    else if c == '>' then "&gt;"
    else [c]
  }

  /** `escapeHtml(text)`. */
  function Esc(s: string): (r: string)
    ensures |r| >= |s|
    ensures '<' !in r && '>' !in r
    ensures (forall i :: 0 <= i < |s| ==> !IsSpecial(s[i])) ==> r == s
    decreases |s|
  {
    if |s| == 0 then [] else EscapeChar(s[0]) + Esc(s[1..])
  }

  /** Decoding of the four character references `Esc` produces, as the HTML
      parser performs when the markup is read back. */
  function Unescape(s: string): string
    decreases |s|
  {
    if |s| == 0 then []
    else if StartsWith(s, "&amp;") then "&" + Unescape(s[5..])
    else if StartsWith(s, "&nbsp;") then [Nbsp] + Unescape(s[6..])
    else if StartsWith(s, "&lt;") then "<" + Unescape(s[4..])
    else if StartsWith(s, "&gt;") then ">" + Unescape(s[4..])
    else [s[0]] + Unescape(s[1..])
  }

  /** Reading back one escaped character yields the character. */
  lemma UnescapeAfterReference(c: char, rest: string)
    ensures Unescape(EscapeChar(c) + rest) == [c] + Unescape(rest)
  {
    if c == '&' {
      UnescapeAmp(rest);
    } else if c == Nbsp {
      UnescapeNbsp(rest);
    } else if c == '<' {
      UnescapeLt(rest);
    } else if c == '>' {
      UnescapeGt(rest);
    } else {
      UnescapePlain(c, rest);
    }
  }

  lemma UnescapePlain(c: char, rest: string)
    requires !IsSpecial(c)
    ensures Unescape([c] + rest) == [c] + Unescape(rest)
  {
    var e := [c] + rest;
    assert e[0] == c && e[1..] == rest;
  }

  lemma UnescapeAmp(rest: string)
    ensures Unescape("&amp;" + rest) == "&" + Unescape(rest)
  {
    var e := "&amp;" + rest;
    assert StartsWith(e, "&amp;") && e[5..] == rest;
  }

  lemma UnescapeNbsp(rest: string)
    ensures Unescape("&nbsp;" + rest) == [Nbsp] + Unescape(rest)
  {
    var e := "&nbsp;" + rest;
    assert e[1] == 'n' && e[..5][1] == 'n';
    assert StartsWith(e, "&nbsp;") && e[6..] == rest;
  }

  lemma UnescapeLt(rest: string)
    ensures Unescape("&lt;" + rest) == "<" + Unescape(rest)
  {
    var e := "&lt;" + rest;
    assert e[1] == 'l' && (|e| >= 5 ==> e[..5][1] == 'l') && (|e| >= 6 ==> e[..6][1] == 'l');
    assert StartsWith(e, "&lt;") && e[4..] == rest;
  }

  lemma UnescapeGt(rest: string)
    ensures Unescape("&gt;" + rest) == ">" + Unescape(rest)
  {
    var e := "&gt;" + rest;
    assert e[1] == 'g' && (|e| >= 5 ==> e[..5][1] == 'g') && (|e| >= 6 ==> e[..6][1] == 'g') && e[..4][1] == 'g';
    assert StartsWith(e, "&gt;") && e[4..] == rest;
  }

  /** Escaping loses nothing: reading the escaped markup back yields the text. */
  lemma {:induction false} UnescapeEsc(s: string)
    ensures Unescape(Esc(s)) == s
    decreases |s|
  {
    if |s| > 0 {
      UnescapeAfterReference(s[0], Esc(s[1..]));
      UnescapeEsc(s[1..]);
      assert [s[0]] + s[1..] == s;
    }
  }

  /** Hence escaping is injective: different texts never display the same. */
  lemma EscInjective(s: string, t: string)
    requires Esc(s) == Esc(t)
    ensures s == t
  {
    UnescapeEsc(s);
    UnescapeEsc(t);
  }
}

=== FILE: models.dfy ===
/**
 * The request and response records of the generation API
 * (backend/api/models.py).  Lists are sequences, `str` is `string`.
 * `difficulty` stays a free string in both places it occurs: the backend
 * does not restrict it to Easy/Medium/Hard.
 */
module Models {
  import opened Wrappers

  /** `input_type: Literal["url", "text"]`. */
  datatype InputType = Url | Text

  /** The wire spelling of an input type. */
  function InputTypeName(t: InputType): string {
    match t
    case Url => "url"
    case Text => "text"
  }

  /** Validation of the literal: exactly the two wire spellings are accepted,
      and each is read back as the input type that prints as it. */
  function ParseInputType(s: string): (r: Option<InputType>)
    ensures r.Some? <==> (s == "url" || s == "text")
    ensures r.Some? ==> InputTypeName(r.value) == s
  {
    if s == "url" then Some(Url) else if s == "text" then Some(Text) else None
  }

  datatype ProblemInput = ProblemInput(inputType: InputType, content: string)

  /** Validation of a request body given as its string-valued JSON fields:
      both fields are required and `input_type` must be one of the two
      literals; `content` is any string, the empty one included. */
  function ValidateProblemInput(body: map<string, string>): (r: Option<ProblemInput>)
    ensures r.Some? <==> ("input_type" in body && "content" in body
                          && (body["input_type"] == "url" || body["input_type"] == "text"))
    ensures r.Some? ==> r.value.content == body["content"]
                        && InputTypeName(r.value.inputType) == body["input_type"]
  {
    if "input_type" in body && "content" in body then
      match ParseInputType(body["input_type"])
      case Some(t) => Some(ProblemInput(t, body["content"]))
      case None => None
    else None
  }

  /** The request body the client sends for a validated input. */
  function ProblemInputBody(p: ProblemInput): map<string, string> {
    map["input_type" := InputTypeName(p.inputType), "content" := p.content]
  }

  /** Every request the client can send passes validation unchanged. */
  lemma ProblemInputRoundTrip(p: ProblemInput)
    ensures ValidateProblemInput(ProblemInputBody(p)) == Some(p)
  {
    match p.inputType
    case Url =>
    case Text =>
  }

  datatype ConceptsData = ConceptsData(
    concepts: seq<string>,
    prerequisites: seq<string>,
    difficulty: string,
    difficultyReason: string,
    analogy: string)

  datatype ApproachData = ApproachData(
    name: string,
    intuition: string,
    keyInsight: string,
    pseudocode: string,
    timeComplexity: string,
    spaceComplexity: string,
    limitation: string,
    whyOptimal: string)

  /** The value of an optional string field: its default `""` when absent. */
  function FieldOrEmpty(fields: map<string, string>, key: string): string {
    if key in fields then fields[key] else ""
  }

  /** Validation of an approach object given as its string-valued fields:
      `name`, `pseudocode`, `time_complexity` and `space_complexity` are
      required; the four optional fields default to the empty string. */
  function ValidateApproach(fields: map<string, string>): (r: Option<ApproachData>)
    ensures r.Some? <==> ("name" in fields && "pseudocode" in fields
                          && "time_complexity" in fields && "space_complexity" in fields)
    ensures r.Some? ==> && r.value.name == fields["name"]
                        && r.value.pseudocode == fields["pseudocode"]
                        && r.value.timeComplexity == fields["time_complexity"]
                        && r.value.spaceComplexity == fields["space_complexity"]
    ensures r.Some? ==> && (r.value.intuition == if "intuition" in fields then fields["intuition"] else "")
                        && (r.value.keyInsight == if "key_insight" in fields then fields["key_insight"] else "")
                        && (r.value.limitation == if "limitation" in fields then fields["limitation"] else "")
                        && (r.value.whyOptimal == if "why_optimal" in fields then fields["why_optimal"] else "")
  {
    if "name" in fields && "pseudocode" in fields
       && "time_complexity" in fields && "space_complexity" in fields
    then
      Some(ApproachData(
             fields["name"],
             FieldOrEmpty(fields, "intuition"),
             FieldOrEmpty(fields, "key_insight"),
             fields["pseudocode"],
             fields["time_complexity"],
             fields["space_complexity"],
             FieldOrEmpty(fields, "limitation"),
             FieldOrEmpty(fields, "why_optimal")))
    else None
  }

  /** The JSON fields of an approach, as the model serialises it. */
  function ApproachFields(a: ApproachData): map<string, string> {
    map[
      "name" := a.name,
      "intuition" := a.intuition,
      "key_insight" := a.keyInsight,
      "pseudocode" := a.pseudocode,
      "time_complexity" := a.timeComplexity,
      "space_complexity" := a.spaceComplexity,
      "limitation" := a.limitation,
      "why_optimal" := a.whyOptimal]
  }

  /** Serialising an approach and validating it back gives the same approach. */
  lemma ApproachRoundTrip(a: ApproachData)
    ensures ValidateApproach(ApproachFields(a)) == Some(a)
  {
  }

  /** Leaving an optional field out is the same as sending it empty. */
  lemma ApproachOmittedOptional(a: ApproachData, key: string)
    requires key in {"intuition", "key_insight", "limitation", "why_optimal"}
    ensures ValidateApproach(ApproachFields(a) - {key})
            == ValidateApproach(ApproachFields(a)[key := ""])
  {
  }

  datatype WorkedExample = WorkedExample(input: string, steps: seq<string>, output: string)

  datatype Pitfall = Pitfall(mistake: string, whyFails: string, fix: string)

  datatype RelatedProblem = RelatedProblem(
    name: string,
    platform: string,
    difficulty: string,
    similarity: string,
    difference: string)

  /** The response: exactly the eight top-level fields of the API. */
  datatype ExplanationOutput = ExplanationOutput(
    overview: string,
    concepts: ConceptsData,
    naiveApproach: ApproachData,
    optimalApproach: ApproachData,
    workedExample: WorkedExample,
    pitfalls: seq<Pitfall>,
    edgeCases: seq<string>,
    relatedProblems: seq<RelatedProblem>)
}

=== FILE: parser.dfy ===
/**
 * The problem parser of the backend (backend/services/parser.py): platform
 * dispatch on the URL, the LeetCode description fallback chain with its
 * status-code messages, the HackerRank statement lookup, and `clean_text`.
 * The HTTP request and the HTML lookups are not modelled: the response the
 * server receives for the stripped URL is a parameter, and each element the
 * parser looks for is an `Option<string>` holding its text when found.
 */
module Parser {
  import opened Wrappers
  import opened Strings
  import opened Decimal

  // ---------------------------------------------------------------- inputs

  /** The texts of the page elements the parser looks for; `None` when the
      element is absent, `Some("")` when it is present but empty. */
  datatype Page = Page(
    descriptionDiv: Option<string>,  // the description `div` (`_1l1MA|elfjS|content__`)
    ogDescription: Option<string>,   // the `content` of `meta[property=og:description]`
    title: Option<string>,           // the `title` element
    statement: Option<string>)       // HackerRank's `problem-statement|challenge-body-html` div

  /** What the HTTP client reports for the request: a transport failure (an
      `httpx.HTTPError` other than a status error) with its message; an
      exception outside that hierarchy, such as the `httpx.InvalidURL` a
      malformed URL raises before any request is sent, with its message; or
      a response with its status, the text `str(e)` of the status error
      `raise_for_status` would raise, and the page. */
  datatype Fetch =
    | TransportError(message: string)
    | UncaughtError(message: string)
    | Response(status: nat, statusError: string, page: Page)

  /** `raise_for_status` passes exactly the 2xx statuses. */
  predicate IsSuccess(status: nat) {
    200 <= status < 300
  }

  // ---------------------------------------------------------------- messages

  const FailurePrefix: string := "Failed to parse problem from URL: "
  const Unsupported: string :=
    "Unsupported platform. Please use LeetCode or HackerRank URLs, or paste text directly."
  const ForbiddenHead: string := "LeetCode is " + "blocking" + " automated requests ("
  const ForbiddenTail: string :=
    " Forbidden). Please copy and paste the problem text directly using the 'Paste Text' option instead."
  const LeetCodeForbidden: string := ForbiddenHead + "403" + ForbiddenTail
  const NoDescriptionHead: string := "Could not extract problem description from LeetCode URL. LeetCode may be "
  const NoDescriptionTail: string := " automated requests. Please paste the problem text directly instead."
  const LeetCodeNoDescription: string := NoDescriptionHead + "blocking" + NoDescriptionTail
  const HackerRankNoStatement: string := "Could not extract problem description from HackerRank URL"
  const HackerRankHttpPrefix: string := "HTTP error accessing HackerRank: "

  /** A description must be longer than this to be accepted. */
  const MinDescriptionLength: nat := 20

  function NetworkMessage(message: string): string {
    "Network error accessing LeetCode: " + message
    + ". Please check your internet connection or paste the problem text directly."
  }

  function LeetCodeHttpMessage(status: nat, statusError: string): string {
    "HTTP error accessing LeetCode (" + NatToString(status) + "): " + statusError
  }

  /** Both 403-forbidden and no-description messages say "blocking"; the
      former also carries the status "403". */
  lemma BlockingMessages()
    ensures Contains(LeetCodeForbidden, "403") && Contains(LeetCodeForbidden, "blocking")
    ensures Contains(LeetCodeNoDescription, "blocking")
  {
    ContainsMiddle(ForbiddenHead, "403", ForbiddenTail);
    ContainsMiddle("LeetCode is ", "blocking", " automated requests (");
    ContainsInPrefix(ForbiddenHead, "403" + ForbiddenTail, "blocking");
    assert ForbiddenHead + ("403" + ForbiddenTail) == LeetCodeForbidden;
    ContainsMiddle(NoDescriptionHead, "blocking", NoDescriptionTail);
  }

  // ---------------------------------------------------------------- clean_text

  /** Only the plain space is left of the whitespace characters, and never
      two in a row: the shape of `re.sub(r'\s+', ' ', text)`. */
  predicate Collapsed(s: string) {
    && (forall i :: 0 <= i < |s| ==> IsSpace(s[i]) ==> s[i] == ' ')
    && (forall i :: 0 <= i < |s| - 1 ==> !(s[i] == ' ' && s[i + 1] == ' '))
  }

  /** Only the plain space is left of the whitespace characters. */
  predicate PlainSpaced(s: string) {
    forall i :: 0 <= i < |s| ==> IsSpace(s[i]) ==> s[i] == ' '
  }

  /** `re.sub(r'\s+', ' ', text)`: every maximal run of whitespace becomes
      one space. */
  function CollapseSpace(s: string): (r: string)
    ensures Collapsed(r)
    ensures |r| <= |s|
    ensures |s| > 0 ==> |r| > 0 && (IsSpace(s[0]) <==> r[0] == ' ')
    ensures |s| > 0 && !IsSpace(s[0]) ==> r[0] == s[0]
    decreases |s|
  {
    if |s| == 0 then []
    else if IsSpace(s[0]) then
      var k := SkipSpaceForward(s, 0);
      " " + CollapseSpace(s[k..])
    else
      [s[0]] + CollapseSpace(s[1..])
  }

  /** The non-whitespace characters of a string, in order. */
  function Visible(s: string): string
    decreases |s|
  {
    if |s| == 0 then [] else (if IsSpace(s[0]) then [] else [s[0]]) + Visible(s[1..])
  }

  /** A prefix made only of whitespace contributes nothing visible. */
  lemma {:induction false} VisibleSkipsSpace(s: string, k: nat)
    requires k <= |s|
    requires forall i :: 0 <= i < k ==> IsSpace(s[i])
    ensures Visible(s) == Visible(s[k..])
    decreases k
  {
    if k > 0 {
      assert s[1..][k - 1..] == s[k..];
      VisibleSkipsSpace(s[1..], k - 1);
    }
  }

  /** Collapsing keeps every visible character, in order. */
  lemma {:induction false} CollapseKeepsVisible(s: string)
    ensures Visible(CollapseSpace(s)) == Visible(s)
    decreases |s|
  {
    if |s| > 0 {
      if IsSpace(s[0]) {
        var k := SkipSpaceForward(s, 0);
        var t := CollapseSpace(s[k..]);
        assert (" " + t)[1..] == t;
        CollapseKeepsVisible(s[k..]);
        VisibleSkipsSpace(s, k);
      } else {
        var t := CollapseSpace(s[1..]);
        assert ([s[0]] + t)[1..] == t;
        CollapseKeepsVisible(s[1..]);
      }
    }
  }

  /** Text that is already collapsed is left as it is: collapsing is idempotent. */
  lemma {:induction false} CollapseOfCollapsed(s: string)
    requires Collapsed(s)
    ensures CollapseSpace(s) == s
    decreases |s|
  {
    if |s| > 0 {
      assert Collapsed(s[1..]);
      if IsSpace(s[0]) {
        assert SkipSpaceForward(s, 0) == 1 by {
          assert SkipSpaceForward(s, 0) == SkipSpaceForward(s, 1);
          assert |s| == 1 || !IsSpace(s[1]);
        }
      }
      CollapseOfCollapsed(s[1..]);
      assert s == [s[0]] + s[1..];
    }
  }

  lemma CollapseIdempotent(s: string)
    ensures CollapseSpace(CollapseSpace(s)) == CollapseSpace(s)
  {
    CollapseOfCollapsed(CollapseSpace(s));
  }

  /** Characters other than whitespace are copied as they are. */
  lemma {:induction false} CollapseKeepsWord(v: string, t: string)
    requires forall i :: 0 <= i < |v| ==> !IsSpace(v[i])
    ensures CollapseSpace(v + t) == v + CollapseSpace(t)
    decreases |v|
  {
    if |v| == 0 {
      assert v + t == t;
    } else {
      var s := v + t;
      assert s[0] == v[0];
      assert s[1..] == v[1..] + t;
      CollapseKeepsWord(v[1..], t);
      assert v == [v[0]] + v[1..];
    }
  }

  /** A whole run of whitespace, up to the next visible character or the
      end, becomes exactly one space. */
  lemma CollapseRun(w: string, t: string)
    requires |w| > 0 && forall i :: 0 <= i < |w| ==> IsSpace(w[i])
    requires |t| == 0 || !IsSpace(t[0])
    ensures CollapseSpace(w + t) == " " + CollapseSpace(t)
  {
    var s := w + t;
    assert s[0] == w[0];
    var k := SkipSpaceForward(s, 0);
    assert k == |w| by {
      assert forall i :: 0 <= i < |w| ==> s[i] == w[i];
      if |t| > 0 {
        assert s[|w|] == t[0];
      }
    }
    assert s[k..] == t;
  }

  /** The alternatives of the noise pattern
      `(Sign in|Register|Subscribe|Premium|Discuss|Solutions?|Submissions?)`,
      lower-cased, in the order the regular expression tries them; the
      greedy `s?` tries the longer spelling first. */
  const NoiseWords: seq<string> := [
    "sign in", "register", "subscribe", "premium", "discuss",
    "solutions", "solution", "submissions", "submission"]

  /** `s` starts with the lower-case word `w`, ignoring ASCII case. */
  predicate StartsWithFolded(s: string, w: string) {
    |w| <= |s| && forall i :: 0 <= i < |w| ==> LowerChar(s[i]) == w[i]
  }

  /** `words[k]` is the first word of `words` that `s` starts with
      (ignoring case): the alternative a regular expression takes. */
  predicate FirstWordAt(s: string, words: seq<string>, k: nat) {
    && k < |words| && StartsWithFolded(s, words[k])
    && forall j :: 0 <= j < k ==> !StartsWithFolded(s, words[j])
  }

  /** The length of the first word of `words` that `s` starts with (ignoring
      case), or 0 when there is none. */
  function MatchLength(s: string, words: seq<string>): (n: nat)
    requires forall i :: 0 <= i < |words| ==> |words[i]| > 0
    ensures n <= |s|
    ensures n == 0 <==> forall i :: 0 <= i < |words| ==> !StartsWithFolded(s, words[i])
    ensures n > 0 ==> exists i :: 0 <= i < |words| && |words[i]| == n && StartsWithFolded(s, words[i])
    ensures forall k: nat :: FirstWordAt(s, words, k) ==> n == |words[k]|
    decreases |words|
  {
    if |words| == 0 then 0
    else if StartsWithFolded(s, words[0]) then |words[0]|
    else
      var n := MatchLength(s, words[1..]);
      assert forall i :: 1 <= i < |words| ==> words[i] == words[1..][i - 1];
      forall k: nat | FirstWordAt(s, words, k) ensures FirstWordAt(s, words[1..], k - 1) {
        assert words[1..][k - 1] == words[k];
      }
      n
  }

  /** The length of the noise match at the start of `s`, 0 when none: the
      length of the first noise word, in the pattern's order, that `s`
      starts with. */
  function NoiseAt(s: string): (n: nat)
    ensures n <= |s|
    ensures n == 0 <==> forall w :: w in NoiseWords ==> !StartsWithFolded(s, w)
    ensures forall k: nat :: FirstWordAt(s, NoiseWords, k) ==> n == |NoiseWords[k]|
  {
    MatchLength(s, NoiseWords)
  }

  /** No noise word starts at any position of `s`. */
  predicate NoiseFree(s: string) {
    forall i :: 0 <= i < |s| ==> NoiseAt(s[i..]) == 0
  }

  /** The second `re.sub` of `clean_text`: one left-to-right pass that
      deletes every case-insensitive match of the noise pattern, without
      word boundaries. */
  function RemoveNoise(s: string): (r: string)
    ensures |r| <= |s|
    decreases |s|
  {
    if |s| == 0 then []
    else
      var n := NoiseAt(s);
      if n > 0 then RemoveNoise(s[n..]) else [s[0]] + RemoveNoise(s[1..])
  }

  /** Noise-freedom of a non-empty text: none at the start, none in the rest. */
  lemma NoiseFreeCons(s: string)
    requires |s| > 0
    ensures NoiseFree(s) <==> NoiseAt(s) == 0 && NoiseFree(s[1..])
  {
    assert s[0..] == s;
    if NoiseAt(s) == 0 && NoiseFree(s[1..]) {
      forall i | 0 <= i < |s| ensures NoiseAt(s[i..]) == 0 {
        if i > 0 {
          assert s[i..] == s[1..][i - 1..];
        }
      }
    }
    if NoiseFree(s) {
      forall i | 0 <= i < |s[1..]| ensures NoiseAt(s[1..][i..]) == 0 {
        assert s[1..][i..] == s[i + 1..];
      }
    }
  }

  /** Removal changes the text exactly when a noise word occurs in it. */
  lemma {:induction false} RemoveNoiseUnchanged(s: string)
    ensures RemoveNoise(s) == s <==> NoiseFree(s)
    decreases |s|
  {
    if |s| > 0 {
      NoiseFreeCons(s);
      if NoiseAt(s) == 0 {
        var t := RemoveNoise(s[1..]);
        RemoveNoiseUnchanged(s[1..]);
        assert RemoveNoise(s) == [s[0]] + t;
        if t == s[1..] {
          assert [s[0]] + s[1..] == s;
        }
        if [s[0]] + t == s {
          assert ([s[0]] + t)[1..] == t;
        }
      } else {
        assert |RemoveNoise(s)| < |s|;
      }
    }
  }

  /** A leading noise word, in any case mix, is deleted whatever follows
      it, provided no word the pattern tries earlier matches there: the
      pattern has no word boundaries, so "Premiums" leaves "s", while a
      leading "Solution" followed by "s" takes the "s" with it. */
  lemma LeadingNoiseRemoved(k: nat, u: string, t: string)
    requires k < |NoiseWords|
    requires |u| == |NoiseWords[k]| && forall i :: 0 <= i < |u| ==> LowerChar(u[i]) == NoiseWords[k][i]
    requires forall j :: 0 <= j < k ==> !StartsWithFolded(u + t, NoiseWords[j])
    ensures RemoveNoise(u + t) == RemoveNoise(t)
  {
    var s := u + t;
    assert forall i :: 0 <= i < |u| ==> s[i] == u[i];
    assert FirstWordAt(s, NoiseWords, k);
    assert s[|u|..] == t;
  }

  /** A leading "Premium" is deleted whatever follows it. */
  lemma LeadingPremiumRemoved(t: string)
    ensures RemoveNoise("Premium" + t) == RemoveNoise(t)
  {
    var s := "Premium" + t;
    assert LowerChar(s[0]) == 'p';
    assert forall j :: 0 <= j < 3 ==> NoiseWords[j][0] != 'p';
    LeadingNoiseRemoved(3, "Premium", t);
  }

  /** Without noise at the start, the first character is kept. */
  lemma RemoveNoiseStep(c: char, rest: string)
    requires NoiseAt([c] + rest) == 0
    ensures RemoveNoise([c] + rest) == [c] + RemoveNoise(rest)
  {
    assert ([c] + rest)[1..] == rest;
  }

  /** Putting the head back in front of the tail. */
  lemma ConsSplit<T>(p: seq<T>, r: seq<T>)
    requires |p| > 0
    ensures [p[0]] + (p[1..] + r) == p + r
  {
    assert p == [p[0]] + p[1..];
  }

  /** The positions of `p[1..] + t` before `|p| - 1` are those of `p + t`
      after the first. */
  lemma QuietTail(p: string, t: string)
    requires |p| > 0
    requires forall i :: 0 <= i < |p| ==> NoiseAt((p + t)[i..]) == 0
    ensures forall i :: 0 <= i < |p| - 1 ==> NoiseAt((p[1..] + t)[i..]) == 0
  {
    forall i | 0 <= i < |p| - 1 ensures (p[1..] + t)[i..] == (p + t)[i + 1..] {
    }
  }

  /** Text in which no noise word starts is kept as it is, and removal
      carries on with what follows. */
  lemma {:induction false} RemoveNoiseKeeps(p: string, t: string)
    requires forall i :: 0 <= i < |p| ==> NoiseAt((p + t)[i..]) == 0
    ensures RemoveNoise(p + t) == p + RemoveNoise(t)
    decreases |p|
  {
    if |p| == 0 {
      assert p + t == t;
    } else {
      var s1 := p[1..] + t;
      assert p + t == [p[0]] + s1 by { ConsSplit(p, t); }
      assert (p + t)[0..] == p + t;
      RemoveNoiseStep(p[0], s1);
      QuietTail(p, t);
      RemoveNoiseKeeps(p[1..], t);
      ConsSplit(p, RemoveNoise(t));
    }
  }

  /** A suffix of plain-spaced text is plain-spaced. */
  lemma PlainSpacedSuffix(s: string, k: nat)
    requires PlainSpaced(s) && k <= |s|
    ensures PlainSpaced(s[k..])
  {
    forall i | 0 <= i < |s[k..]| ensures IsSpace(s[k..][i]) ==> s[k..][i] == ' ' {
      assert s[k..][i] == s[k + i];
    }
  }

  /** Prefixing a plain-spaced text with a character that is a space only
      when it is ' ' keeps it plain-spaced. */
  lemma PlainSpacedCons(c: char, t: string)
    requires (IsSpace(c) ==> c == ' ') && PlainSpaced(t)
    ensures PlainSpaced([c] + t)
  {
    forall i | 0 <= i < |[c] + t| ensures IsSpace(([c] + t)[i]) ==> ([c] + t)[i] == ' ' {
      if i > 0 { assert ([c] + t)[i] == t[i - 1]; }
    }
  }

  /** Removal keeps only the plain space among the whitespace characters. */
  lemma {:induction false} RemoveNoisePlainSpaced(s: string)
    requires PlainSpaced(s)
    ensures PlainSpaced(RemoveNoise(s))
    decreases |s|
  {
    if |s| > 0 {
      var n := NoiseAt(s);
      if n > 0 {
        PlainSpacedSuffix(s, n);
        RemoveNoisePlainSpaced(s[n..]);
      } else {
        PlainSpacedSuffix(s, 1);
        RemoveNoisePlainSpaced(s[1..]);
        PlainSpacedCons(s[0], RemoveNoise(s[1..]));
      }
    }
  }

  /** A trimmed infix of plain-spaced text is plain-spaced. */
  lemma TrimPlainSpaced(s: string)
    requires PlainSpaced(s)
    ensures PlainSpaced(Trim(s))
  {
    var o := SkipSpaceForward(s, 0);
    var r := Trim(s);
    forall i | 0 <= i < |r| ensures IsSpace(r[i]) ==> r[i] == ' ' {
      assert r[i] == s[o + i];
    }
  }

  /** A suffix made only of whitespace contributes nothing visible. */
  lemma {:induction false} VisibleDropsTrailingSpace(s: string, k: nat)
    requires k <= |s|
    requires forall i :: k <= i < |s| ==> IsSpace(s[i])
    ensures Visible(s) == Visible(s[..k])
    decreases |s|
  {
    if k == 0 {
      VisibleSkipsSpace(s, |s|);
      assert s[|s|..] == [];
    } else {
      assert s[..k][1..] == s[1..][..k - 1];
      VisibleDropsTrailingSpace(s[1..], k - 1);
    }
  }

  /** Stripping keeps every visible character. */
  lemma VisibleOfTrim(s: string)
    ensures Visible(Trim(s)) == Visible(s)
  {
    var a := SkipSpaceForward(s, 0);
    var r := Trim(s);
    VisibleSkipsSpace(s, a);
    VisibleDropsTrailingSpace(s[a..], |r|);
    assert s[a..][..|r|] == r;
  }

  /** The pipeline of `clean_text` on text without noise words loses no
      visible character. */
  lemma QuietTextKeepsVisible(text: string)
    ensures NoiseFree(CollapseSpace(text)) ==>
              Visible(Trim(RemoveNoise(CollapseSpace(text)))) == Visible(text)
  {
    var collapsed := CollapseSpace(text);
    if NoiseFree(collapsed) {
      RemoveNoiseUnchanged(collapsed);
      CollapseKeepsVisible(text);
      VisibleOfTrim(collapsed);
    }
  }

  /** `clean_text`: collapse whitespace, remove noise words, strip.  Without
      noise words every visible character of the text is kept, in order. */
  function CleanText(text: string): (r: string)
    ensures Trimmed(r) && PlainSpaced(r)
    ensures |r| <= |text|
    ensures NoiseFree(CollapseSpace(text)) ==> Visible(r) == Visible(text)
  {
    var collapsed := CollapseSpace(text);
    var quiet := RemoveNoise(collapsed);
    RemoveNoisePlainSpaced(collapsed);
    TrimPlainSpaced(quiet);
    QuietTextKeepsVisible(text);
    Trim(quiet)
  }

  /** Text that is already clean — collapsed, trimmed and free of noise
      words — passes through unchanged. */
  lemma CleanTextOfClean(s: string)
    requires Collapsed(s) && Trimmed(s) && NoiseFree(s)
    ensures CleanText(s) == s
  {
    CollapseOfCollapsed(s);
    RemoveNoiseUnchanged(s);
    TrimOfTrimmed(s);
  }

  // ---------------------------------------------------------------- LeetCode

  /** The first candidate with non-empty text, `""` when there is none. */
  function FirstNonEmpty(candidates: seq<Option<string>>): (r: string)
    ensures r == "" <==> forall i :: 0 <= i < |candidates| ==> candidates[i].GetOr("") == ""
    ensures r != "" ==> exists i :: 0 <= i < |candidates| && candidates[i] == Some(r)
                                    && forall j :: 0 <= j < i ==> candidates[j].GetOr("") == ""
    decreases |candidates|
  {
    if |candidates| == 0 then ""
    else if candidates[0].GetOr("") != "" then candidates[0].GetOr("")
    else
      var r := FirstNonEmpty(candidates[1..]);
      assert forall i :: 1 <= i < |candidates| ==> candidates[i] == candidates[1..][i - 1];
      r
  }

  /** The description LeetCode yields: the description div's text, else
      the og:description, else the title — the first that is not empty. */
  function LeetCodeDescription(p: Page): string {
    FirstNonEmpty([p.descriptionDiv, p.ogDescription, p.title])
  }

  /** An empty element is skipped just as a missing one is. */
  lemma DescriptionFallback(p: Page)
    ensures p.descriptionDiv.GetOr("") != "" ==> LeetCodeDescription(p) == p.descriptionDiv.value
    ensures p.descriptionDiv.GetOr("") == "" && p.ogDescription.GetOr("") != ""
            ==> LeetCodeDescription(p) == p.ogDescription.value
    ensures p.descriptionDiv.GetOr("") == "" && p.ogDescription.GetOr("") == ""
            ==> LeetCodeDescription(p) == p.title.GetOr("")
  {
    var cs := [p.descriptionDiv, p.ogDescription, p.title];
    assert cs[1..] == [p.ogDescription, p.title];
    assert cs[1..][1..] == [p.title];
    assert cs[1..][1..][1..] == [];
    if p.descriptionDiv.GetOr("") == "" {
      assert FirstNonEmpty(cs) == FirstNonEmpty(cs[1..]);
      if p.ogDescription.GetOr("") == "" {
        assert FirstNonEmpty(cs[1..]) == FirstNonEmpty(cs[1..][1..]);
        if p.title.GetOr("") == "" {
          assert FirstNonEmpty(cs[1..][1..]) == FirstNonEmpty(cs[1..][1..][1..]);
        }
      }
    }
  }

  /** `parse_leetcode` for the response the server received. */
  function ParseLeetCode(fetch: Fetch): (r: Result<string, string>)
    ensures r.Ok? <==> fetch.Response? && IsSuccess(fetch.status)
                       && |LeetCodeDescription(fetch.page)| > MinDescriptionLength
    ensures r.Ok? ==> r.value == CleanText(LeetCodeDescription(fetch.page))
    ensures fetch.TransportError? ==> r == Err(NetworkMessage(fetch.message))
    ensures fetch.UncaughtError? ==> r == Err(fetch.message)
    ensures fetch.Response? && fetch.status == 403 ==> r == Err(LeetCodeForbidden)
    ensures fetch.Response? && !IsSuccess(fetch.status) && fetch.status != 403
            ==> r == Err(LeetCodeHttpMessage(fetch.status, fetch.statusError))
    ensures fetch.Response? && IsSuccess(fetch.status) && r.Err? ==> r.error == LeetCodeNoDescription
  {
    match fetch
    case TransportError(m) => Err(NetworkMessage(m))
    case UncaughtError(m) => Err(m)
    case Response(status, e, page) =>
      if !IsSuccess(status) then
        if status == 403 then Err(LeetCodeForbidden) else Err(LeetCodeHttpMessage(status, e))
      else
        var d := LeetCodeDescription(page);
        if |d| > MinDescriptionLength then Ok(CleanText(d)) else Err(LeetCodeNoDescription)
  }

  // ---------------------------------------------------------------- HackerRank

  /** `parse_hackerrank`: the statement div's text, cleaned, even when empty. */
  function ParseHackerRank(fetch: Fetch): (r: Result<string, string>)
    ensures r.Ok? <==> fetch.Response? && IsSuccess(fetch.status) && fetch.page.statement.Some?
    ensures r.Ok? ==> r.value == CleanText(fetch.page.statement.value)
    ensures fetch.TransportError? ==> r == Err(HackerRankHttpPrefix + fetch.message)
    ensures fetch.UncaughtError? ==> r == Err(fetch.message)
    ensures fetch.Response? && !IsSuccess(fetch.status) ==> r == Err(HackerRankHttpPrefix + fetch.statusError)
    ensures fetch.Response? && IsSuccess(fetch.status) && r.Err? ==> r.error == HackerRankNoStatement
  {
    match fetch
    case TransportError(m) => Err(HackerRankHttpPrefix + m)
    case UncaughtError(m) => Err(m)
    case Response(status, e, page) =>
      if !IsSuccess(status) then Err(HackerRankHttpPrefix + e)
      else
        match page.statement
        case Some(t) => Ok(CleanText(t))
        case None => Err(HackerRankNoStatement)
  }

  // ---------------------------------------------------------------- dispatch

  datatype Platform = LeetCode | HackerRank

  /** The platform a stripped URL names; LeetCode is checked first. */
  function PlatformOf(url: string): (p: Option<Platform>)
    ensures p == Some(LeetCode) <==> Contains(url, "leetcode.com")
    ensures p == Some(HackerRank) <==> !Contains(url, "leetcode.com") && Contains(url, "hackerrank.com")
    ensures p == None <==> !Contains(url, "leetcode.com") && !Contains(url, "hackerrank.com")
  {
    if Contains(url, "leetcode.com") then Some(LeetCode)
    else if Contains(url, "hackerrank.com") then Some(HackerRank)
    else None
  }

  /** The `except Exception` wrapper of `parse_problem`. */
  function Wrap(r: Result<string, string>): (w: Result<string, string>)
    ensures w.Ok? <==> r.Ok?
    ensures w.Ok? ==> w.value == r.value
    ensures w.Err? ==> StartsWith(w.error, FailurePrefix) && w.error[|FailurePrefix|..] == r.error
  {
    match r
    case Ok(v) => Ok(v)
    case Err(e) => Err(FailurePrefix + e)
  }

  /** `parse_problem(url)`, with `fetch` what the request for the stripped
      URL returns. */
  function ParseProblem(url: string, fetch: Fetch): (r: Result<string, string>)
    ensures r.Err? ==> StartsWith(r.error, FailurePrefix)
    ensures r.Ok? ==> Trimmed(r.value) && PlainSpaced(r.value)
    ensures PlatformOf(Trim(url)) == Some(LeetCode) ==> r == Wrap(ParseLeetCode(fetch))
    ensures PlatformOf(Trim(url)) == Some(HackerRank) ==> r == Wrap(ParseHackerRank(fetch))
    ensures PlatformOf(Trim(url)) == None ==> r == Err(FailurePrefix + Unsupported)
  {
    match PlatformOf(Trim(url))
    case Some(LeetCode) => Wrap(ParseLeetCode(fetch))
    case Some(HackerRank) => Wrap(ParseHackerRank(fetch))
    case None => Wrap(Err(Unsupported))
  }

  /** Surrounding whitespace in the URL does not change the outcome. */
  lemma ParseProblemStripsUrl(url: string, fetch: Fetch)
    ensures ParseProblem(Trim(url), fetch) == ParseProblem(url, fetch)
  {
    TrimIdempotent(url);
  }

  /** An exception outside `httpx.HTTPError` (a malformed URL, say) passes
      both platform handlers untouched: only the outer wrapper prefixes its
      message, without the network or HackerRank wording. */
  lemma UncaughtErrorMessage(url: string, m: string)
    requires PlatformOf(Trim(url)).Some?
    ensures ParseProblem(url, UncaughtError(m)) == Err(FailurePrefix + m)
    ensures ParseLeetCode(UncaughtError(m)) == ParseHackerRank(UncaughtError(m))
  {
  }

  /** A LeetCode URL answered with 403 fails with a message that names the
      status and says the site is blocking. */
  lemma LeetCodeForbiddenMessage(url: string, e: string, page: Page)
    requires Contains(Trim(url), "leetcode.com")
    ensures ParseProblem(url, Response(403, e, page)) == Err(FailurePrefix + LeetCodeForbidden)
    ensures Contains(FailurePrefix + LeetCodeForbidden, "403")
    ensures Contains(FailurePrefix + LeetCodeForbidden, "blocking")
  {
    BlockingMessages();
    ContainsInSuffix(FailurePrefix, LeetCodeForbidden, "403");
    ContainsInSuffix(FailurePrefix, LeetCodeForbidden, "blocking");
  }

  /** HackerRank answering 403: the message carries the status error and
      so mentions "403" whenever the status error does. */
  lemma HackerRankStatusMessage(url: string, e: string, page: Page)
    requires !Contains(Trim(url), "leetcode.com") && Contains(Trim(url), "hackerrank.com")
    requires Contains(e, "403")
    ensures ParseProblem(url, Response(403, e, page)) == Err(FailurePrefix + (HackerRankHttpPrefix + e))
    ensures Contains(FailurePrefix + (HackerRankHttpPrefix + e), "403")
  {
    ContainsInSuffix(FailurePrefix + HackerRankHttpPrefix, e, "403");
    assert FailurePrefix + (HackerRankHttpPrefix + e) == FailurePrefix + HackerRankHttpPrefix + e;
  }

  /** A LeetCode page whose description is too short also fails with a
      "blocking" message, even though nothing was blocked. */
  lemma ShortDescriptionSaysBlocking(url: string, page: Page, e: string, status: nat)
    requires Contains(Trim(url), "leetcode.com")
    requires IsSuccess(status) && |LeetCodeDescription(page)| <= MinDescriptionLength
    ensures ParseProblem(url, Response(status, e, page)) == Err(FailurePrefix + LeetCodeNoDescription)
    ensures Contains(FailurePrefix + LeetCodeNoDescription, "blocking")
  {
    BlockingMessages();
    ContainsInSuffix(FailurePrefix, LeetCodeNoDescription, "blocking");
  }
}

=== FILE: pipeline.dfy ===
/**
 * The text-generation pipeline of the backend
 * (backend/services/hf_pipeline.py): the device and quantisation decisions
 * taken when the model is loaded, the pad-token fallbacks, the prompt
 * template chosen by model name, the extraction of the generated part of
 * the decoded output, and the lazily created global instance.  Loading the
 * weights, tokenising and sampling are not modelled: whether CUDA is
 * available, whether the quantisation config could be built, and what the
 * model decodes to are parameters.
 */
module Pipeline {
  import opened Wrappers
  import opened Strings
  import opened Config

  // ---------------------------------------------------------------- loading

  /** The device actually used: a request for CUDA falls back to the CPU
      when CUDA is not available; any other request is kept. */
  function EffectiveDevice(requested: string, cudaAvailable: bool): (d: string)
    ensures d == "cuda" ==> cudaAvailable
    ensures requested != "cuda" ==> d == requested
    ensures requested == "cuda" ==> (d == "cuda" <==> cudaAvailable) && (d != "cuda" ==> d == "cpu")
  {
    if requested == "cuda" && !cudaAvailable then "cpu" else requested
  }

  /** The fallback is applied once: deciding again changes nothing. */
  lemma EffectiveDeviceStable(requested: string, cudaAvailable: bool)
    ensures EffectiveDevice(EffectiveDevice(requested, cudaAvailable), cudaAvailable)
            == EffectiveDevice(requested, cudaAvailable)
  {
  }

  datatype DType = Float16 | BFloat16

  /** How the model is loaded. */
  datatype LoadPlan = LoadPlan(
    device: string,
    quantized: bool,      // `quantization_config` is passed
    deviceMapAuto: bool,  // `device_map="auto"`
    dtype: DType,         // `torch_dtype`
    movedToCpu: bool)     // `model.to("cpu")` after loading

  /** `HFPipeline.__init__`'s loading decisions.  `configBuilds` is whether
      constructing the 4-bit `BitsAndBytesConfig` succeeds. */
  function PlanLoad(s: Settings, cudaAvailable: bool, configBuilds: bool): (p: LoadPlan)
    ensures p.device == EffectiveDevice(s.device, cudaAvailable)
    ensures p.quantized <==> s.quantization == "4bit" && p.device == "cuda" && configBuilds
    ensures p.quantized ==> cudaAvailable
    ensures p.deviceMapAuto <==> p.quantized
    ensures p.dtype == Float16 <==> p.quantized
    ensures p.movedToCpu <==> p.device == "cpu"
  {
    var device := EffectiveDevice(s.device, cudaAvailable);
    var config := s.quantization == "4bit" && device == "cuda" && configBuilds;
    var quantized := config && device == "cuda";
    LoadPlan(device, quantized, quantized, if quantized then Float16 else BFloat16, device == "cpu")
  }

  /** With the declared settings: 4-bit on the GPU when CUDA is there and the
      config builds, an unquantised bfloat16 model on the CPU otherwise. */
  lemma DefaultPlans(configBuilds: bool)
    ensures PlanLoad(Defaults, true, configBuilds).quantized == configBuilds
    ensures var p := PlanLoad(Defaults, false, configBuilds);
            p.device == "cpu" && !p.quantized && p.dtype == BFloat16 && p.movedToCpu
  {
  }

  /** `if tokenizer.pad_token is None: tokenizer.pad_token = tokenizer.eos_token`. */
  function InitPadToken(pad: Option<string>, eos: Option<string>): (r: Option<string>)
    ensures pad.Some? ==> r == pad
    ensures pad.None? ==> r == eos
  {
    if pad.None? then eos else pad
  }

  /** `pad_token_id if pad_token_id else eos_token_id`: Python treats both
      `None` and `0` as false, so a pad id of 0 is replaced as well. */
  function GenerationPadId(padId: Option<nat>, eosId: Option<nat>): (r: Option<nat>)
    ensures padId.Some? && padId.value != 0 ==> r == padId
    ensures padId == None || padId == Some(0) ==> r == eosId
  {
    if padId.Some? && padId.value != 0 then padId else eosId
  }

  // ---------------------------------------------------------------- prompt template

  /** The template families `generate` distinguishes. */
  datatype Family = Phi | Llama | Plain

  /** The "tinyllama" test is subsumed by the "llama" test. */
  lemma TinyLlamaIsLlama(n: string)
    ensures Contains(n, "tinyllama") ==> Contains(n, "llama")
  {
    if Contains(n, "tinyllama") {
      assert "tinyllama" == "tiny" + "llama";
      ContainsTail(n, "tiny", "llama");
    }
  }

  /** The family used to format the prompt: the lower-cased name is checked
      for "microsoft/phi" first, then for "tinyllama" or "llama". */
  function PromptFamily(modelName: string): (f: Family)
    ensures var n := ToLower(modelName);
            && (f == Phi <==> Contains(n, "microsoft/phi"))
            && (f == Llama <==> !Contains(n, "microsoft/phi") && Contains(n, "llama"))
  {
    var n := ToLower(modelName);
    if Contains(n, "microsoft/phi") then Phi
    else if Contains(n, "tinyllama") || Contains(n, "llama") then
      TinyLlamaIsLlama(n);
      Llama
    else Plain
  }

  /** The family used to extract the reply: here "llama" is checked before
      "microsoft/phi". */
  function ReplyFamily(modelName: string): (f: Family)
    ensures var n := ToLower(modelName);
            && (f == Llama <==> Contains(n, "llama"))
            && (f == Phi <==> !Contains(n, "llama") && Contains(n, "microsoft/phi"))
  {
    var n := ToLower(modelName);
    if Contains(n, "tinyllama") || Contains(n, "llama") then
      TinyLlamaIsLlama(n);
      Llama
    else if Contains(n, "microsoft/phi") then Phi
    else Plain
  }

  /** The two checks disagree only on a name that mentions both families. */
  lemma FamiliesAgree(modelName: string)
    ensures PromptFamily(modelName) != ReplyFamily(modelName)
            <==> Contains(ToLower(modelName), "microsoft/phi") && Contains(ToLower(modelName), "llama")
  {
  }

  const PhiHead: string := "Instruct: "
  const PhiMarker: string := "Output:"
  const SystemTag: string := "<|system|>\n"
  const SystemText: string :=
    "You are a helpful AI " + "assistant specialized in " + "programming and code explanation."
  const EndOfTurn: string := "</s>\n"
  const UserTag: string := "<|user|>\n"
  const ChatHead: string := SystemTag + SystemText + EndOfTurn + UserTag
  const AssistantMarker: string := "<|assistant|>"
  const ChatTail: string := EndOfTurn + AssistantMarker + "\n"

  /** The prompt as the model receives it. */
  function FormatPrompt(modelName: string, prompt: string): (r: string)
    ensures Contains(r, prompt)
    ensures PromptFamily(modelName) == Plain ==> r == prompt
    ensures PromptFamily(modelName) == Phi ==> StartsWith(r, PhiHead) && r[|r| - 1] == ':'
    ensures PromptFamily(modelName) == Llama ==> StartsWith(r, ChatHead) && Contains(r, AssistantMarker)
    ensures PromptFamily(modelName) == Phi ==> r == PhiHead + prompt + "\n" + PhiMarker
    ensures PromptFamily(modelName) == Llama ==> r == ChatHead + prompt + ChatTail
  {
    match PromptFamily(modelName)
    case Phi =>
      ContainsMiddle(PhiHead, prompt, "\n" + PhiMarker);
      assert (PhiHead + prompt + ("\n" + PhiMarker))[..|PhiHead|] == PhiHead;
      PhiHead + prompt + ("\n" + PhiMarker)
    case Llama =>
      var r := ChatHead + prompt + ChatTail;
      ContainsMiddle(ChatHead, prompt, ChatTail);
      ContainsMiddle("</s>\n", AssistantMarker, "\n");
      ContainsInSuffix(ChatHead + prompt, ChatTail, AssistantMarker);
      assert r[..|ChatHead|] == ChatHead;
      r
    case Plain =>
      ContainsAt(prompt, prompt, 0);
      prompt
  }

  /** A name without the letters m and l, in either case, belongs to
      neither family. */
  lemma PlainName(modelName: string)
    requires 'm' !in modelName && 'M' !in modelName && 'l' !in modelName && 'L' !in modelName
    ensures PromptFamily(modelName) == Plain && ReplyFamily(modelName) == Plain
  {
    LowerMissing(modelName, 'm');
    MissingFirstChar(ToLower(modelName), "microsoft/phi");
    LowerMissing(modelName, 'l');
    MissingFirstChar(ToLower(modelName), "llama");
  }

  /** The default model takes the prompt unchanged. */
  lemma DefaultModelIsPlain()
    ensures PromptFamily(DefaultModel) == Plain && ReplyFamily(DefaultModel) == Plain
    ensures forall p :: FormatPrompt(DefaultModel, p) == p
  {
    DefaultModelLetters();
    PlainName(DefaultModel);
  }

  // ---------------------------------------------------------------- reply extraction

  /** The generated part of the decoded output, as `generate` extracts it:
      everything after the first chat or instruction marker, stripped, when
      the marker is there; for other models, everything after the first `|formatted|`
      characters, stripped, when the formatted prompt occurs anywhere;
      otherwise the decoded output unchanged. */
  function ExtractResponse(modelName: string, formatted: string, response: string): (r: string)
    ensures r == response || Trimmed(r)
    ensures ReplyFamily(modelName) == Llama ==> (r == response <== !Contains(response, AssistantMarker))
    ensures ReplyFamily(modelName) == Llama ==>
              forall i: nat :: FirstAt(response, AssistantMarker, i) ==> r == Trim(response[i + |AssistantMarker|..])
    ensures ReplyFamily(modelName) == Phi ==> (r == response <== !Contains(response, PhiMarker))
    ensures ReplyFamily(modelName) == Phi ==>
              forall i: nat :: FirstAt(response, PhiMarker, i) ==> r == Trim(response[i + |PhiMarker|..])
    ensures ReplyFamily(modelName) == Plain && Contains(response, formatted)
            ==> |formatted| <= |response| && r == Trim(response[|formatted|..])
    ensures ReplyFamily(modelName) == Plain && !Contains(response, formatted) ==> r == response
  {
    match ReplyFamily(modelName)
    case Llama =>
      (match AfterFirst(response, AssistantMarker)
       case Some(rest) => Trim(rest)
       case None => response)
    case Phi =>
      (match AfterFirst(response, PhiMarker)
       case Some(rest) => Trim(rest)
       case None => response)
    case Plain =>
      (match FirstIndex(response, formatted)
       case Some(_) => Trim(response[|formatted|..])
       case None => response)
  }

  /** For other models the cut is made at the start of the output, not at the
      occurrence of the prompt: an output that echoes the prompt after one
      extra character loses that character's worth of the prompt's end. */
  lemma PlainCutsFromStart(modelName: string, formatted: string, c: char, g: string)
    requires ReplyFamily(modelName) == Plain
    ensures ExtractResponse(modelName, formatted, [c] + formatted + g)
            == Trim(([c] + formatted + g)[|formatted|..])
  {
    ContainsMiddle([c], formatted, g);
  }

  /** The phi model's echoed prompt already holds "Output:" when the prompt
      does (as problem statements with examples do), and the reply is cut
      there: for the prompt "Output:" and the generated text "x", the
      extracted reply is "Output:x", not "x". */
  lemma PhiMarkerInPrompt(modelName: string)
    requires ReplyFamily(modelName) == Phi
    ensures PromptFamily(modelName) == Phi
    ensures FormatPrompt(modelName, PhiMarker) == PhiHead + PhiMarker + ("\n" + PhiMarker)
    ensures var f := PhiHead + PhiMarker + ("\n" + PhiMarker);
            ExtractResponse(modelName, f, f + "x") == PhiMarker + "x"
  {
    var f := PhiHead + PhiMarker + ("\n" + PhiMarker);
    var s := f + "x";
    assert s[|PhiHead|..|PhiHead| + |PhiMarker|] == PhiMarker;
    assert forall j :: 0 <= j < |PhiHead| ==> s[j] == PhiHead[j];
    assert forall j :: 0 <= j < |PhiHead| ==> PhiHead[j] != 'O';
    FirstIndexAt(s, PhiMarker, |PhiHead|);
    assert s[|PhiHead| + |PhiMarker|..] == ['\n'] + (PhiMarker + "x");
    TrimLeadingSpace('\n', PhiMarker + "x");
  }

  /** The generated part, cut after the echoed prompt when the decoded
      output starts with it, and by `ExtractResponse`'s rules otherwise. */
  function ExtractGenerated(modelName: string, formatted: string, response: string): (r: string)
    ensures r == response || Trimmed(r)
    ensures !StartsWith(response, formatted) ==> r == ExtractResponse(modelName, formatted, response)
  {
    if StartsWith(response, formatted) then Trim(response[|formatted|..])
    else ExtractResponse(modelName, formatted, response)
  }

  /** Whatever the prompt and the model family, an output that echoes the
      formatted prompt and continues with `g` yields `g`, stripped. */
  lemma {:induction false} EchoRoundTrip(modelName: string, prompt: string, g: string)
    ensures var f := FormatPrompt(modelName, prompt);
            ExtractGenerated(modelName, f, f + g) == Trim(g)
  {
    var f := FormatPrompt(modelName, prompt);
    assert (f + g)[..|f|] == f;
    assert (f + g)[|f|..] == g;
  }

  /** For other models the correction changes nothing when the output starts
      with the prompt. */
  lemma PlainUnchanged(modelName: string, formatted: string, response: string)
    requires ReplyFamily(modelName) == Plain && StartsWith(response, formatted)
    ensures ExtractGenerated(modelName, formatted, response) == ExtractResponse(modelName, formatted, response)
  {
    ContainsAt(response, formatted, 0);
    assert response[0..|formatted|] == response[..|formatted|];
  }

  /** Neither marker repeats its first character, so no two occurrences of
      one overlap. */
  lemma MarkerHeadsUnique()
    ensures AssistantMarker[0] !in AssistantMarker[1..]
    ensures PhiMarker[0] !in PhiMarker[1..]
  {
  }

  /** The system text holds no '<', the first character of every tag. */
  lemma SystemTextUntagged()
    ensures '<' !in SystemText
  {
  }

  /** The system part of the chat template holds no assistant marker. */
  lemma SystemPartClean()
    ensures !Contains(SystemTag + SystemText + EndOfTurn, AssistantMarker)
  {
    var m := AssistantMarker;
    var h := SystemTag + SystemText;
    assert !Contains(h, m) by {
      assert h[..|m|][2] != m[2];
      assert !StartsWith(h, m);
      assert h[1..] == SystemTag[1..] + SystemText;
      assert m[0] !in SystemTag[1..];
      SystemTextUntagged();
      MissingFirstChar(SystemText, m);
      NoneAfterNonStart(SystemTag[1..], SystemText, m);
    }
    MarkerHeadsUnique();
    ShortNone(EndOfTurn, m);
    NoneAcrossStart(h, EndOfTurn, m);
  }

  /** The user tag followed by a prompt without the marker holds none. */
  lemma UserPartClean(prompt: string)
    requires !Contains(prompt, AssistantMarker)
    ensures !Contains(UserTag + prompt, AssistantMarker)
  {
    var m := AssistantMarker;
    var u := UserTag + prompt;
    if |m| <= |u| {
      assert u[..|m|][2] != m[2];
    }
    assert !StartsWith(u, m);
    assert u[1..] == UserTag[1..] + prompt;
    assert m[0] !in UserTag[1..];
    NoneAfterNonStart(UserTag[1..], prompt, m);
  }

  /** The formatted chat prompt holds no assistant marker before its own
      when the prompt holds none: no marker fits across the seams, since
      each tag after the prompt starts with the marker's unique '<'. */
  lemma ChatPrefixClean(prompt: string)
    requires !Contains(prompt, AssistantMarker)
    ensures !Contains(ChatHead + prompt + EndOfTurn, AssistantMarker)
  {
    var m := AssistantMarker;
    MarkerHeadsUnique();
    SystemPartClean();
    UserPartClean(prompt);
    var h := SystemTag + SystemText + EndOfTurn;
    NoneAcrossStart(h, UserTag + prompt, m);
    assert ChatHead + prompt == h + (UserTag + prompt);
    ShortNone(EndOfTurn, m);
    NoneAcrossStart(ChatHead + prompt, EndOfTurn, m);
  }

  /** The formatted instruction prompt holds no "Output:" before its own when
      the prompt holds none. */
  lemma PhiPrefixClean(prompt: string)
    requires !Contains(prompt, PhiMarker)
    ensures !Contains(PhiHead + prompt + "\n", PhiMarker)
  {
    var m := PhiMarker;
    NoneBeforeNonEnd(prompt, '\n', m);
    assert m[0] !in PhiHead;
    NoneAfterNonStart(PhiHead, prompt + "\n", m);
    assert PhiHead + prompt + "\n" == PhiHead + (prompt + "\n");
  }

  /** Regrouping a five-part concatenation. */
  lemma Regroup<T>(x: seq<T>, e: seq<T>, m: seq<T>, n: seq<T>, g: seq<T>)
    ensures x + (e + m + n) + g == (x + e) + m + (n + g)
  {
  }

  /** Regrouping a four-part concatenation. */
  lemma Regroup4<T>(x: seq<T>, e: seq<T>, m: seq<T>, g: seq<T>)
    ensures x + (e + m) + g == (x + e) + m + g
  {
  }

  /** For a chat prompt without the marker, the marker the template puts
      after it is the first in the output. */
  lemma ChatMarkerFirst(prompt: string, g: string)
    requires !Contains(prompt, AssistantMarker)
    ensures FirstAt(ChatHead + prompt + ChatTail + g, AssistantMarker, |ChatHead + prompt + EndOfTurn|)
  {
    ChatPrefixClean(prompt);
    MarkerHeadsUnique();
    var a := ChatHead + prompt + EndOfTurn;
    FirstAfter(a, AssistantMarker, "\n" + g);
    Regroup(ChatHead + prompt, EndOfTurn, AssistantMarker, "\n", g);
  }

  /** For an instruction prompt without "Output:", the one the template puts
      after it is the first in the output. */
  lemma PhiMarkerFirst(prompt: string, g: string)
    requires !Contains(prompt, PhiMarker)
    ensures FirstAt(PhiHead + prompt + ("\n" + PhiMarker) + g, PhiMarker, |PhiHead + prompt + "\n"|)
  {
    PhiPrefixClean(prompt);
    MarkerHeadsUnique();
    FirstAfter(PhiHead + prompt + "\n", PhiMarker, g);
    Regroup4(PhiHead + prompt, "\n", PhiMarker, g);
  }

  /** `generate(prompt)` as written: format the prompt, run the model
      (`decode` gives the decoded output for the formatted prompt) and
      extract the reply by `ExtractResponse`.  An output that echoes the
      formatted prompt and continues with `g` yields `g`, stripped, for
      other models always, and for chat and instruction models when the
      prompt does not itself hold the family's marker. */
  function Generate(modelName: string, prompt: string, decode: string -> string): (r: string)
    ensures var f := FormatPrompt(modelName, prompt);
            ReplyFamily(modelName) == Plain ==> forall g :: decode(f) == f + g ==> r == Trim(g)
    ensures var f := FormatPrompt(modelName, prompt);
            ReplyFamily(modelName) == Phi && !Contains(prompt, PhiMarker) ==>
              forall g :: decode(f) == f + g ==> r == Trim(g)
    ensures var f := FormatPrompt(modelName, prompt);
            PromptFamily(modelName) == Llama && !Contains(prompt, AssistantMarker) ==>
              forall g :: decode(f) == f + g ==> r == Trim(g)
  {
    var f := FormatPrompt(modelName, prompt);
    forall g | decode(f) == f + g ensures ReplyFamily(modelName) == Plain ==> ExtractResponse(modelName, f, f + g) == Trim(g) {
      if ReplyFamily(modelName) == Plain {
        ContainsAt(f + g, f, 0);
        assert (f + g)[|f|..] == g;
      }
    }
    forall g | decode(f) == f + g
      ensures ReplyFamily(modelName) == Phi && !Contains(prompt, PhiMarker) ==> ExtractResponse(modelName, f, f + g) == Trim(g)
    {
      if ReplyFamily(modelName) == Phi && !Contains(prompt, PhiMarker) {
        PhiMarkerFirst(prompt, g);
        var a := PhiHead + prompt + "\n";
        Regroup4(PhiHead + prompt, "\n", PhiMarker, g);
        assert (a + PhiMarker + g)[|a| + |PhiMarker|..] == g;
      }
    }
    forall g | decode(f) == f + g
      ensures PromptFamily(modelName) == Llama && !Contains(prompt, AssistantMarker) ==> ExtractResponse(modelName, f, f + g) == Trim(g)
    {
      if PromptFamily(modelName) == Llama && !Contains(prompt, AssistantMarker) {
        ChatMarkerFirst(prompt, g);
        var a := ChatHead + prompt + EndOfTurn;
        Regroup(ChatHead + prompt, EndOfTurn, AssistantMarker, "\n", g);
        assert (a + AssistantMarker + ("\n" + g))[|a| + |AssistantMarker|..] == "\n" + g;
        TrimSkipsSpace('\n', g);
      }
    }
    ExtractResponse(modelName, f, decode(f))
  }

  /** `generate(prompt)` with the extraction cut after the echoed prompt
      (`ExtractGenerated`): whatever the model family and the prompt, an
      output that echoes the formatted prompt and continues with `g` yields
      `g`, stripped. */
  function GenerateCorrected(modelName: string, prompt: string, decode: string -> string): (r: string)
    ensures var f := FormatPrompt(modelName, prompt);
            forall g :: decode(f) == f + g ==> r == Trim(g)
  {
    var f := FormatPrompt(modelName, prompt);
    forall g | decode(f) == f + g ensures ExtractGenerated(modelName, f, f + g) == Trim(g) {
      EchoRoundTrip(modelName, prompt, g);
    }
    ExtractGenerated(modelName, f, decode(f))
  }

  /** `generate` as written and corrected part ways on the phi prompt
      "Output:" when the model continues with "x": the source replies
      "Output:x", the correction "x". */
  lemma GenerateMissesEcho(modelName: string)
    requires ReplyFamily(modelName) == Phi
    ensures Generate(modelName, PhiMarker, s => s + "x") == PhiMarker + "x"
    ensures GenerateCorrected(modelName, PhiMarker, s => s + "x") == "x"
  {
    PhiMarkerInPrompt(modelName);
    var f := FormatPrompt(modelName, PhiMarker);
    assert (s => s + "x")(f) == f + "x";
    TrimOfTrimmed("x");
  }

  // ---------------------------------------------------------------- get_pipeline

  /** One call of `get_pipeline()` with the global `slot`: `build` is what
      `HFPipeline()` would give, an instance or the message of the exception
      it raised (the global then stays unset and the exception propagates). */
  function GetPipeline<T>(slot: Option<T>, build: Result<T, string>): (r: (Option<T>, Result<T, string>))
    ensures slot.Some? ==> r == (slot, Ok(slot.value))
    ensures slot.None? && build.Ok? ==> r == (Some(build.value), build)
    ensures slot.None? && build.Err? ==> r == (None, build)
  {
    match slot
    case Some(p) => (slot, Ok(p))
    case None =>
      match build
      case Ok(p) => (Some(p), Ok(p))
      case Err(e) => (None, Err(e))
  }

  /** A run of calls: the final global and the result of each call. */
  function GetPipelineCalls<T>(slot: Option<T>, builds: seq<Result<T, string>>): (r: (Option<T>, seq<Result<T, string>>))
    ensures |r.1| == |builds|
    decreases |builds|
  {
    if |builds| == 0 then (slot, [])
    else
      var (s1, first) := GetPipeline(slot, builds[0]);
      var (s2, rest) := GetPipelineCalls(s1, builds[1..]);
      (s2, [first] + rest)
  }

  /** How many calls construct and keep an instance. */
  function Constructions<T>(slot: Option<T>, builds: seq<Result<T, string>>): nat
    decreases |builds|
  {
    if |builds| == 0 then 0
    else
      (if slot.None? && builds[0].Ok? then 1 else 0)
      + Constructions(GetPipeline(slot, builds[0]).0, builds[1..])
  }

  /** Once an instance is held, every call returns it and nothing is built. */
  lemma {:induction false} HeldInstanceReturned<T>(p: T, builds: seq<Result<T, string>>)
    ensures GetPipelineCalls(Some(p), builds).0 == Some(p)
    ensures forall i :: 0 <= i < |builds| ==> GetPipelineCalls(Some(p), builds).1[i] == Ok(p)
    ensures Constructions(Some(p), builds) == 0
    decreases |builds|
  {
    if |builds| > 0 {
      HeldInstanceReturned(p, builds[1..]);
      var rest := GetPipelineCalls(Some(p), builds[1..]).1;
      assert GetPipelineCalls(Some(p), builds).1 == [Ok(p)] + rest;
    }
  }

  /** From an unset global, at most one instance is ever constructed, and
      every successful call returns that same instance. */
  lemma {:induction false} AtMostOneInstance<T>(builds: seq<Result<T, string>>)
    ensures Constructions(None, builds) <= 1
    ensures var results := GetPipelineCalls(None, builds).1;
            forall i, j :: 0 <= i < |results| && 0 <= j < |results| && results[i].Ok? && results[j].Ok?
                           ==> results[i] == results[j]
    decreases |builds|
  {
    if |builds| > 0 {
      var rest := GetPipelineCalls(GetPipeline(None, builds[0]).0, builds[1..]).1;
      var results := GetPipelineCalls(None, builds).1;
      assert results == [GetPipeline(None, builds[0]).1] + rest;
      match builds[0]
      case Ok(p) =>
        HeldInstanceReturned(p, builds[1..]);
        assert forall i :: 0 <= i < |results| ==> results[i] == Ok(p) by {
          forall i | 0 <= i < |results| ensures results[i] == Ok(p) {
            if i > 0 { assert results[i] == rest[i - 1]; }
          }
        }
      case Err(_) =>
        assert GetPipeline(None, builds[0]).0 == None;
        AtMostOneInstance(builds[1..]);
        assert rest == GetPipelineCalls(None, builds[1..]).1;
        forall i, j | 0 <= i < |results| && 0 <= j < |results| && results[i].Ok? && results[j].Ok?
          ensures results[i] == results[j]
        {
          assert i > 0 && j > 0;
          assert results[i] == rest[i - 1] && results[j] == rest[j - 1];
        }
    }
  }
}

=== FILE: renderer.dfy ===
/**
 * The renderer (frontend/js/renderer.js) as a pure function from the
 * response record to the abstract document: the container is cleared and
 * rebuilt as eight sections in a fixed order.  Template markup keeps its
 * tag structure; inline styles and indentation are not reproduced.
 */
module Renderer {
  import opened Strings
  import opened Html
  import opened Decimal
  import opened Document
  import opened Models
  import Utils

  const OverviewIcon: string := "\U{1F4CB}"
  const ConceptsIcon: string := "\U{1F9E0}"
  const NaiveIcon: string := "\U{1F40C}"
  const OptimalIcon: string := "\U{1F680}"
  const ExampleIcon: string := "\U{1F4DD}"
  const WarningSign: string := "\U{26A0}\U{FE0F}"
  const EdgeCasesIcon: string := "\U{1F50D}"
  const RelatedIcon: string := "\U{1F517}"
  const LightBulb: string := "\U{1F4A1}"
  const CheckMark: string := "\U{2705}"

  /** The section titles, in the order `renderOutput` appends them. */
  const SectionTitles: seq<string> := [
    "Problem Overview", "Key Concepts", "Naive Approach", "Optimal Approach",
    "Worked Example", "Common Pitfalls", "Edge Cases to Consider", "Related Problems"]

  // ---------------------------------------------------------------- markup of a piece

  /** The markup a piece contributes once the template is filled in. */
  function PieceHtml(p: Piece): string {
    match p
    case Markup(t) => t
    case Raw(t) => t
    case Escaped(t) => Esc(t)
    case Badge(d) => Utils.DifficultyBadge(d)
  }

  function PiecesHtml(ps: seq<Piece>): string
    decreases |ps|
  {
    if |ps| == 0 then "" else PieceHtml(ps[0]) + PiecesHtml(ps[1..])
  }

  /** What a code block displays: `escapeHtml(formatCode(code))`.  The
      markup holds no tag of its own making and reads back as the formatted
      code. */
  function CodeHtml(code: string): (r: string)
    ensures '<' !in r && '>' !in r
    ensures Unescape(r) == Utils.FormatCode(code)
  {
    UnescapeEsc(Utils.FormatCode(code));
    Esc(Utils.FormatCode(code))
  }

  // ---------------------------------------------------------------- sections

  /** `renderOverview`: one Description block showing the overview unescaped. */
  function RenderOverview(overview: string): (s: Section)
    ensures s.title == SectionTitles[0]
    ensures Labels(s.blocks) == ["Description"]
  {
    Section("Problem Overview", OverviewIcon, [ContentBlock("Description", [Raw(overview)])])
  }

  /** The pieces of the Difficulty block: the badge, then the reason. */
  function DifficultyPieces(c: ConceptsData): seq<Piece> {
    [Badge(c.difficulty), Markup("<p>"), Raw(c.difficultyReason), Markup("</p>")]
  }

  /** `renderConcepts`: Core Concepts label, concept list, Prerequisites
      label, prerequisite list, Difficulty block, Analogy block. */
  function RenderConcepts(c: ConceptsData): (s: Section)
    ensures s.title == SectionTitles[1]
    ensures |s.blocks| == 6
    ensures Labels(s.blocks) == ["Core Concepts", "Prerequisites", "Difficulty", "Analogy"]
    ensures s.blocks[1] == Utils.CreateList(Utils.Strs(c.concepts), false)
    ensures s.blocks[3] == Utils.CreateList(Utils.Strs(c.prerequisites), false)
  {
    var blocks := [
      ContentBlock("Core Concepts", []),
      Utils.CreateList(Utils.Strs(c.concepts), false),
      ContentBlock("Prerequisites", []),
      Utils.CreateList(Utils.Strs(c.prerequisites), false),
      ContentBlock("Difficulty", DifficultyPieces(c)),
      ContentBlock("Analogy", [Markup(LightBulb + " "), Raw(c.analogy)])];
    assert Labels(blocks[5..]) == ["Analogy"];
    assert Labels(blocks[4..]) == ["Difficulty", "Analogy"];
    assert Labels(blocks[3..]) == Labels(blocks[4..]);
    assert Labels(blocks[1..]) == Labels(blocks[2..]);
    Section("Key Concepts", ConceptsIcon, blocks)
  }

  /** The one-block sequence when `cond` holds, nothing otherwise. */
  function When(cond: bool, b: Block): seq<Block> {
    if cond then [b] else []
  }

  /** The pieces of the Complexity block: `formatComplexity(time, space)`. */
  function ComplexityPieces(time: string, space: string): seq<Piece> {
    [Markup(Utils.TimeLabel), Raw(time), Markup(Utils.SpaceLabel), Raw(space)]
  }

  /** `renderApproach(approach, title, icon)`.  JavaScript treats the empty
      string as false, so an optional field renders exactly when it is not
      empty. */
  function RenderApproach(a: ApproachData, title: string, icon: string): (s: Section)
    ensures s.title == title && s.icon == icon
  {
    Section(title, icon,
      [ContentBlock("Approach", [Markup("<strong>"), Raw(a.name), Markup("</strong>")])]
      + When(a.intuition != "", ContentBlock("Intuition", [Raw(a.intuition)]))
      + When(a.keyInsight != "", ContentBlock("Key Insight", [Raw(a.keyInsight)]))
      + [CodeBlock("Pseudocode", a.pseudocode)]
      + [ContentBlock("Complexity", ComplexityPieces(a.timeComplexity, a.spaceComplexity))]
      + When(a.limitation != "", ContentBlock("Limitation", [Markup(WarningSign + " "), Raw(a.limitation)]))
      + When(a.whyOptimal != "", ContentBlock("Why Optimal", [Markup(CheckMark + " "), Raw(a.whyOptimal)])))
  }

  /** The item of the step list for one step. */
  function StepItem(step: string): seq<Piece> {
    [Markup("<code>"), Escaped(step), Markup("</code>")]
  }

  /** `renderWorkedExample`: Input, the step-list label, an ordered list with
      one escaped item per step in order, Output. */
  function RenderWorkedExample(e: WorkedExample): (s: Section)
    ensures s.title == SectionTitles[4]
    ensures |s.blocks| == 4
    ensures s.blocks[2].ListBlock? && s.blocks[2].ordered
    ensures |s.blocks[2].items| == |e.steps|
    ensures forall i :: 0 <= i < |e.steps| ==> s.blocks[2].items[i] == StepItem(e.steps[i])
  {
    Section("Worked Example", ExampleIcon, [
      ContentBlock("Input", [Markup("<code>"), Escaped(e.input), Markup("</code>")]),
      ContentBlock("Step-by-Step Execution", []),
      ListBlock(true, seq(|e.steps|, i requires 0 <= i < |e.steps| => StepItem(e.steps[i]))),
      ContentBlock("Output", [Markup("<code>"), Escaped(e.output), Markup("</code>")])])
  }

  /** The heading text before the mistake of the pitfall at position `index`. */
  function PitfallHeading(index: nat): string {
    "<h4>Pitfall " + NatToString(index + 1) + ": "
  }

  function PitfallCard(index: nat, p: Pitfall): (b: Block)
    ensures b.Card? && |b.pieces| == 7 && b.pieces[0] == Markup(PitfallHeading(index))
  {
    Card([Markup(PitfallHeading(index)), Escaped(p.mistake),
          Markup("</h4><p><strong>Why It Fails:</strong> "), Escaped(p.whyFails),
          Markup("</p><p><strong>Fix:</strong> "), Escaped(p.fix), Markup("</p>")])
  }

  /** The `pitfalls.forEach((pitfall, index) => ...)` loop from position `from`. */
  function PitfallCards(ps: seq<Pitfall>, from: nat): (bs: seq<Block>)
    ensures |bs| == |ps|
    ensures forall i :: 0 <= i < |ps| ==> bs[i] == PitfallCard(from + i, ps[i])
    decreases |ps|
  {
    if |ps| == 0 then [] else [PitfallCard(from, ps[0])] + PitfallCards(ps[1..], from + 1)
  }

  /** `renderPitfalls`: one card per pitfall, the i-th (from 0) headed
      "Pitfall i+1". */
  function RenderPitfalls(ps: seq<Pitfall>): (s: Section)
    ensures s.title == SectionTitles[5]
    ensures |s.blocks| == |ps|
    ensures forall i :: 0 <= i < |ps| ==> s.blocks[i] == PitfallCard(i, ps[i])
    ensures forall i :: 0 <= i < |ps| ==>
              s.blocks[i].Card? && |s.blocks[i].pieces| > 0
              && s.blocks[i].pieces[0] == Markup("<h4>Pitfall " + NatToString(i + 1) + ": ")
  {
    Section("Common Pitfalls", WarningSign, PitfallCards(ps, 0))
  }

  /** `renderEdgeCases`: a label and an unordered list of the cases. */
  function RenderEdgeCases(cases: seq<string>): (s: Section)
    ensures s.title == SectionTitles[6]
    ensures |s.blocks| == 2 && s.blocks[1] == Utils.CreateList(Utils.Strs(cases), false)
  {
    Section("Edge Cases to Consider", EdgeCasesIcon,
            [ContentBlock("Test These Scenarios", []), Utils.CreateList(Utils.Strs(cases), false)])
  }

  function RelatedCard(p: RelatedProblem): Block {
    Card([Markup("<h4>"), Escaped(p.name), Markup(" "), Badge(p.difficulty),
          Markup("</h4><p><strong>Platform:</strong> "), Escaped(p.platform),
          Markup("</p><p><strong>Similarity:</strong> "), Escaped(p.similarity),
          Markup("</p><p><strong>Key Difference:</strong> "), Escaped(p.difference), Markup("</p>")])
  }

  /** `renderRelatedProblems`: one card per problem, in order. */
  function RenderRelatedProblems(ps: seq<RelatedProblem>): (s: Section)
    ensures s.title == SectionTitles[7]
    ensures |s.blocks| == |ps|
    ensures forall i :: 0 <= i < |ps| ==> s.blocks[i] == RelatedCard(ps[i])
  {
    Section("Related Problems", RelatedIcon, seq(|ps|, i requires 0 <= i < |ps| => RelatedCard(ps[i])))
  }

  /** `renderOutput(data)`: the container is emptied and the eight sections
      are appended in their fixed order. */
  function RenderOutput(d: ExplanationOutput): (doc: seq<Section>)
    ensures |doc| == |SectionTitles| == 8
    ensures forall i :: 0 <= i < 8 ==> doc[i].title == SectionTitles[i]
    ensures doc[2] == RenderApproach(d.naiveApproach, "Naive Approach", NaiveIcon)
    ensures doc[3] == RenderApproach(d.optimalApproach, "Optimal Approach", OptimalIcon)
  {
    [RenderOverview(d.overview),
     RenderConcepts(d.concepts),
     RenderApproach(d.naiveApproach, "Naive Approach", NaiveIcon),
     RenderApproach(d.optimalApproach, "Optimal Approach", OptimalIcon),
     RenderWorkedExample(d.workedExample),
     RenderPitfalls(d.pitfalls),
     RenderEdgeCases(d.edgeCases),
     RenderRelatedProblems(d.relatedProblems)]
  }

  // ---------------------------------------------------------------- approach blocks

  /** The single-element sequence of `s` when it is not empty. */
  function NonEmpty(s: string): seq<string> {
    if s == "" then [] else [s]
  }

  /** The block labels an approach promises: Approach, Intuition iff there
      is an intuition, Key Insight iff there is a key insight, Pseudocode,
      Complexity, Limitation iff there is a limitation, Why Optimal iff
      there is a why-optimal text. */
  function ApproachLabels(a: ApproachData): seq<string> {
    ["Approach"] + LabelIf(a.intuition != "", "Intuition") + LabelIf(a.keyInsight != "", "Key Insight")
    + ["Pseudocode"] + ["Complexity"]
    + LabelIf(a.limitation != "", "Limitation") + LabelIf(a.whyOptimal != "", "Why Optimal")
  }

  /** The one-label sequence when `cond` holds, nothing otherwise. */
  function LabelIf(cond: bool, l: string): seq<string> {
    if cond then [l] else []
  }

  lemma LabelsWhen(cond: bool, b: Block)
    requires b.ContentBlock?
    ensures Labels(When(cond, b)) == LabelIf(cond, b.caption)
  {
    if cond {
      assert Labels([b]) == [b.caption] + Labels([]);
    }
  }

  lemma LabelsOfSeven(b0: seq<Block>, b1: seq<Block>, b2: seq<Block>, b3: seq<Block>,
                      b4: seq<Block>, b5: seq<Block>, b6: seq<Block>)
    ensures Labels(b0 + b1 + b2 + b3 + b4 + b5 + b6)
            == Labels(b0) + Labels(b1) + Labels(b2) + Labels(b3) + Labels(b4) + Labels(b5) + Labels(b6)
  {
    LabelsAppend(b0, b1);
    LabelsAppend(b0 + b1, b2);
    LabelsAppend(b0 + b1 + b2, b3);
    LabelsAppend(b0 + b1 + b2 + b3, b4);
    LabelsAppend(b0 + b1 + b2 + b3 + b4, b5);
    LabelsAppend(b0 + b1 + b2 + b3 + b4 + b5, b6);
  }

  lemma CodeOfSeven(b0: seq<Block>, b1: seq<Block>, b2: seq<Block>, b3: seq<Block>,
                    b4: seq<Block>, b5: seq<Block>, b6: seq<Block>)
    ensures BlocksCode(b0 + b1 + b2 + b3 + b4 + b5 + b6)
            == BlocksCode(b0) + BlocksCode(b1) + BlocksCode(b2) + BlocksCode(b3)
               + BlocksCode(b4) + BlocksCode(b5) + BlocksCode(b6)
  {
    BlocksCodeAppend(b0, b1);
    BlocksCodeAppend(b0 + b1, b2);
    BlocksCodeAppend(b0 + b1 + b2, b3);
    BlocksCodeAppend(b0 + b1 + b2 + b3, b4);
    BlocksCodeAppend(b0 + b1 + b2 + b3 + b4, b5);
    BlocksCodeAppend(b0 + b1 + b2 + b3 + b4 + b5, b6);
  }

  /** The approach section's blocks carry exactly the promised labels. */
  lemma ApproachLabelsHold(a: ApproachData, title: string, icon: string)
    ensures Labels(RenderApproach(a, title, icon).blocks) == ApproachLabels(a)
  {
    var b0 := [ContentBlock("Approach", [Markup("<strong>"), Raw(a.name), Markup("</strong>")])];
    var b1 := When(a.intuition != "", ContentBlock("Intuition", [Raw(a.intuition)]));
    var b2 := When(a.keyInsight != "", ContentBlock("Key Insight", [Raw(a.keyInsight)]));
    var b3 := [CodeBlock("Pseudocode", a.pseudocode)];
    var b4 := [ContentBlock("Complexity", ComplexityPieces(a.timeComplexity, a.spaceComplexity))];
    var b5 := When(a.limitation != "", ContentBlock("Limitation", [Markup(WarningSign + " "), Raw(a.limitation)]));
    var b6 := When(a.whyOptimal != "", ContentBlock("Why Optimal", [Markup(CheckMark + " "), Raw(a.whyOptimal)]));
    assert RenderApproach(a, title, icon).blocks == b0 + b1 + b2 + b3 + b4 + b5 + b6;
    LabelsWhen(a.intuition != "", ContentBlock("Intuition", [Raw(a.intuition)]));
    LabelsWhen(a.keyInsight != "", ContentBlock("Key Insight", [Raw(a.keyInsight)]));
    LabelsWhen(a.limitation != "", ContentBlock("Limitation", [Markup(WarningSign + " "), Raw(a.limitation)]));
    LabelsWhen(a.whyOptimal != "", ContentBlock("Why Optimal", [Markup(CheckMark + " "), Raw(a.whyOptimal)]));
    assert Labels(b0) == ["Approach"] by { assert Labels(b0) == ["Approach"] + Labels([]); }
    assert Labels(b3) == ["Pseudocode"] by { assert Labels(b3) == ["Pseudocode"] + Labels([]); }
    assert Labels(b4) == ["Complexity"] by { assert Labels(b4) == ["Complexity"] + Labels([]); }
    LabelsOfSeven(b0, b1, b2, b3, b4, b5, b6);
  }

  /** The only code block of an approach section is its pseudocode. */
  lemma ApproachCode(a: ApproachData, title: string, icon: string)
    ensures BlocksCode(RenderApproach(a, title, icon).blocks) == [a.pseudocode]
  {
    var b0 := [ContentBlock("Approach", [Markup("<strong>"), Raw(a.name), Markup("</strong>")])];
    var b1 := When(a.intuition != "", ContentBlock("Intuition", [Raw(a.intuition)]));
    var b2 := When(a.keyInsight != "", ContentBlock("Key Insight", [Raw(a.keyInsight)]));
    var b3 := [CodeBlock("Pseudocode", a.pseudocode)];
    var b4 := [ContentBlock("Complexity", ComplexityPieces(a.timeComplexity, a.spaceComplexity))];
    var b5 := When(a.limitation != "", ContentBlock("Limitation", [Markup(WarningSign + " "), Raw(a.limitation)]));
    var b6 := When(a.whyOptimal != "", ContentBlock("Why Optimal", [Markup(CheckMark + " "), Raw(a.whyOptimal)]));
    assert RenderApproach(a, title, icon).blocks == b0 + b1 + b2 + b3 + b4 + b5 + b6;
    CodeOfSeven(b0, b1, b2, b3, b4, b5, b6);
    assert BlocksCode(b3) == [a.pseudocode] + BlocksCode([]);
  }

  /** Each optional block appears exactly when its field is non-empty,
      independently of the other fields: intuition and key insight may both
      appear, and so may limitation and why-optimal.  The three mandatory
      blocks are always there. */
  lemma ApproachOptionalBlocks(a: ApproachData, title: string, icon: string)
    ensures var labels := Labels(RenderApproach(a, title, icon).blocks);
            && ("Intuition" in labels <==> a.intuition != "")
            && ("Key Insight" in labels <==> a.keyInsight != "")
            && ("Limitation" in labels <==> a.limitation != "")
            && ("Why Optimal" in labels <==> a.whyOptimal != "")
            && "Approach" in labels && "Pseudocode" in labels && "Complexity" in labels
  {
    ApproachLabelsHold(a, title, icon);
    ApproachLabelIn(a, "Intuition");
    ApproachLabelIn(a, "Key Insight");
    ApproachLabelIn(a, "Limitation");
    ApproachLabelIn(a, "Why Optimal");
    ApproachLabelIn(a, "Approach");
    assert "Intuition"[0] == 'I' && "Key Insight"[0] == 'K' && "Limitation"[0] == 'L' && "Why Optimal"[0] == 'W';
    assert "Approach"[0] == 'A' && "Pseudocode"[0] == 'P' && "Complexity"[0] == 'C';
  }

  /** Which labels an approach section can carry. */
  lemma ApproachLabelIn(a: ApproachData, x: string)
    ensures x in ApproachLabels(a)
            <==> || x == "Approach" || x == "Pseudocode" || x == "Complexity"
                 || (x == "Intuition" && a.intuition != "") || (x == "Key Insight" && a.keyInsight != "")
                 || (x == "Limitation" && a.limitation != "") || (x == "Why Optimal" && a.whyOptimal != "")
  {
  }

  /** An approach section has three blocks plus one per non-empty optional field. */
  lemma ApproachBlockCount(a: ApproachData, title: string, icon: string)
    ensures |RenderApproach(a, title, icon).blocks|
            == 3 + |NonEmpty(a.intuition)| + |NonEmpty(a.keyInsight)|
                 + |NonEmpty(a.limitation)| + |NonEmpty(a.whyOptimal)|
  {
  }

  /** `formatComplexity` builds the same markup as the complexity pieces. */
  lemma ComplexityMarkup(time: string, space: string)
    ensures PiecesHtml(ComplexityPieces(time, space)) == Utils.FormatComplexity(time, space)
  {
    var ps := ComplexityPieces(time, space);
    PiecesHtmlStep(ps, 3);
    PiecesHtmlStep(ps, 2);
    PiecesHtmlStep(ps, 1);
    PiecesHtmlStep(ps, 0);
    assert ps[0..] == ps && ps[4..] == [];
    assert space + "" == space;
    SeqAssoc4(Utils.TimeLabel, time, Utils.SpaceLabel, space);
  }

  lemma PiecesHtmlStep(ps: seq<Piece>, k: nat)
    requires k < |ps|
    ensures PiecesHtml(ps[k..]) == PieceHtml(ps[k]) + PiecesHtml(ps[k + 1..])
  {
    assert ps[k..][1..] == ps[k + 1..];
  }

  // ---------------------------------------------------------------- escaping policy

  /** The fields of the pitfalls, three per pitfall, in order. */
  function PitfallFields(ps: seq<Pitfall>): seq<string>
    decreases |ps|
  {
    if |ps| == 0 then [] else [ps[0].mistake, ps[0].whyFails, ps[0].fix] + PitfallFields(ps[1..])
  }

  /** The escaped fields of the related problems, four per problem, in order. */
  function RelatedFields(ps: seq<RelatedProblem>): seq<string>
    decreases |ps|
  {
    if |ps| == 0 then []
    else [ps[0].name, ps[0].platform, ps[0].similarity, ps[0].difference] + RelatedFields(ps[1..])
  }

  function RelatedDifficulties(ps: seq<RelatedProblem>): seq<string>
    decreases |ps|
  {
    if |ps| == 0 then [] else [ps[0].difficulty] + RelatedDifficulties(ps[1..])
  }

  /** The fields of an approach inserted unescaped. */
  function ApproachVerbatim(a: ApproachData): seq<string> {
    [a.name] + NonEmpty(a.intuition) + NonEmpty(a.keyInsight)
    + [a.timeComplexity, a.spaceComplexity] + NonEmpty(a.limitation) + NonEmpty(a.whyOptimal)
  }

  /** The fields of the concepts inserted unescaped. */
  function ConceptsVerbatim(c: ConceptsData): seq<string> {
    c.concepts + c.prerequisites + [c.difficultyReason, c.analogy]
  }

  /** Items that each show one string unescaped. */
  lemma {:induction false} RawItemsTexts(items: seq<seq<Piece>>, xs: seq<string>)
    requires |items| == |xs|
    requires forall i :: 0 <= i < |xs| ==> items[i] == [Raw(xs[i])]
    ensures TextsVia(Flatten(items), Verbatim) == xs
    ensures TextsVia(Flatten(items), Escaping) == []
    ensures TextsVia(Flatten(items), Badging) == []
    decreases |xs|
  {
    if |xs| > 0 {
      RawItemsTexts(items[1..], xs[1..]);
      TextsViaAppend(items[0], Flatten(items[1..]), Verbatim);
      TextsViaAppend(items[0], Flatten(items[1..]), Escaping);
      TextsViaAppend(items[0], Flatten(items[1..]), Badging);
      assert [xs[0]] + xs[1..] == xs;
    }
  }

  /** Items that each show one step escaped. */
  lemma {:induction false} StepItemsTexts(items: seq<seq<Piece>>, xs: seq<string>)
    requires |items| == |xs|
    requires forall i :: 0 <= i < |xs| ==> items[i] == StepItem(xs[i])
    ensures TextsVia(Flatten(items), Verbatim) == []
    ensures TextsVia(Flatten(items), Escaping) == xs
    ensures TextsVia(Flatten(items), Badging) == []
    decreases |xs|
  {
    if |xs| > 0 {
      StepItemTexts(xs[0]);
      StepItemsTexts(items[1..], xs[1..]);
      TextsViaAppend(items[0], Flatten(items[1..]), Verbatim);
      TextsViaAppend(items[0], Flatten(items[1..]), Escaping);
      TextsViaAppend(items[0], Flatten(items[1..]), Badging);
      assert [xs[0]] + xs[1..] == xs;
    }
  }

  lemma StepItemTexts(step: string)
    ensures TextsVia(StepItem(step), Verbatim) == []
    ensures TextsVia(StepItem(step), Escaping) == [step]
    ensures TextsVia(StepItem(step), Badging) == []
  {
    assert StepItem(step)[0..] == StepItem(step);
    TextsViaUnrolled(StepItem(step), Verbatim);
    TextsViaUnrolled(StepItem(step), Escaping);
    TextsViaUnrolled(StepItem(step), Badging);
  }

  lemma PitfallCardTexts(index: nat, p: Pitfall)
    ensures TextsVia(PitfallCard(index, p).pieces, Verbatim) == []
    ensures TextsVia(PitfallCard(index, p).pieces, Escaping) == [p.mistake, p.whyFails, p.fix]
    ensures TextsVia(PitfallCard(index, p).pieces, Badging) == []
  {
    var ps := PitfallCard(index, p).pieces;
    TextsVia7(ps, Verbatim);
    TextsVia7(ps, Escaping);
    TextsVia7(ps, Badging);
  }

  lemma RelatedCardTexts(p: RelatedProblem)
    ensures TextsVia(RelatedCard(p).pieces, Verbatim) == []
    ensures TextsVia(RelatedCard(p).pieces, Escaping) == [p.name, p.platform, p.similarity, p.difference]
    ensures TextsVia(RelatedCard(p).pieces, Badging) == [p.difficulty]
  {
    var ps := RelatedCard(p).pieces;
    assert ps == ps[..7] + ps[7..];
    forall c: Channel ensures TextsVia(ps, c) == TextsVia(ps[..7], c) + TextsVia(ps[7..], c) {
      TextsViaAppend(ps[..7], ps[7..], c);
    }
    TextsVia7(ps[..7], Verbatim); TextsVia4(ps[7..], Verbatim);
    TextsVia7(ps[..7], Escaping); TextsVia4(ps[7..], Escaping);
    TextsVia7(ps[..7], Badging); TextsVia4(ps[7..], Badging);
  }

  lemma {:induction false} PitfallCardsTexts(bs: seq<Block>, ps: seq<Pitfall>, from: nat)
    requires |bs| == |ps|
    requires forall i :: 0 <= i < |ps| ==> bs[i] == PitfallCard(from + i, ps[i])
    ensures BlocksTexts(bs, Verbatim) == []
    ensures BlocksTexts(bs, Escaping) == PitfallFields(ps)
    ensures BlocksTexts(bs, Badging) == []
    ensures BlocksCode(bs) == []
    decreases |ps|
  {
    if |ps| > 0 {
      PitfallCardTexts(from, ps[0]);
      PitfallCardsTexts(bs[1..], ps[1..], from + 1);
    }
  }

  lemma {:induction false} RelatedCardsTexts(bs: seq<Block>, ps: seq<RelatedProblem>)
    requires |bs| == |ps|
    requires forall i :: 0 <= i < |ps| ==> bs[i] == RelatedCard(ps[i])
    ensures BlocksTexts(bs, Verbatim) == []
    ensures BlocksTexts(bs, Escaping) == RelatedFields(ps)
    ensures BlocksTexts(bs, Badging) == RelatedDifficulties(ps)
    ensures BlocksCode(bs) == []
    decreases |ps|
  {
    if |ps| > 0 {
      RelatedCardTexts(ps[0]);
      RelatedCardsTexts(bs[1..], ps[1..]);
    }
  }

  /** A list of strings shows each string unescaped, in order. */
  lemma ListBlockTexts(xs: seq<string>, ordered: bool)
    ensures var ps := BlockPieces(Utils.CreateList(Utils.Strs(xs), ordered));
            TextsVia(ps, Verbatim) == xs && TextsVia(ps, Escaping) == [] && TextsVia(ps, Badging) == []
  {
    var b := Utils.CreateList(Utils.Strs(xs), ordered);
    RawItemsTexts(b.items, xs);
  }

  // ---------------------------------------------------------------- escaping policy, section by section

  /** The overview is inserted unescaped. */
  lemma OverviewShown(o: string)
    ensures ShownBy(RenderOverview(o).blocks) == Shown([o], [], [], [])
  {
    var bs := RenderOverview(o).blocks;
    Blocks1(bs, Verbatim); Blocks1(bs, Escaping); Blocks1(bs, Badging);
    TextsVia1(BlockPieces(bs[0]), Verbatim);
    TextsVia1(BlockPieces(bs[0]), Escaping);
    TextsVia1(BlockPieces(bs[0]), Badging);
  }

  /** The concepts, prerequisites, difficulty reason and analogy are inserted
      unescaped, and the difficulty only as a badge. */
  lemma ConceptsShown(c: ConceptsData)
    ensures ShownBy(RenderConcepts(c).blocks) == Shown(ConceptsVerbatim(c), [], [c.difficulty], [])
  {
    var bs := RenderConcepts(c).blocks;
    ConceptsVerbatimShown(c);
    ConceptsOtherShown(c, Escaping);
    ConceptsOtherShown(c, Badging);
    ConceptsCode(c);
  }

  lemma ConceptsVerbatimShown(c: ConceptsData)
    ensures BlocksTexts(RenderConcepts(c).blocks, Verbatim) == ConceptsVerbatim(c)
  {
    var bs := RenderConcepts(c).blocks;
    ConceptsBlocksVerbatim(c);
    Blocks6(bs, Verbatim);
    ConceptsPadding(c.concepts, c.prerequisites, c.difficultyReason, c.analogy);
  }

  lemma ConceptsPadding<T>(cs: seq<T>, ps: seq<T>, r: T, a: T)
    ensures [] + (cs + ([] + (ps + ([r] + [a])))) == cs + ps + [r, a]
  {
    assert [r] + [a] == [r, a];
    SeqAssoc3(cs, ps, [r, a]);
  }

  /** What each block of the concepts section shows unescaped. */
  lemma ConceptsBlocksVerbatim(c: ConceptsData)
    ensures var bs := RenderConcepts(c).blocks;
            && TextsVia(BlockPieces(bs[0]), Verbatim) == []
            && TextsVia(BlockPieces(bs[1]), Verbatim) == c.concepts
            && TextsVia(BlockPieces(bs[2]), Verbatim) == []
            && TextsVia(BlockPieces(bs[3]), Verbatim) == c.prerequisites
            && TextsVia(BlockPieces(bs[4]), Verbatim) == [c.difficultyReason]
            && TextsVia(BlockPieces(bs[5]), Verbatim) == [c.analogy]
  {
    var bs := RenderConcepts(c).blocks;
    assert TextsVia(BlockPieces(bs[0]), Verbatim) == [] && TextsVia(BlockPieces(bs[2]), Verbatim) == [] by {
      assert BlockPieces(bs[0]) == [] && BlockPieces(bs[2]) == [];
    }
    assert TextsVia(BlockPieces(bs[1]), Verbatim) == c.concepts by {
      ListBlockTexts(c.concepts, false);
    }
    assert TextsVia(BlockPieces(bs[3]), Verbatim) == c.prerequisites by {
      ListBlockTexts(c.prerequisites, false);
    }
    assert TextsVia(BlockPieces(bs[4]), Verbatim) == [c.difficultyReason] by {
      TextsVia4(BlockPieces(bs[4]), Verbatim);
    }
    assert TextsVia(BlockPieces(bs[5]), Verbatim) == [c.analogy] by {
      TextsVia2(BlockPieces(bs[5]), Verbatim);
    }
  }

  lemma ConceptsOtherShown(c: ConceptsData, ch: Channel)
    requires ch != Verbatim
    ensures BlocksTexts(RenderConcepts(c).blocks, ch) == if ch == Badging then [c.difficulty] else []
  {
    var bs := RenderConcepts(c).blocks;
    ListBlockTexts(c.concepts, false);
    ListBlockTexts(c.prerequisites, false);
    DifficultyTexts(c, ch);
    AnalogyTexts(c, ch);
    assert BlockPieces(bs[0]) == [] && BlockPieces(bs[2]) == [];
    Blocks6(bs, ch);
    OnePadding(if ch == Badging then [c.difficulty] else []);
  }

  /** The concepts section shows no code. */
  lemma ConceptsCode(c: ConceptsData)
    ensures BlocksCode(RenderConcepts(c).blocks) == []
  {
    Blocks6(RenderConcepts(c).blocks, Verbatim);
  }

  /** The difficulty block shows the difficulty as a badge and nothing escaped. */
  lemma DifficultyTexts(c: ConceptsData, ch: Channel)
    requires ch != Verbatim
    ensures TextsVia(DifficultyPieces(c), ch) == if ch == Badging then [c.difficulty] else []
  {
    TextsVia4(DifficultyPieces(c), ch);
  }

  /** The analogy block shows nothing escaped and no badge. */
  lemma AnalogyTexts(c: ConceptsData, ch: Channel)
    requires ch != Verbatim
    ensures TextsVia([Markup(LightBulb + " "), Raw(c.analogy)], ch) == []
  {
    TextsVia2([Markup(LightBulb + " "), Raw(c.analogy)], ch);
  }

  lemma OnePadding<T>(x: seq<T>)
    ensures [] + ([] + ([] + ([] + (x + [])))) == x
  {
    assert x + [] == x;
  }

  /** The `When` block contributes its pieces exactly when the condition holds. */
  lemma WhenShown(cond: bool, b: Block)
    ensures ShownBy(When(cond, b)) == if cond then ShownBy([b]) else Shown([], [], [], [])
  {
  }

  /** An optional text block: shows the field unescaped when it is not empty. */
  lemma OptionalShown(field: string, caption: string, pieces: seq<Piece>)
    requires pieces == [Raw(field)] || (|pieces| == 2 && pieces[0].Markup? && pieces[1] == Raw(field))
    ensures ShownBy(When(field != "", ContentBlock(caption, pieces))) == Shown(NonEmpty(field), [], [], [])
  {
    var b := ContentBlock(caption, pieces);
    Blocks1([b], Verbatim); Blocks1([b], Escaping); Blocks1([b], Badging);
    if |pieces| == 1 {
      TextsVia1(pieces, Verbatim); TextsVia1(pieces, Escaping); TextsVia1(pieces, Badging);
    } else {
      TextsVia2(pieces, Verbatim); TextsVia2(pieces, Escaping); TextsVia2(pieces, Badging);
    }
  }

  lemma ShownAppend(a: seq<Block>, b: seq<Block>)
    ensures ShownBy(a + b).verbatim == ShownBy(a).verbatim + ShownBy(b).verbatim
    ensures ShownBy(a + b).escaped == ShownBy(a).escaped + ShownBy(b).escaped
    ensures ShownBy(a + b).badges == ShownBy(a).badges + ShownBy(b).badges
    ensures ShownBy(a + b).code == ShownBy(a).code + ShownBy(b).code
  {
    BlocksTextsAppend(a, b, Verbatim);
    BlocksTextsAppend(a, b, Escaping);
    BlocksTextsAppend(a, b, Badging);
    BlocksCodeAppend(a, b);
  }

  /** The complexities are inserted unescaped, time first. */
  lemma ComplexityShown(time: string, space: string)
    ensures ShownBy([ContentBlock("Complexity", ComplexityPieces(time, space))]) == Shown([time, space], [], [], [])
  {
    var ps := ComplexityPieces(time, space);
    var bs := [ContentBlock("Complexity", ps)];
    Blocks1(bs, Verbatim); Blocks1(bs, Escaping); Blocks1(bs, Badging);
    TextsVia4(ps, Verbatim); TextsVia4(ps, Escaping); TextsVia4(ps, Badging);
    assert TextsVia(ps, Verbatim) == [] + [time] + [] + [space];
    assert [] + [time] + [] + [space] == [time, space];
  }

  /** An approach shows its name, its non-empty optional texts and its
      complexities unescaped, and its pseudocode in a code block. */
  lemma ApproachShown(a: ApproachData, title: string, icon: string)
    ensures ShownBy(RenderApproach(a, title, icon).blocks) == Shown(ApproachVerbatim(a), [], [], [a.pseudocode])
  {
    var b0 := [ContentBlock("Approach", [Markup("<strong>"), Raw(a.name), Markup("</strong>")])];
    var b1 := When(a.intuition != "", ContentBlock("Intuition", [Raw(a.intuition)]));
    var b2 := When(a.keyInsight != "", ContentBlock("Key Insight", [Raw(a.keyInsight)]));
    var b3 := [CodeBlock("Pseudocode", a.pseudocode)];
    var b4 := [ContentBlock("Complexity", ComplexityPieces(a.timeComplexity, a.spaceComplexity))];
    var b5 := When(a.limitation != "", ContentBlock("Limitation", [Markup(WarningSign + " "), Raw(a.limitation)]));
    var b6 := When(a.whyOptimal != "", ContentBlock("Why Optimal", [Markup(CheckMark + " "), Raw(a.whyOptimal)]));
    assert RenderApproach(a, title, icon).blocks == b0 + b1 + b2 + b3 + b4 + b5 + b6;
    var s0, s1, s2, s3 := ShownBy(b0), ShownBy(b1), ShownBy(b2), ShownBy(b3);
    var s4, s5, s6 := ShownBy(b4), ShownBy(b5), ShownBy(b6);
    OptionalShown(a.intuition, "Intuition", [Raw(a.intuition)]);
    OptionalShown(a.keyInsight, "Key Insight", [Raw(a.keyInsight)]);
    OptionalShown(a.limitation, "Limitation", [Markup(WarningSign + " "), Raw(a.limitation)]);
    OptionalShown(a.whyOptimal, "Why Optimal", [Markup(CheckMark + " "), Raw(a.whyOptimal)]);
    ApproachHeadShown(a.name);
    PseudocodeShown(a.pseudocode);
    ComplexityShown(a.timeComplexity, a.spaceComplexity);
    ShownOfSeven(b0, b1, b2, b3, b4, b5, b6);
    ApproachSum(a, s0, s1, s2, s3, s4, s5, s6);
  }

  lemma ApproachHeadShown(name: string)
    ensures ShownBy([ContentBlock("Approach", [Markup("<strong>"), Raw(name), Markup("</strong>")])])
            == Shown([name], [], [], [])
  {
    var ps := [Markup("<strong>"), Raw(name), Markup("</strong>")];
    var bs := [ContentBlock("Approach", ps)];
    Blocks1(bs, Verbatim); Blocks1(bs, Escaping); Blocks1(bs, Badging);
    TextsVia3(ps, Verbatim); TextsVia3(ps, Escaping); TextsVia3(ps, Badging);
  }

  lemma PseudocodeShown(code: string)
    ensures ShownBy([CodeBlock("Pseudocode", code)]) == Shown([], [], [], [code])
  {
    var bs := [CodeBlock("Pseudocode", code)];
    Blocks1(bs, Verbatim); Blocks1(bs, Escaping); Blocks1(bs, Badging);
  }

  /** The approach's seven block groups added up. */
  lemma ApproachSum(a: ApproachData, s0: Shown, s1: Shown, s2: Shown, s3: Shown, s4: Shown, s5: Shown, s6: Shown)
    requires s0 == Shown([a.name], [], [], [])
    requires s1 == Shown(NonEmpty(a.intuition), [], [], [])
    requires s2 == Shown(NonEmpty(a.keyInsight), [], [], [])
    requires s3 == Shown([], [], [], [a.pseudocode])
    requires s4 == Shown([a.timeComplexity, a.spaceComplexity], [], [], [])
    requires s5 == Shown(NonEmpty(a.limitation), [], [], [])
    requires s6 == Shown(NonEmpty(a.whyOptimal), [], [], [])
    ensures s0.verbatim + s1.verbatim + s2.verbatim + s3.verbatim + s4.verbatim + s5.verbatim + s6.verbatim
            == ApproachVerbatim(a)
    ensures s0.escaped + s1.escaped + s2.escaped + s3.escaped + s4.escaped + s5.escaped + s6.escaped == []
    ensures s0.badges + s1.badges + s2.badges + s3.badges + s4.badges + s5.badges + s6.badges == []
    ensures s0.code + s1.code + s2.code + s3.code + s4.code + s5.code + s6.code == [a.pseudocode]
  {
    assert s0.verbatim + s1.verbatim + s2.verbatim + s3.verbatim == s0.verbatim + s1.verbatim + s2.verbatim;
  }

  lemma ShownOfSeven(b0: seq<Block>, b1: seq<Block>, b2: seq<Block>, b3: seq<Block>,
                     b4: seq<Block>, b5: seq<Block>, b6: seq<Block>)
    ensures var all, s0, s1, s2, s3, s4, s5, s6 :=
              ShownBy(b0 + b1 + b2 + b3 + b4 + b5 + b6), ShownBy(b0), ShownBy(b1), ShownBy(b2),
              ShownBy(b3), ShownBy(b4), ShownBy(b5), ShownBy(b6);
            && all.verbatim == s0.verbatim + s1.verbatim + s2.verbatim + s3.verbatim + s4.verbatim + s5.verbatim + s6.verbatim
            && all.escaped == s0.escaped + s1.escaped + s2.escaped + s3.escaped + s4.escaped + s5.escaped + s6.escaped
            && all.badges == s0.badges + s1.badges + s2.badges + s3.badges + s4.badges + s5.badges + s6.badges
            && all.code == s0.code + s1.code + s2.code + s3.code + s4.code + s5.code + s6.code
  {
    ShownAppend(b0, b1);
    ShownAppend(b0 + b1, b2);
    ShownAppend(b0 + b1 + b2, b3);
    ShownAppend(b0 + b1 + b2 + b3, b4);
    ShownAppend(b0 + b1 + b2 + b3 + b4, b5);
    ShownAppend(b0 + b1 + b2 + b3 + b4 + b5, b6);
  }

  /** The input, the steps and the output of the worked example are escaped. */
  lemma WorkedExampleShown(e: WorkedExample)
    ensures ShownBy(RenderWorkedExample(e).blocks) == Shown([], [e.input] + e.steps + [e.output], [], [])
  {
    WorkedExampleVia(e, Verbatim);
    WorkedExampleVia(e, Escaping);
    WorkedExampleVia(e, Badging);
    Blocks4(RenderWorkedExample(e).blocks, Verbatim);
  }

  lemma WorkedExampleVia(e: WorkedExample, ch: Channel)
    ensures BlocksTexts(RenderWorkedExample(e).blocks, ch)
            == if ch == Escaping then [e.input] + e.steps + [e.output] else []
  {
    var bs := RenderWorkedExample(e).blocks;
    CodeSpanTexts(e.input, ch);
    CodeSpanTexts(e.output, ch);
    StepItemsTexts(bs[2].items, e.steps);
    assert BlockPieces(bs[1]) == [];
    Blocks4(bs, ch);
    if ch == Escaping {
      ExamplePadding(e.input, e.steps, e.output);
    }
  }

  /** A `<code>` span around an escaped text shows just that text, escaped. */
  lemma CodeSpanTexts(x: string, ch: Channel)
    ensures TextsVia([Markup("<code>"), Escaped(x), Markup("</code>")], ch) == if ch == Escaping then [x] else []
  {
    TextsVia3([Markup("<code>"), Escaped(x), Markup("</code>")], ch);
  }

  lemma ExamplePadding<T>(x: T, s: seq<T>, y: T)
    ensures [x] + ([] + (s + [y])) == [x] + s + [y]
  {
    assert [] + (s + [y]) == s + [y];
  }

  /** Every pitfall field is escaped, pitfall after pitfall. */
  lemma PitfallsShown(ps: seq<Pitfall>)
    ensures ShownBy(RenderPitfalls(ps).blocks) == Shown([], PitfallFields(ps), [], [])
  {
    PitfallCardsTexts(RenderPitfalls(ps).blocks, ps, 0);
  }

  /** The edge cases are inserted unescaped, in order. */
  lemma EdgeCasesShown(cases: seq<string>)
    ensures ShownBy(RenderEdgeCases(cases).blocks) == Shown(cases, [], [], [])
  {
    var bs := RenderEdgeCases(cases).blocks;
    Blocks2(bs, Verbatim); Blocks2(bs, Escaping); Blocks2(bs, Badging);
    ListBlockTexts(cases, false);
    assert BlockPieces(bs[0]) == [];
  }

  /** Every related-problem field is escaped except the difficulty, which
      is shown as a badge. */
  lemma RelatedProblemsShown(ps: seq<RelatedProblem>)
    ensures ShownBy(RenderRelatedProblems(ps).blocks) == Shown([], RelatedFields(ps), RelatedDifficulties(ps), [])
  {
    RelatedCardsTexts(RenderRelatedProblems(ps).blocks, ps);
  }

  /** The escaping policy of the whole explanation: which response fields
      reach the markup unescaped, which through `escapeHtml`, which as a
      difficulty badge, and which as code, each in rendering order. */
  lemma RenderOutputShown(d: ExplanationOutput)
    ensures DocShown(RenderOutput(d)) == Shown(
              [d.overview] + ConceptsVerbatim(d.concepts) + ApproachVerbatim(d.naiveApproach)
                + ApproachVerbatim(d.optimalApproach) + d.edgeCases,
              [d.workedExample.input] + d.workedExample.steps + [d.workedExample.output]
                + PitfallFields(d.pitfalls) + RelatedFields(d.relatedProblems),
              [d.concepts.difficulty] + RelatedDifficulties(d.relatedProblems),
              [d.naiveApproach.pseudocode, d.optimalApproach.pseudocode])
  {
    OutputSectionsShown(d);
    OutputVerbatim(d);
    OutputEscaped(d);
    OutputBadges(d);
    OutputCode(d);
  }

  /** What each of the eight sections shows. */
  lemma OutputSectionsShown(d: ExplanationOutput)
    ensures var doc := RenderOutput(d);
            && ShownBy(doc[0].blocks) == Shown([d.overview], [], [], [])
            && ShownBy(doc[1].blocks) == Shown(ConceptsVerbatim(d.concepts), [], [d.concepts.difficulty], [])
            && ShownBy(doc[2].blocks) == Shown(ApproachVerbatim(d.naiveApproach), [], [], [d.naiveApproach.pseudocode])
            && ShownBy(doc[3].blocks) == Shown(ApproachVerbatim(d.optimalApproach), [], [], [d.optimalApproach.pseudocode])
            && ShownBy(doc[4].blocks) == Shown([], [d.workedExample.input] + d.workedExample.steps + [d.workedExample.output], [], [])
            && ShownBy(doc[5].blocks) == Shown([], PitfallFields(d.pitfalls), [], [])
            && ShownBy(doc[6].blocks) == Shown(d.edgeCases, [], [], [])
            && ShownBy(doc[7].blocks) == Shown([], RelatedFields(d.relatedProblems), RelatedDifficulties(d.relatedProblems), [])
  {
    OverviewShown(d.overview);
    ConceptsShown(d.concepts);
    ApproachShown(d.naiveApproach, "Naive Approach", NaiveIcon);
    ApproachShown(d.optimalApproach, "Optimal Approach", OptimalIcon);
    WorkedExampleShown(d.workedExample);
    PitfallsShown(d.pitfalls);
    EdgeCasesShown(d.edgeCases);
    RelatedProblemsShown(d.relatedProblems);
  }

  lemma OutputVerbatim(d: ExplanationOutput)
    ensures DocTexts(RenderOutput(d), Verbatim)
            == [d.overview] + ConceptsVerbatim(d.concepts) + ApproachVerbatim(d.naiveApproach)
               + ApproachVerbatim(d.optimalApproach) + d.edgeCases
  {
    OutputSectionsShown(d);
    VerbatimSum(RenderOutput(d), [d.overview], ConceptsVerbatim(d.concepts), ApproachVerbatim(d.naiveApproach),
                ApproachVerbatim(d.optimalApproach), d.edgeCases);
  }

  lemma VerbatimSum(doc: seq<Section>, v0: seq<string>, v1: seq<string>, v2: seq<string>, v3: seq<string>, v6: seq<string>)
    requires |doc| == 8
    requires BlocksTexts(doc[0].blocks, Verbatim) == v0 && BlocksTexts(doc[1].blocks, Verbatim) == v1
    requires BlocksTexts(doc[2].blocks, Verbatim) == v2 && BlocksTexts(doc[3].blocks, Verbatim) == v3
    requires BlocksTexts(doc[4].blocks, Verbatim) == [] && BlocksTexts(doc[5].blocks, Verbatim) == []
    requires BlocksTexts(doc[6].blocks, Verbatim) == v6 && BlocksTexts(doc[7].blocks, Verbatim) == []
    ensures DocTexts(doc, Verbatim) == v0 + v1 + v2 + v3 + v6
  {
    Doc8(doc, Verbatim);
    VerbatimPadding(v0, v1, v2, v3, v6);
  }

  lemma VerbatimPadding<T>(v0: seq<T>, v1: seq<T>, v2: seq<T>, v3: seq<T>, v6: seq<T>)
    ensures v0 + (v1 + (v2 + (v3 + ([] + ([] + (v6 + [])))))) == v0 + v1 + v2 + v3 + v6
  {
    assert v6 + [] == v6;
    SeqAssoc5(v0, v1, v2, v3, v6);
  }

  lemma OutputEscaped(d: ExplanationOutput)
    ensures DocTexts(RenderOutput(d), Escaping)
            == [d.workedExample.input] + d.workedExample.steps + [d.workedExample.output]
               + PitfallFields(d.pitfalls) + RelatedFields(d.relatedProblems)
  {
    OutputSectionsShown(d);
    EscapedSum(RenderOutput(d), [d.workedExample.input] + d.workedExample.steps + [d.workedExample.output],
               PitfallFields(d.pitfalls), RelatedFields(d.relatedProblems));
  }

  lemma EscapedSum(doc: seq<Section>, e4: seq<string>, e5: seq<string>, e7: seq<string>)
    requires |doc| == 8
    requires BlocksTexts(doc[0].blocks, Escaping) == [] && BlocksTexts(doc[1].blocks, Escaping) == []
    requires BlocksTexts(doc[2].blocks, Escaping) == [] && BlocksTexts(doc[3].blocks, Escaping) == []
    requires BlocksTexts(doc[4].blocks, Escaping) == e4 && BlocksTexts(doc[5].blocks, Escaping) == e5
    requires BlocksTexts(doc[6].blocks, Escaping) == [] && BlocksTexts(doc[7].blocks, Escaping) == e7
    ensures DocTexts(doc, Escaping) == e4 + e5 + e7
  {
    Doc8(doc, Escaping);
    EscapedPadding(e4, e5, e7);
  }

  lemma EscapedPadding<T>(e4: seq<T>, e5: seq<T>, e7: seq<T>)
    ensures [] + ([] + ([] + ([] + (e4 + (e5 + ([] + e7)))))) == e4 + e5 + e7
  {
    assert [] + e7 == e7;
    SeqAssoc3(e4, e5, e7);
  }

  lemma OutputBadges(d: ExplanationOutput)
    ensures DocTexts(RenderOutput(d), Badging) == [d.concepts.difficulty] + RelatedDifficulties(d.relatedProblems)
  {
    OutputSectionsShown(d);
    BadgesSum(RenderOutput(d), [d.concepts.difficulty], RelatedDifficulties(d.relatedProblems));
  }

  lemma BadgesSum(doc: seq<Section>, b1: seq<string>, b7: seq<string>)
    requires |doc| == 8
    requires BlocksTexts(doc[0].blocks, Badging) == [] && BlocksTexts(doc[1].blocks, Badging) == b1
    requires BlocksTexts(doc[2].blocks, Badging) == [] && BlocksTexts(doc[3].blocks, Badging) == []
    requires BlocksTexts(doc[4].blocks, Badging) == [] && BlocksTexts(doc[5].blocks, Badging) == []
    requires BlocksTexts(doc[6].blocks, Badging) == [] && BlocksTexts(doc[7].blocks, Badging) == b7
    ensures DocTexts(doc, Badging) == b1 + b7
  {
    Doc8(doc, Badging);
    BadgesPadding(b1, b7);
  }

  lemma BadgesPadding<T>(b1: seq<T>, b7: seq<T>)
    ensures [] + (b1 + ([] + ([] + ([] + ([] + ([] + b7)))))) == b1 + b7
  {
  }

  lemma OutputCode(d: ExplanationOutput)
    ensures DocCode(RenderOutput(d)) == [d.naiveApproach.pseudocode, d.optimalApproach.pseudocode]
  {
    OutputSectionsShown(d);
    CodeSum(RenderOutput(d), d.naiveApproach.pseudocode, d.optimalApproach.pseudocode);
  }

  lemma CodeSum(doc: seq<Section>, c2: string, c3: string)
    requires |doc| == 8
    requires BlocksCode(doc[0].blocks) == [] && BlocksCode(doc[1].blocks) == []
    requires BlocksCode(doc[2].blocks) == [c2] && BlocksCode(doc[3].blocks) == [c3]
    requires BlocksCode(doc[4].blocks) == [] && BlocksCode(doc[5].blocks) == []
    requires BlocksCode(doc[6].blocks) == [] && BlocksCode(doc[7].blocks) == []
    ensures DocCode(doc) == [c2, c3]
  {
    Doc8(doc, Verbatim);
    CodePadding(c2, c3);
  }

  lemma CodePadding<T>(c2: T, c3: T)
    ensures [] + ([] + ([c2] + ([c3] + ([] + ([] + ([] + [])))))) == [c2, c3]
  {
    assert [c2] + [c3] == [c2, c3];
  }
}

=== FILE: routes.dfy ===
/**
 * The API routes of the backend (backend/api/routes.py): JSON extraction
 * from generated text, the `/generate` handler and the `/health` handler.
 * The language model is the parameter `generate`, which maps a prompt and
 * a token budget to the generated text or the message of the exception
 * raised while loading or running the model; the response to the page
 * request is the parameter `fetch`; `json.loads` is the parameter `parse`.
 */
module Routes {
  import opened Wrappers
  import opened Strings
  import opened Models
  import opened Config
  import Parser

  // ---------------------------------------------------------------- extract_json

  /** The position of the first `c` in `s`. */
  function FirstOf(s: string, c: char): (r: Option<nat>)
    ensures r.Some? <==> c in s
    ensures r.Some? ==> r.value < |s| && s[r.value] == c
                        && forall k :: 0 <= k < r.value ==> s[k] != c
    decreases |s|
  {
    if |s| == 0 then None
    else if s[0] == c then Some(0)
    else
      assert s == [s[0]] + s[1..];
      match FirstOf(s[1..], c)
      case None => None
      case Some(i) =>
        assert forall k :: 1 <= k < i + 1 ==> s[k] == s[1..][k - 1];
        Some(i + 1)
  }

  /** The position of the last `c` in `s`. */
  function LastOf(s: string, c: char): (r: Option<nat>)
    ensures r.Some? <==> c in s
    ensures r.Some? ==> r.value < |s| && s[r.value] == c
                        && forall k :: r.value < k < |s| ==> s[k] != c
    decreases |s|
  {
    if |s| == 0 then None
    else if s[|s| - 1] == c then Some(|s| - 1)
    else
      var front := s[..|s| - 1];
      assert s == front + [s[|s| - 1]];
      match LastOf(front, c)
      case None => None
      case Some(i) =>
        assert forall k :: i < k < |s| - 1 ==> s[k] == front[k];
        Some(i)
  }

  /** Some `{` precedes some `}` exactly when the first `{` precedes the
      last `}`. */
  lemma BracePair(t: string)
    ensures (exists i, j :: 0 <= i < j < |t| && t[i] == '{' && t[j] == '}')
            <==> (var first, last := FirstOf(t, '{'), LastOf(t, '}');
                  first.Some? && last.Some? && first.value < last.value)
  {
    var first, last := FirstOf(t, '{'), LastOf(t, '}');
    if exists i, j :: 0 <= i < j < |t| && t[i] == '{' && t[j] == '}' {
      var i, j :| 0 <= i < j < |t| && t[i] == '{' && t[j] == '}';
      assert first.Some? && first.value <= i;
      assert last.Some? && j <= last.value;
    }
    if first.Some? && last.Some? && first.value < last.value {
      assert t[first.value] == '{' && t[last.value] == '}';
    }
  }

  /** Cutting `t` around its positions `i` and `j`: no `{` before `i` and no
      `}` after `j` leaves prose without those braces on either side. */
  lemma CandidateSplit(t: string, i: nat, j: nat)
    requires i <= j < |t|
    requires forall k :: 0 <= k < i ==> t[k] != '{'
    requires forall k :: j < k < |t| ==> t[k] != '}'
    ensures exists a, b :: t == a + t[i..j + 1] + b && '{' !in a && '}' !in b
  {
    var a, o, rest := t[..i], t[i..j + 1], t[j + 1..];
    forall k | 0 <= k < |rest| ensures rest[k] != '}' {
      assert rest[k] == t[j + 1 + k];
    }
    assert '}' !in rest;
    assert t == a + o + rest;
    assert '{' !in a;
  }

  /** The match of `re.search(r'\{.*\}', text, re.DOTALL)`: the leftmost
      match starts at the first `{`, and the greedy `.*` runs to the last
      `}`; there is a match exactly when some `{` precedes some `}`. */
  function JsonCandidate(t: string): (r: Option<string>)
    ensures r.Some? <==> exists i, j :: 0 <= i < j < |t| && t[i] == '{' && t[j] == '}'
    ensures r.Some? ==> |r.value| >= 2 && r.value[0] == '{' && r.value[|r.value| - 1] == '}'
  {
    BracePair(t);
    var first := FirstOf(t, '{');
    var last := LastOf(t, '}');
    if first.Some? && last.Some? && first.value < last.value then
      var i, j := first.value, last.value;
      Some(t[i..j + 1])
    else
      None
  }

  /** The candidate is surrounded by text holding no `{` before it and no
      `}` after it. */
  lemma CandidateSurroundings(t: string)
    requires JsonCandidate(t).Some?
    ensures exists a, b :: t == a + JsonCandidate(t).value + b && '{' !in a && '}' !in b
  {
    var first, last := FirstOf(t, '{'), LastOf(t, '}');
    CandidateSplit(t, first.value, last.value);
  }

  /** Prose around a JSON object is skipped when it holds no brace of the
      wrong kind: the object is found again. */
  lemma CandidateOfEmbedded(a: string, o: string, b: string)
    requires |o| >= 2 && o[0] == '{' && o[|o| - 1] == '}'
    requires '{' !in a && '}' !in b
    ensures JsonCandidate(a + o + b) == Some(o)
  {
    var t := a + o + b;
    assert t[|a|] == '{' && t[|a| + |o| - 1] == '}';
    assert forall k :: 0 <= k < |a| ==> t[k] == a[k];
    assert forall k :: |a| + |o| <= k < |t| ==> t[k] == b[k - |a| - |o|];
    assert FirstOf(t, '{').value == |a|;
    assert LastOf(t, '}').value == |a| + |o| - 1;
    assert t[|a|..|a| + |o|] == o;
  }

  const JsonErrorPrefix: string := "Could not extract valid JSON from response: "

  /** `text[:200]`. */
  function Quote(t: string): (q: string)
    ensures |q| <= 200 && StartsWith(t, q)
    ensures |t| <= 200 ==> q == t
    ensures |t| > 200 ==> q == t[..200]
  {
    if |t| <= 200 then t else t[..200]
  }

  /** `extract_json(text)`: the candidate object if it parses, else the
      whole stripped text if it parses, else an error quoting the start of
      the stripped text. */
  function ExtractJson<J>(text: string, parse: string -> Option<J>): (r: Result<J, string>)
    ensures var t := Trim(text);
            var c := JsonCandidate(t);
            && (r.Ok? <==> (c.Some? && parse(c.value).Some?) || parse(t).Some?)
            && (c.Some? && parse(c.value).Some? ==> r == Ok(parse(c.value).value))
            && (r.Ok? && !(c.Some? && parse(c.value).Some?) ==> r == Ok(parse(t).value))
            && (r.Err? ==> StartsWith(r.error, JsonErrorPrefix)
                           && StartsWith(t, r.error[|JsonErrorPrefix|..])
                           && |r.error| <= |JsonErrorPrefix| + 200
                           && r.error == JsonErrorPrefix + Quote(t))
  {
    var t := Trim(text);
    var c := JsonCandidate(t);
    if c.Some? && parse(c.value).Some? then Ok(parse(c.value).value)
    else if parse(t).Some? then Ok(parse(t).value)
    else
      var e := JsonErrorPrefix + Quote(t);
      assert e[|JsonErrorPrefix|..] == Quote(t);
      Err(e)
  }

  // ---------------------------------------------------------------- /generate

  datatype Reply =
    | Success(output: ExplanationOutput)
    | Failure(status: nat, detail: string)  // an `HTTPException`

  const CannotAccessPrefix: string := "Cannot access URL: "
  const SolutionHint: string := " SOLUTION: Switch to 'Paste Text' mode."
  const FailedUrlPrefix: string := "Failed to parse URL: "
  const TooShortDetail: string := "Problem text is too short or empty."
  const GenerationPrefix: string := "Generation error: "

  /** Problem texts shorter than this are rejected. */
  const MinProblemLength: nat := 10
  /** The number of characters of the problem text the overview keeps. */
  const OverviewLength: nat := 300
  /** The token budget the route asks the model for. */
  const MaxNewTokens: nat := 512

  /** A parse error names the blocking when its message mentions "403" or
      "blocking" (case-sensitively). */
  predicate MentionsBlocking(msg: string) {
    Contains(msg, "403") || Contains(msg, "blocking")
  }

  /** The 400 reply for a URL that could not be parsed. */
  function ParseFailure(msg: string): (r: Reply)
    ensures r.Failure? && r.status == 400
    ensures MentionsBlocking(msg) ==> StartsWith(r.detail, CannotAccessPrefix)
    ensures !MentionsBlocking(msg) ==> StartsWith(r.detail, FailedUrlPrefix)
    ensures Contains(r.detail, msg)
    ensures MentionsBlocking(msg) ==> r.detail == CannotAccessPrefix + msg + SolutionHint
    ensures !MentionsBlocking(msg) ==> r.detail == FailedUrlPrefix + msg
  {
    if MentionsBlocking(msg) then
      ContainsMiddle(CannotAccessPrefix, msg, SolutionHint);
      Failure(400, CannotAccessPrefix + msg + SolutionHint)
    else
      ContainsMiddle(FailedUrlPrefix, msg, "");
      assert FailedUrlPrefix + msg + "" == FailedUrlPrefix + msg;
      Failure(400, FailedUrlPrefix + msg)
  }

  /** The problem text: the parsed page in URL mode, the content as sent
      (not trimmed) in text mode. */
  function ProblemText(p: ProblemInput, fetch: Parser.Fetch): (r: Result<string, Reply>)
    ensures p.inputType == Text ==> r == Ok(p.content)
    ensures p.inputType == Url ==> (r.Ok? <==> Parser.ParseProblem(p.content, fetch).Ok?)
    ensures p.inputType == Url && r.Ok? ==> r.value == Parser.ParseProblem(p.content, fetch).value
    ensures r.Err? ==> r.error.Failure? && r.error.status == 400
  {
    match p.inputType
    case Text => Ok(p.content)
    case Url =>
      match Parser.ParseProblem(p.content, fetch)
      case Ok(t) => Ok(t)
      case Err(m) => Err(ParseFailure(m))
  }

  const PromptHead: string :=
    "You are an expert coding tutor. Analyze this coding problem and provide a comprehensive explanation.\n\nProblem:\n"
  const PromptTail: string :=
    "\n\nProvide a detailed analysis covering:\n"
    + "1. Problem overview and key concepts\n"
    + "2. Naive/brute force approach with time/space complexity\n"
    + "3. Optimal approach with detailed explanation\n"
    + "4. Step-by-step worked example\n"
    + "5. Common pitfalls and edge cases\n"
    + "6. Related problems\n"
    + "\nBe thorough, clear, and educational."

  /** The single prompt sent to the model; it embeds the problem text. */
  function Prompt(problemText: string): (r: string)
    ensures Contains(r, problemText)
    ensures |r| == |PromptHead| + |problemText| + |PromptTail|
    ensures StartsWith(r, PromptHead)
    ensures r[|PromptHead|..|PromptHead| + |problemText|] == problemText
    ensures r[|PromptHead| + |problemText|..] == PromptTail
  {
    ContainsMiddle(PromptHead, problemText, PromptTail);
    PromptHead + problemText + PromptTail
  }

  /** `problem_text[:300] + "..."`. */
  function Overview(t: string): (r: string)
    ensures |r| <= OverviewLength + 3
    ensures |r| >= 3 && r[|r| - 3..] == "..."
    ensures StartsWith(t, r[..|r| - 3])
    ensures |t| <= OverviewLength <==> r == t + "..."
    ensures |t| > OverviewLength ==> r == t[..OverviewLength] + "..."
  {
    var kept := if |t| <= OverviewLength then t else t[..OverviewLength];
    assert (kept + "...")[..|kept|] == kept;
    kept + "..."
  }

  /** The naive approach's time complexity, spelt as the source has it: a
      UTF-8 superscript two read back as Latin-1 (`Â²`). */
  const NaiveTime: string := "O(n\U{00C2}\U{00B2}) or higher"

  /** The response the route returns: the overview and the optimal
      approach's pseudocode come from the problem text and the model;
      every other field is a constant. */
  function FallbackOutput(problemText: string, generated: string): (o: ExplanationOutput)
    ensures o.overview == Overview(problemText)
    ensures o.optimalApproach.pseudocode == generated
  {
    ExplanationOutput(
      Overview(problemText),
      ConceptsData(
        ["Problem analysis", "Algorithm design", "Complexity analysis"],
        ["Basic programming", "Problem solving"],
        "Medium",
        "Requires understanding of algorithms and data structures",
        "Similar to solving a puzzle - need to identify patterns and apply the right techniques"),
      ApproachData(
        "Brute Force Approach",
        "Try all possible solutions",
        "Start simple, optimize later",
        "# Brute force approach\n# Try all combinations\n# Check each possibility",
        NaiveTime,
        "O(n)",
        "Too slow for large inputs",
        ""),
      ApproachData(
        "Optimized Solution",
        "Use efficient algorithms and data structures",
        "Avoid redundant computations",
        generated,
        "O(n) or better",
        "O(1) or O(n)",
        "",
        "Minimizes both time and space complexity"),
      WorkedExample(
        "Example from problem",
        ["See explanation above for detailed walkthrough"],
        "Result shown in explanation"),
      [Pitfall("Common error pattern", "Doesn't handle all cases",
               "Check the detailed explanation above for solutions")],
      ["Empty input", "Single element", "Large input", "Covered in explanation"],
      [RelatedProblem("Similar problem", "LeetCode/HackerRank", "Medium",
                      "Uses similar concepts", "Slight variation in approach")])
  }

  /** Two responses differ at most in the overview and the optimal
      pseudocode. */
  lemma OnlyTwoFieldsVary(t1: string, g1: string, t2: string, g2: string)
    ensures var o1 := FallbackOutput(t1, g1);
            var o2 := FallbackOutput(t2, g2);
            o1.(overview := "", optimalApproach := o1.optimalApproach.(pseudocode := ""))
            == o2.(overview := "", optimalApproach := o2.optimalApproach.(pseudocode := ""))
  {
  }

  /** The optional fields the route leaves out: the naive approach has no
      `why_optimal`, the optimal one no `limitation`. */
  lemma FallbackOptionalFields(t: string, g: string)
    ensures FallbackOutput(t, g).naiveApproach.whyOptimal == ""
    ensures FallbackOutput(t, g).optimalApproach.limitation == ""
    ensures FallbackOutput(t, g).naiveApproach.limitation != ""
    ensures FallbackOutput(t, g).optimalApproach.whyOptimal != ""
  {
  }

  /** `generate_explanation(problem)`. */
  function GenerateExplanation(p: ProblemInput, fetch: Parser.Fetch,
                               generate: (string, nat) -> Result<string, string>): (r: Reply)
    ensures r.Failure? ==> r.status == 400 || r.status == 500
    ensures ProblemText(p, fetch).Err? ==> r == ProblemText(p, fetch).error
    ensures ProblemText(p, fetch).Ok? && |ProblemText(p, fetch).value| < MinProblemLength
            ==> r == Failure(400, TooShortDetail)
    ensures r.Success? <==> && ProblemText(p, fetch).Ok?
                            && |ProblemText(p, fetch).value| >= MinProblemLength
                            && generate(Prompt(ProblemText(p, fetch).value), MaxNewTokens).Ok?
    ensures r.Success? ==> r.output == FallbackOutput(ProblemText(p, fetch).value,
                              generate(Prompt(ProblemText(p, fetch).value), MaxNewTokens).value)
    ensures ProblemText(p, fetch).Ok? && |ProblemText(p, fetch).value| >= MinProblemLength
            && generate(Prompt(ProblemText(p, fetch).value), MaxNewTokens).Err?
            ==> r == Failure(500, GenerationPrefix + generate(Prompt(ProblemText(p, fetch).value), MaxNewTokens).error)
  {
    match ProblemText(p, fetch)
    case Err(reply) => reply
    case Ok(t) =>
      if |t| < MinProblemLength then Failure(400, TooShortDetail)
      else
        match generate(Prompt(t), MaxNewTokens)
        case Ok(g) => Success(FallbackOutput(t, g))
        case Err(e) => Failure(500, GenerationPrefix + e)
  }

  /** Pasted text reaches the model as sent: ten spaces pass the server's
      length check, which does not trim. */
  lemma PastedTextNotTrimmed(generate: (string, nat) -> Result<string, string>, fetch: Parser.Fetch)
    requires generate(Prompt("          "), MaxNewTokens).Ok?
    ensures GenerateExplanation(ProblemInput(Text, "          "), fetch, generate).Success?
  {
  }

  /** A URL whose parse error mentions the blocking gets the "Cannot access
      URL" reply with the Paste Text hint; the parse error is quoted whole. */
  lemma BlockedUrlReply(url: string, fetch: Parser.Fetch,
                        generate: (string, nat) -> Result<string, string>)
    requires Parser.ParseProblem(url, fetch).Err?
    requires MentionsBlocking(Parser.ParseProblem(url, fetch).error)
    ensures GenerateExplanation(ProblemInput(Url, url), fetch, generate)
            == Failure(400, CannotAccessPrefix + Parser.ParseProblem(url, fetch).error + SolutionHint)
  {
  }

  // ---------------------------------------------------------------- /health

  /** `health_check()`: the model and device when the settings load, the
      error message otherwise. */
  function HealthCheck(settings: Result<Settings, string>): (r: map<string, string>)
    ensures "status" in r
    ensures r["status"] == "healthy" <==> settings.Ok?
    ensures settings.Ok? ==> r.Keys == {"status", "model", "device"}
                             && r["model"] == settings.value.hfModel
                             && r["device"] == settings.value.device
    ensures settings.Err? ==> r.Keys == {"status", "message"}
                              && r["status"] == "error" && r["message"] == settings.error
  {
    match settings
    case Ok(s) => map["status" := "healthy", "model" := s.hfModel, "device" := s.device]
    case Err(e) => map["status" := "error", "message" := e]
  }

  /** A reader of health reports, defined here to state what a report
      carries: the model and device of a healthy service, the message of a
      failing one.  No reader exists on the client side, whose
      `checkBackendHealth` (frontend/js/app.js:143-145) only logs the report. */
  function ReadHealth(report: map<string, string>): Result<(string, string), string> {
    if "status" in report && report["status"] == "healthy" && "model" in report && "device" in report
    then Ok((report["model"], report["device"]))
    else if "message" in report then Err(report["message"])
    else Err("")
  }

  /** The report loses nothing a client needs: the model and device, or the
      settings error, are read back from it. */
  lemma HealthReportRoundTrip(settings: Result<Settings, string>)
    ensures settings.Ok? ==> ReadHealth(HealthCheck(settings)) == Ok((settings.value.hfModel, settings.value.device))
    ensures settings.Err? ==> ReadHealth(HealthCheck(settings)) == Err(settings.error)
  {
  }
}

=== FILE: settings.dfy ===
/**
 * The backend settings (backend/config/settings.py).  Each field can be
 * overridden from the environment or an `.env` file, so the model takes a
 * `Settings` value wherever the source reads the global; `Defaults` holds
 * the declared defaults.  The sampling temperature, a float, is not
 * modelled.
 */
module Config {
  import opened Wrappers

  datatype Settings = Settings(
    hfModel: string,
    hfToken: Option<string>,
    device: string,
    quantization: string,
    maxLength: nat)

  const DefaultModel: string := "deepseek-ai/deepseek-coder-6.7b-instruct-awq"

  const Defaults: Settings := Settings(DefaultModel, None, "cuda", "4bit", 2048)

  /** The default model's name has no m and no l in either case, so it
      names neither the phi nor the llama family. */
  lemma DefaultModelLetters()
    ensures forall i :: 0 <= i < |DefaultModel| ==>
              DefaultModel[i] != 'm' && DefaultModel[i] != 'M' && DefaultModel[i] != 'l' && DefaultModel[i] != 'L'
  {
  }
}

=== FILE: strings.dfy ===
/**
 * String primitives shared by the client (JavaScript) and the backend
 * (Python): whitespace trimming, substring search, splitting at a marker,
 * ASCII lower-casing and replace-all.  Strings are sequences of code
 * points, which is what Python's `len` and Dafny's `|s|` count;
 * JavaScript's `length` counts UTF-16 code units and differs from them
 * outside the Basic Multilingual Plane.
 */
module Strings {
  import opened Wrappers

  /** The whitespace characters trimmed by `str.strip`, `String.prototype.trim`
      and matched by the regular-expression class `\s` (ASCII part). */
  predicate IsSpace(c: char) {
    c == ' ' || c == '\t' || c == '\n' || c == '\r' || c == '\U{000B}' || c == '\U{000C}'
  }

  /** No whitespace at either end. */
  predicate Trimmed(s: string) {
    |s| == 0 || (!IsSpace(s[0]) && !IsSpace(s[|s| - 1]))
  }

  /** Index of the first non-whitespace character at or after `i`. */
  function SkipSpaceForward(s: string, i: nat): (r: nat)
    requires i <= |s|
    ensures i <= r <= |s|
    ensures forall k :: i <= k < r ==> IsSpace(s[k])
    ensures r == |s| || !IsSpace(s[r])
    decreases |s| - i
  {
    if i < |s| && IsSpace(s[i]) then SkipSpaceForward(s, i + 1) else i
  }

  /** Index just past the last non-whitespace character in `s[lo..j]`. */
  function SkipSpaceBackward(s: string, lo: nat, j: nat): (r: nat)
    requires lo <= j <= |s|
    ensures lo <= r <= j
    ensures forall k :: r <= k < j ==> IsSpace(s[k])
    ensures r == lo || !IsSpace(s[r - 1])
    decreases j
  {
    if lo < j && IsSpace(s[j - 1]) then SkipSpaceBackward(s, lo, j - 1) else j
  }

  /** `r` is `s` with whitespace removed from the first `o` positions and
      from after position `o + |r|`. */
  predicate StripsTo(s: string, o: nat, r: string) {
    && o + |r| <= |s|
    && r == s[o..o + |r|]
    && (forall i :: 0 <= i < o ==> IsSpace(s[i]))
    && (forall i :: o + |r| <= i < |s| ==> IsSpace(s[i]))
  }

  /** `str.strip()` / `String.prototype.trim()`: the infix of `s` that
      neither starts nor ends with whitespace, with only whitespace cut
      off on either side. */
  function Trim(s: string): (r: string)
    ensures Trimmed(r)
    ensures StripsTo(s, SkipSpaceForward(s, 0), r)
  {
    var a := SkipSpaceForward(s, 0);
    var b := SkipSpaceBackward(s, a, |s|);
    s[a..b]
  }

  lemma TrimOfTrimmed(s: string)
    requires Trimmed(s)
    ensures Trim(s) == s
  {
  }

  /** Trimming twice is trimming once. */
  lemma TrimIdempotent(s: string)
    ensures Trim(Trim(s)) == Trim(s)
  {
    TrimOfTrimmed(Trim(s));
  }

  predicate StartsWith(s: string, p: string) {
    |p| <= |s| && s[..|p|] == p
  }

  /** `p in s` in Python, `s.includes(p)` in JavaScript. */
  predicate Contains(s: string, p: string)
    decreases |s|
  {
    StartsWith(s, p) || (|s| > 0 && Contains(s[1..], p))
  }

  /** An occurrence at a known position is an occurrence. */
  lemma {:induction false} ContainsAt(s: string, p: string, i: nat)
    requires i + |p| <= |s| && s[i..i + |p|] == p
    ensures Contains(s, p)
    decreases i
  {
    if i == 0 {
      assert s[..|p|] == p;
    } else {
      assert s[1..][i - 1..i - 1 + |p|] == s[i..i + |p|];
      ContainsAt(s[1..], p, i - 1);
    }
  }

  /** An occurrence in `b` is an occurrence in `a + b`. */
  lemma {:induction false} ContainsInSuffix(a: string, b: string, p: string)
    requires Contains(b, p)
    ensures Contains(a + b, p)
    decreases |a|
  {
    if |a| > 0 {
      assert (a + b)[1..] == a[1..] + b;
      ContainsInSuffix(a[1..], b, p);
    } else {
      assert a + b == b;
    }
  }

  /** An occurrence in `a` is an occurrence in `a + b`. */
  lemma {:induction false} ContainsInPrefix(a: string, b: string, p: string)
    requires Contains(a, p)
    ensures Contains(a + b, p)
    decreases |a|
  {
    if StartsWith(a, p) {
      assert (a + b)[..|p|] == a[..|p|];
    } else {
      assert (a + b)[1..] == a[1..] + b;
      ContainsInPrefix(a[1..], b, p);
    }
  }

  /** The middle part of a concatenation occurs in it. */
  lemma ContainsMiddle(a: string, p: string, b: string)
    ensures Contains(a + p + b, p)
  {
    assert (a + p + b)[|a|..|a| + |p|] == p;
    ContainsAt(a + p + b, p, |a|);
  }

  /** An occurrence of `p + q` holds an occurrence of `q`. */
  lemma {:induction false} ContainsTail(s: string, p: string, q: string)
    requires Contains(s, p + q)
    ensures Contains(s, q)
    decreases |s|
  {
    if StartsWith(s, p + q) {
      assert s[|p|..|p| + |q|] == (p + q)[|p|..];
      ContainsAt(s, q, |p|);
    } else {
      ContainsTail(s[1..], p, q);
    }
  }

  /** A pattern whose first character never occurs in `s` does not occur in `s`. */
  lemma {:induction false} MissingFirstChar(s: string, p: string)
    requires |p| > 0 && p[0] !in s
    ensures !Contains(s, p)
    decreases |s|
  {
    if |s| > 0 {
      assert s[0] in s;
      assert s[1..] <= s[1..];
      forall c | c in s[1..] ensures c in s {
        var k :| 0 <= k < |s[1..]| && s[1..][k] == c;
        assert s[k + 1] == c;
      }
      MissingFirstChar(s[1..], p);
    }
  }

  /** The position of the first occurrence of `p` in `s` (`str.find`). */
  function FirstIndex(s: string, p: string): (r: Option<nat>)
    ensures r.Some? <==> Contains(s, p)
    ensures r.Some? ==> r.value + |p| <= |s| && s[r.value..r.value + |p|] == p
    ensures r.Some? ==> forall j :: 0 <= j < r.value ==> !StartsWith(s[j..], p)
    decreases |s|
  {
    if StartsWith(s, p) then Some(0)
    else if |s| == 0 then None
    else
      match FirstIndex(s[1..], p)
      case None => None
      case Some(i) =>
        NoEarlierStart(s, p, i);
        Some(i + 1)
  }

  /** No occurrence before `i + 1` in `s` when none is at its start and none
      before `i` in its tail. */
  lemma NoEarlierStart(s: string, p: string, i: nat)
    requires i < |s| && !StartsWith(s, p)
    requires forall j :: 0 <= j < i ==> !StartsWith(s[1..][j..], p)
    ensures forall j :: 0 <= j < i + 1 ==> !StartsWith(s[j..], p)
  {
    forall j | 0 <= j < i + 1 ensures !StartsWith(s[j..], p) {
      if j > 0 {
        assert s[j..] == s[1..][j - 1..];
      }
    }
  }

  /** An occurrence preceded by no character that could start one is the
      first. */
  lemma FirstIndexAt(s: string, p: string, i: nat)
    requires |p| > 0 && i + |p| <= |s| && s[i..i + |p|] == p
    requires forall j :: 0 <= j < i ==> s[j] != p[0]
    ensures FirstIndex(s, p) == Some(i)
  {
    ContainsAt(s, p, i);
    var k := FirstIndex(s, p).value;
    assert s[k] == p[0] by { assert s[k..k + |p|][0] == s[k]; }
    assert StartsWith(s[i..], p) by { assert s[i..][..|p|] == s[i..i + |p|]; }
  }

  /** Stripping one leading whitespace character off trimmed text. */
  lemma TrimLeadingSpace(c: char, t: string)
    requires IsSpace(c) && |t| > 0 && Trimmed(t)
    ensures Trim([c] + t) == t
  {
    var s := [c] + t;
    assert SkipSpaceForward(s, 1) == 1;
    assert SkipSpaceBackward(s, 1, |s|) == |s|;
    assert s[1..] == t;
  }

  /** `p` occurs in `s` at `i` and at no earlier position. */
  predicate FirstAt(s: string, p: string, i: nat) {
    && i + |p| <= |s| && s[i..i + |p|] == p
    && forall j :: 0 <= j < i ==> !StartsWith(s[j..], p)
  }

  /** `FirstIndex` finds exactly the first occurrence. */
  lemma FirstIndexIs(s: string, p: string, i: nat)
    requires FirstAt(s, p, i)
    ensures FirstIndex(s, p) == Some(i)
  {
    ContainsAt(s, p, i);
    var k := FirstIndex(s, p).value;
    assert StartsWith(s[i..], p) by { assert s[i..][..|p|] == s[i..i + |p|]; }
    assert StartsWith(s[k..], p) by { assert s[k..][..|p|] == s[k..k + |p|]; }
  }

  /** Skipping forward in `[c] + t` is skipping forward in `t`, one position on. */
  lemma {:induction false} ForwardShift(c: char, t: string, i: nat)
    requires i <= |t|
    ensures SkipSpaceForward([c] + t, i + 1) == SkipSpaceForward(t, i) + 1
    decreases |t| - i
  {
    if i < |t| {
      assert ([c] + t)[i + 1] == t[i];
      if IsSpace(t[i]) {
        ForwardShift(c, t, i + 1);
      }
    }
  }

  /** Skipping backward in `[c] + t` is skipping backward in `t`, one
      position on. */
  lemma {:induction false} BackwardShift(c: char, t: string, lo: nat, j: nat)
    requires lo <= j <= |t|
    ensures SkipSpaceBackward([c] + t, lo + 1, j + 1) == SkipSpaceBackward(t, lo, j) + 1
    decreases j
  {
    if lo < j {
      assert ([c] + t)[j] == t[j - 1];
      if IsSpace(t[j - 1]) {
        BackwardShift(c, t, lo, j - 1);
      }
    }
  }

  /** A leading whitespace character makes no difference to stripping. */
  lemma TrimSkipsSpace(c: char, t: string)
    requires IsSpace(c)
    ensures Trim([c] + t) == Trim(t)
  {
    var s := [c] + t;
    var a := SkipSpaceForward(t, 0);
    var b := SkipSpaceBackward(t, a, |t|);
    SkipLeadingSpace(c, t);
    ForwardShift(c, t, 0);
    BackwardShift(c, t, a, |t|);
    TrimIs(s, a + 1, b + 1);
    TrimIs(t, a, b);
    SliceShift(c, t, a, b);
  }

  /** Skipping from a whitespace character is skipping from the next one. */
  lemma SkipLeadingSpace(c: char, t: string)
    requires IsSpace(c)
    ensures SkipSpaceForward([c] + t, 0) == SkipSpaceForward([c] + t, 1)
  {
  }

  /** `Trim` is the slice between the two skips. */
  lemma TrimIs(s: string, a: nat, b: nat)
    requires a == SkipSpaceForward(s, 0) && b == SkipSpaceBackward(s, a, |s|)
    ensures Trim(s) == s[a..b]
  {
  }

  /** A slice of `t` is the slice one position on in `[c] + t`. */
  lemma SliceShift<T>(c: T, t: seq<T>, a: nat, b: nat)
    requires a <= b <= |t|
    ensures ([c] + t)[a + 1..b + 1] == t[a..b]
  {
  }

  /** `s.split(p, 1)[1]` when `p in s`: everything after the first occurrence. */
  function AfterFirst(s: string, p: string): (r: Option<string>)
    ensures r.Some? <==> Contains(s, p)
    ensures r.Some? ==> exists i :: 0 <= i <= |s| - |p| - |r.value| && s == s[..i] + p + r.value
    ensures forall i: nat :: FirstAt(s, p, i) ==> r == Some(s[i + |p|..])
  {
    match FirstIndex(s, p)
    case None =>
      forall i: nat | FirstAt(s, p, i) ensures false { FirstIndexIs(s, p, i); }
      None
    case Some(i) =>
      assert s == s[..i] + p + s[i + |p|..];
      forall k: nat | FirstAt(s, p, k) ensures k == i { FirstIndexIs(s, p, k); }
      Some(s[i + |p|..])
  }

  /** An occurrence needs at least as many characters as the pattern. */
  lemma {:induction false} ContainsLength(s: string, p: string)
    requires Contains(s, p)
    ensures |p| <= |s|
    decreases |s|
  {
    if !StartsWith(s, p) {
      ContainsLength(s[1..], p);
    }
  }

  /** Characters that cannot start an occurrence can be dropped from the
      front. */
  lemma {:induction false} SkipNonStart(x: string, t: string, p: string)
    requires |p| > 0 && p[0] !in x && Contains(x + t, p)
    ensures Contains(t, p)
    decreases |x|
  {
    if |x| > 0 {
      assert (x + t)[0] == x[0];
      assert (x + t)[1..] == x[1..] + t;
      SkipNonStart(x[1..], t, p);
    } else {
      assert x + t == t;
    }
  }

  /** When the first character of `p` occurs nowhere else in `p`, an
      occurrence in `x + y` with `y` starting with that character lies in
      `x` or in `y`: none straddles the seam. */
  lemma {:induction false} SplitAtStart(x: string, y: string, p: string)
    requires |p| > 0 && p[0] !in p[1..] && |y| > 0 && y[0] == p[0]
    requires Contains(x + y, p)
    ensures Contains(x, p) || Contains(y, p)
    decreases |x|
  {
    if |x| == 0 {
      assert x + y == y;
    } else {
      if |p| <= |x| {
        assert x[..|p|] == (x + y)[..|p|];
      } else if |p| <= |x + y| {
        assert (x + y)[..|p|][|x|] == p[0];
        assert p[1..][|x| - 1] == p[|x|];
      }
      if !StartsWith(x + y, p) {
        assert (x + y)[1..] == x[1..] + y;
        SplitAtStart(x[1..], y, p);
        if Contains(x[1..], p) {
          assert x == [x[0]] + x[1..];
          ContainsInSuffix([x[0]], x[1..], p);
        }
      }
    }
  }

  /** Text shorter than `p` does not contain it. */
  lemma ShortNone(s: string, p: string)
    requires |s| < |p|
    ensures !Contains(s, p)
  {
    if Contains(s, p) {
      ContainsLength(s, p);
    }
  }

  /** Dropping characters that cannot start an occurrence, read the other way. */
  lemma NoneAfterNonStart(x: string, t: string, p: string)
    requires |p| > 0 && p[0] !in x && !Contains(t, p)
    ensures !Contains(x + t, p)
  {
    if Contains(x + t, p) {
      SkipNonStart(x, t, p);
    }
  }

  /** `SplitAtStart` read the other way: no occurrence in either part, none
      in the whole. */
  lemma NoneAcrossStart(x: string, y: string, p: string)
    requires |p| > 0 && p[0] !in p[1..] && |y| > 0 && y[0] == p[0]
    requires !Contains(x, p) && !Contains(y, p)
    ensures !Contains(x + y, p)
  {
    if Contains(x + y, p) {
      SplitAtStart(x, y, p);
    }
  }

  /** A character that cannot end an occurrence adds none at the end. */
  lemma {:induction false} NoneBeforeNonEnd(x: string, c: char, p: string)
    requires |p| > 0 && c != p[|p| - 1] && !Contains(x, p)
    ensures !Contains(x + [c], p)
    decreases |x|
  {
    if |p| <= |x| {
      assert (x + [c])[..|p|] == x[..|p|];
    } else if |p| == |x| + 1 {
      assert (x + [c])[..|p|][|x|] == c;
    }
    if |x| > 0 {
      assert (x + [c])[1..] == x[1..] + [c];
      NoneBeforeNonEnd(x[1..], c, p);
    }
  }

  /** With the same condition on `p`, an occurrence right after text that
      holds none is the first one. */
  lemma FirstAfter(a: string, p: string, b: string)
    requires |p| > 0 && p[0] !in p[1..] && !Contains(a, p)
    ensures FirstAt(a + p + b, p, |a|)
  {
    var s := a + p + b;
    assert s[|a|..|a| + |p|] == p;
    forall j | 0 <= j < |a| ensures !StartsWith(s[j..], p) {
      if j + |p| <= |a| {
        assert s[j..][..|p|] == a[j..j + |p|];
        if a[j..j + |p|] == p {
          ContainsAt(a, p, j);
        }
      } else {
        var k := |a| - j;
        assert s[j..][k] == p[0];
        assert p[1..][k - 1] == p[k];
      }
    }
  }

  /** ASCII lower-casing of one character. */
  function LowerChar(c: char): char {
    if 'A' <= c <= 'Z' then ((c as int) + 32) as char else c
  }

  /** `str.lower()` restricted to ASCII letters. */
  function ToLower(s: string): (r: string)
    ensures |r| == |s|
    ensures forall i :: 0 <= i < |s| ==> r[i] == LowerChar(s[i])
  {
    seq(|s|, i requires 0 <= i < |s| => LowerChar(s[i]))
  }

  /** A character absent from `s` in both cases is absent from `ToLower(s)`. */
  lemma LowerMissing(s: string, c: char)
    requires 'a' <= c <= 'z'
    requires c !in s && ((c as int) - 32) as char !in s
    ensures c !in ToLower(s)
  {
  }

  /** Left-to-right, non-overlapping replacement of every occurrence of the
      non-empty pattern `pat` by `rep` (`String.prototype.replace` with a
      global regular expression). */
  function ReplaceAll(s: string, pat: string, rep: string): string
    requires |pat| > 0
    decreases |s|
  {
    if StartsWith(s, pat) then rep + ReplaceAll(s[|pat|..], pat, rep)
    else if |s| == 0 then []
    else [s[0]] + ReplaceAll(s[1..], pat, rep)
  }

  /** Where no occurrence of `pat` starts within `a`, the replacement keeps
      `a` and carries on with what follows. */
  lemma {:induction false} ReplaceAllKeeps(a: string, t: string, pat: string, rep: string)
    requires |pat| > 0
    requires forall i :: 0 <= i < |a| ==> !StartsWith((a + t)[i..], pat)
    ensures ReplaceAll(a + t, pat, rep) == a + ReplaceAll(t, pat, rep)
    decreases |a|
  {
    if |a| == 0 {
      assert a + t == t;
    } else {
      var s := a + t;
      var s1 := a[1..] + t;
      assert !StartsWith(s, pat) by { assert s[0..] == s; }
      assert s[1..] == s1;
      assert ReplaceAll(s, pat, rep) == [a[0]] + ReplaceAll(s1, pat, rep);
      forall i | 0 <= i < |a| - 1 ensures !StartsWith(s1[i..], pat) {
        assert s1[i..] == s[i + 1..];
      }
      ReplaceAllKeeps(a[1..], t, pat, rep);
      assert a == [a[0]] + a[1..];
    }
  }
}

=== FILE: utils.dfy ===
/**
 * The client's utility layer (frontend/js/utils.js): code formatting,
 * truncation, the difficulty badge, the complexity line, section
 * collapsing, list building and the single toast.
 */
module Utils {
  import opened Wrappers
  import opened Strings
  import opened Document

  // ---------------------------------------------------------------- formatCode

  /** The two-character sequence backslash, `n` that the generator emits in
      place of line breaks. */
  const EscapedNewline: string := "\\n"

  /** No backslash is immediately followed by `n`. */
  predicate NoEscapedNewline(s: string) {
    forall i :: 0 <= i < |s| - 1 ==> !(s[i] == '\\' && s[i + 1] == 'n')
  }

  /** `code.replace(/\\n/g, '\n')`. */
  function UnescapeNewlines(s: string): string {
    ReplaceAll(s, EscapedNewline, "\n")
  }

  /** `formatCode(code)`: falsy input gives `''`; otherwise every escaped
      newline becomes a line break and the result is trimmed. */
  function FormatCode(code: string): (r: string)
    ensures code == "" ==> r == ""
    ensures Trimmed(r)
    ensures NoEscapedNewline(r)
    ensures code != "" ==>
              var u := UnescapeNewlines(code);
              StripsTo(u, SkipSpaceForward(u, 0), r)
  {
    if code == "" then ""
    else
      var u := UnescapeNewlines(code);
      UnescapeNewlinesComplete(code);
      InfixKeepsNoEscapedNewline(u, SkipSpaceForward(u, 0), Trim(u));
      Trim(u)
  }

  lemma UnescapeNewlinesHead(t: string)
    requires |t| > 0
    ensures |UnescapeNewlines(t)| > 0
    ensures UnescapeNewlines(t)[0] == if StartsWith(t, EscapedNewline) then '\n' else t[0]
  {
  }

  /** After the replacement no escaped newline is left, not even one formed
      by a backslash that was not itself replaced. */
  lemma {:induction false} UnescapeNewlinesComplete(s: string)
    ensures NoEscapedNewline(UnescapeNewlines(s))
    decreases |s|
  {
    var r := UnescapeNewlines(s);
    if StartsWith(s, EscapedNewline) {
      UnescapeNewlinesComplete(s[2..]);
      var rest := UnescapeNewlines(s[2..]);
      assert r == "\n" + rest;
      forall i | 0 <= i < |r| - 1 ensures !(r[i] == '\\' && r[i + 1] == 'n') {
        if i > 0 {
          assert r[i] == rest[i - 1] && r[i + 1] == rest[i];
        }
      }
    } else if |s| > 0 {
      UnescapeNewlinesComplete(s[1..]);
      var rest := UnescapeNewlines(s[1..]);
      assert r == [s[0]] + rest;
      forall i | 0 <= i < |r| - 1 ensures !(r[i] == '\\' && r[i + 1] == 'n') {
        if i > 0 {
          assert r[i] == rest[i - 1] && r[i + 1] == rest[i];
        } else if s[0] == '\\' {
          UnescapeNewlinesHead(s[1..]);
          assert s[..2][1] == s[1];
        }
      }
    }
  }

  /** The first escaped newline becomes a line break, with everything
      before it kept and the replacement carried on after it. */
  lemma UnescapeNewlinesAt(a: string, b: string)
    requires NoEscapedNewline(a)
    ensures UnescapeNewlines(a + EscapedNewline + b) == a + "\n" + UnescapeNewlines(b)
  {
    var t := EscapedNewline + b;
    forall i | 0 <= i < |a| ensures !StartsWith((a + t)[i..], EscapedNewline) {
      assert (a + t)[i..][0] == a[i];
      if i + 1 < |a| {
        assert (a + t)[i..][1] == a[i + 1];
      } else {
        assert (a + t)[i..][1] == '\\';
      }
    }
    ReplaceAllKeeps(a, t, EscapedNewline, "\n");
    assert t[..2] == EscapedNewline;
    assert t[2..] == b;
    assert a + EscapedNewline + b == a + t;
  }

  /** Without escaped newlines the replacement changes nothing. */
  lemma {:induction false} UnescapeNewlinesIdentity(s: string)
    requires NoEscapedNewline(s)
    ensures UnescapeNewlines(s) == s
    decreases |s|
  {
    if |s| > 0 {
      assert !StartsWith(s, EscapedNewline) by {
        if |s| >= 2 {
          assert !(s[0] == '\\' && s[1] == 'n');
          assert s[..2][0] == s[0] && s[..2][1] == s[1];
        }
      }
      UnescapeNewlinesIdentity(s[1..]);
      assert [s[0]] + s[1..] == s;
    }
  }

  lemma InfixKeepsNoEscapedNewline(s: string, o: nat, r: string)
    requires NoEscapedNewline(s)
    requires o + |r| <= |s| && r == s[o..o + |r|]
    ensures NoEscapedNewline(r)
  {
    forall i | 0 <= i < |r| - 1 ensures !(r[i] == '\\' && r[i + 1] == 'n') {
      assert r[i] == s[o + i] && r[i + 1] == s[o + i + 1];
    }
  }

  /** Formatting formatted code changes nothing. */
  lemma FormatCodeIdempotent(code: string)
    ensures FormatCode(FormatCode(code)) == FormatCode(code)
  {
    var f := FormatCode(code);
    if f != "" {
      UnescapeNewlinesIdentity(f);
      TrimOfTrimmed(f);
    }
  }

  /** `formatCode("a\\nb")` is the two lines `a` and `b`. */
  lemma FormatCodeBreaksLines()
    ensures FormatCode("a\\nb") == "a\nb"
  {
    assert UnescapeNewlines("b") == "b";
    assert UnescapeNewlines("\\nb") == "\nb";
    assert UnescapeNewlines("a\\nb") == "a\nb";
    assert Trimmed("a\nb");
    TrimOfTrimmed("a\nb");
  }

  /** `formatCode("  x  ")` is `x`. */
  lemma FormatCodeTrims()
    ensures FormatCode("  x  ") == "x"
  {
    var x := "  x  ";
    assert UnescapeNewlines(x) == x by {
      UnescapeNewlinesIdentity(x);
    }
    assert SkipSpaceForward(x, 0) == 2;
    assert SkipSpaceBackward(x, 2, 5) == 3;
  }

  // ---------------------------------------------------------------- truncate

  /** The default `maxLength` of `truncate`. */
  const DefaultMaxLength: int := 100

  /** `truncate(text, maxLength)`: falsy text, or text no longer than
      `maxLength`, is returned as is; longer text is cut to its first
      `maxLength` characters (none when `maxLength` is negative, as
      `substring` clamps) and `...` is appended. */
  function Truncate(text: string, maxLength: int := DefaultMaxLength): (r: string)
    ensures text == "" || |text| <= maxLength ==> r == text
    ensures text != "" && |text| > maxLength ==>
              && |r| == (if maxLength < 0 then 0 else maxLength) + 3
              && r[..|r| - 3] == text[..|r| - 3]
              && r[|r| - 3..] == "..."
  {
    if text == "" || |text| <= maxLength then text
    else
      var keep := if maxLength < 0 then 0 else maxLength;
      text[..keep] + "..."
  }

  /** Truncated text never exceeds `maxLength + 3` characters. */
  lemma TruncateBound(text: string, maxLength: nat)
    ensures |Truncate(text, maxLength)| <= maxLength + 3
  {
  }

  // ---------------------------------------------------------------- badge

  const EasyColor: string := "#00cc66"
  const MediumColor: string := "#ff9933"
  const HardColor: string := "#ff3333"
  const DefaultColor: string := "#ff0033"

  /** The properties every JavaScript object literal inherits from
      `Object.prototype`: looking one of them up in `colorMap` finds the
      inherited member instead of `undefined`. */
  const InheritedNames: set<string> := {
    "constructor", "hasOwnProperty", "isPrototypeOf", "propertyIsEnumerable",
    "toLocaleString", "toString", "valueOf", "__proto__",
    "__defineGetter__", "__defineSetter__", "__lookupGetter__", "__lookupSetter__"
  }

  /** How an inherited member reads once interpolated into the style
      attribute: `__proto__` is `Object.prototype` itself, every other name
      a built-in function, `constructor` being the function `Object`. */
  function InheritedColor(name: string): (c: string)
    ensures |c| > |DefaultColor|
    ensures '>' !in name ==> '>' !in c
  {
    if name == "__proto__" then "[object Object]"
    else "function " + (if name == "constructor" then "Object" else name) + "() { [native code] }"
  }

  /** None of the inherited names holds a `>`. */
  lemma InheritedUntagged(name: string)
    requires name in InheritedNames
    ensures '>' !in name
  {
    if name == "constructor" {} else if name == "hasOwnProperty" {}
    else if name == "isPrototypeOf" {} else if name == "propertyIsEnumerable" {}
    else if name == "toLocaleString" {} else if name == "toString" {}
    else if name == "valueOf" {} else if name == "__proto__" {}
    else if name == "__defineGetter__" {} else if name == "__defineSetter__" {}
    else if name == "__lookupGetter__" {} else {}
  }

  /** `colorMap[difficulty] || '#ff0033'`: a lookup in an object literal,
      which also sees the names the literal inherits. */
  function DifficultyColor(difficulty: string): (c: string)
    ensures difficulty == "Easy" ==> c == EasyColor
    ensures difficulty == "Medium" ==> c == MediumColor
    ensures difficulty == "Hard" ==> c == HardColor
    ensures difficulty in InheritedNames ==> c == InheritedColor(difficulty)
    ensures c == DefaultColor <==> difficulty !in {"Easy", "Medium", "Hard"} + InheritedNames
    ensures difficulty !in InheritedNames ==> |c| == 7
    ensures '>' !in c
  {
    if difficulty == "Easy" then EasyColor
    else if difficulty == "Medium" then MediumColor
    else if difficulty == "Hard" then HardColor
    else if difficulty in InheritedNames then
      InheritedUntagged(difficulty);
      InheritedColor(difficulty)
    else DefaultColor
  }

  const BadgeClose: string := "</span>"
  const BadgeHead: string := "<span class=\"badge\" " + "style=\"background: "
  const BadgeGlow: string := "; box-shadow: 0 0 20px "
  const BadgeEnd: string := "88;\""

  function BadgeOpen(color: string): string {
    BadgeHead + color + BadgeGlow + color + BadgeEnd + ">"
  }

  /** `getDifficultyBadge(difficulty)`: a badge coloured by the difficulty
      whose text is the difficulty itself, unescaped. */
  function DifficultyBadge(difficulty: string): (r: string)
    ensures StartsWith(r, BadgeOpen(DifficultyColor(difficulty)))
    ensures r[|BadgeOpen(DifficultyColor(difficulty))|..] == difficulty + BadgeClose
  {
    var open := BadgeOpen(DifficultyColor(difficulty));
    var r := open + difficulty + BadgeClose;
    assert r[..|open|] == open;
    assert r[|open|..] == difficulty + BadgeClose;
    r
  }

  /** The text a badge displays: what follows the first `>`, which closes
      the opening tag, up to the closing tag. */
  function BadgeText(badge: string): string {
    match AfterFirst(badge, ">")
    case Some(rest) => if |rest| >= |BadgeClose| then rest[..|rest| - |BadgeClose|] else ""
    case None => ""
  }

  /** The `>` ending an opening tag is the first one of the badge when the
      colour holds none. */
  lemma OpenTagFirst(color: string, rest: string)
    requires '>' !in color
    ensures FirstAt(BadgeOpen(color) + rest, ">", |BadgeOpen(color)| - 1)
  {
    var a := BadgeHead + color + BadgeGlow + color + BadgeEnd;
    assert '>' !in a;
    MissingFirstChar(a, ">");
    FirstAfter(a, ">", rest);
    assert a + ">" + rest == BadgeOpen(color) + rest;
  }

  /** The badge displays the difficulty verbatim, so badges of different
      difficulties differ. */
  lemma BadgeShowsDifficulty(difficulty: string)
    ensures BadgeText(DifficultyBadge(difficulty)) == difficulty
  {
    var open := BadgeOpen(DifficultyColor(difficulty));
    var r := DifficultyBadge(difficulty);
    var rest := difficulty + BadgeClose;
    assert r == open + rest;
    OpenTagFirst(DifficultyColor(difficulty), rest);
    assert r[|open| - 1 + 1..] == rest;
    assert AfterFirst(r, ">") == Some(rest);
    assert rest[..|rest| - |BadgeClose|] == difficulty;
  }

  /** A difficulty outside Easy/Medium/Hard, "Expert" say, is representable
      and gets the default colour. */
  lemma UnknownDifficultyBadge()
    ensures DifficultyColor("Expert") == DefaultColor
    ensures BadgeText(DifficultyBadge("Expert")) == "Expert"
  {
    var d := "Expert";
    assert d !in InheritedNames;
    BadgeShowsDifficulty(d);
  }

  /** A difficulty naming an inherited member, "constructor" say, is not
      given the default colour: the colour is the text of the function
      `Object`, and the badge still displays the difficulty. */
  lemma InheritedDifficultyBadge()
    ensures DifficultyColor("constructor") == "function Object() { [native code] }"
    ensures DifficultyColor("constructor") != DefaultColor
    ensures BadgeText(DifficultyBadge("constructor")) == "constructor"
  {
    ConstructorColor();
    var d := "constructor";
    BadgeShowsDifficulty(d);
  }

  lemma ConstructorColor()
    ensures DifficultyColor("constructor") == "function Object() { [native code] }"
    ensures DifficultyColor("constructor") != DefaultColor
  {
    var d := "constructor";
    assert d in InheritedNames;
  }

  // ---------------------------------------------------------------- complexity

  const TimeLabel: string := "<strong>Time:</strong> "
  const SpaceLabel: string := " | <strong>Space:</strong> "

  /** `formatComplexity(time, space)`: the time complexity right after the
      time label, then the space complexity after its label, at the end. */
  function FormatComplexity(time: string, space: string): (r: string)
    ensures |r| == |TimeLabel| + |time| + |SpaceLabel| + |space|
    ensures r[..|TimeLabel|] == TimeLabel
    ensures r[|TimeLabel|..|TimeLabel| + |time|] == time
    ensures r[|TimeLabel| + |time|..|r| - |space|] == SpaceLabel
    ensures r[|r| - |space|..] == space
  {
    TimeLabel + time + SpaceLabel + space
  }

  // ---------------------------------------------------------------- toggleSection

  /** The part of a DOM element that matters here: its class list. */
  datatype Element = Element(classes: set<string>)

  /** `classList.toggle(c)`. */
  function ToggleClass(e: Element, c: string): (r: Element)
    ensures c in r.classes <==> c !in e.classes
    ensures r.classes - {c} == e.classes - {c}
  {
    if c in e.classes then Element(e.classes - {c}) else Element(e.classes + {c})
  }

  /** A section header and the element that follows it, if any. */
  datatype SectionNodes = SectionNodes(header: Element, next: Option<Element>)

  /** `toggleSection(header)`: flips `collapsed` on the header, and on the
      next sibling only when that sibling is a `section-content`. */
  function ToggleSection(n: SectionNodes): (r: SectionNodes)
    ensures "collapsed" in r.header.classes <==> "collapsed" !in n.header.classes
    ensures r.header.classes - {"collapsed"} == n.header.classes - {"collapsed"}
    ensures r.next.Some? <==> n.next.Some?
    ensures n.next.Some? && "section-content" in n.next.value.classes ==>
              && ("collapsed" in r.next.value.classes <==> "collapsed" !in n.next.value.classes)
              && r.next.value.classes - {"collapsed"} == n.next.value.classes - {"collapsed"}
    ensures (n.next.None? || "section-content" !in n.next.value.classes) ==> r.next == n.next
  {
    var header := ToggleClass(n.header, "collapsed");
    match n.next
    case Some(c) =>
      if "section-content" in c.classes then SectionNodes(header, Some(ToggleClass(c, "collapsed")))
      else SectionNodes(header, n.next)
    case None => SectionNodes(header, None)
  }

  /** Clicking a header twice restores both elements. */
  lemma ToggleSectionTwice(n: SectionNodes)
    ensures ToggleSection(ToggleSection(n)) == n
  {
    var once := ToggleSection(n);
    var twice := ToggleSection(once);
    assert twice.header.classes == n.header.classes;
    if n.next.Some? {
      assert twice.next.value.classes == n.next.value.classes;
    }
  }

  // ---------------------------------------------------------------- createList

  /** A list item as the response may carry it: a string, or any other JSON
      value together with the text `JSON.stringify` gives for it. */
  datatype ListValue = Str(s: string) | NonString(json: string)

  /** `typeof item === 'string' ? item : JSON.stringify(item)`. */
  function ItemText(v: ListValue): string {
    match v
    case Str(s) => s
    case NonString(json) => json
  }

  /** `createList(items, ordered)`: an `ol` exactly when `ordered`, holding
      one item per input element, in input order, each inserted unescaped. */
  function CreateList(items: seq<ListValue>, ordered: bool): (b: Block)
    ensures b.ListBlock? && b.ordered == ordered
    ensures |b.items| == |items|
    ensures forall i :: 0 <= i < |items| ==> b.items[i] == [Raw(ItemText(items[i]))]
  {
    ListBlock(ordered, seq(|items|, i requires 0 <= i < |items| => [Raw(ItemText(items[i]))]))
  }

  /** The response's lists of strings as list values. */
  function Strs(xs: seq<string>): (r: seq<ListValue>)
    ensures |r| == |xs|
    ensures forall i :: 0 <= i < |xs| ==> r[i] == Str(xs[i])
  {
    seq(|xs|, i requires 0 <= i < |xs| => Str(xs[i]))
  }

  /** The texts a list shows, read back item by item. */
  function ListTexts(items: seq<seq<Piece>>): seq<string>
    decreases |items|
  {
    if |items| == 0 then []
    else (if |items[0]| == 1 && items[0][0].Raw? then [items[0][0].text] else []) + ListTexts(items[1..])
  }

  /** A list built from strings shows exactly those strings, in order. */
  lemma {:induction false} ListShowsStrings(xs: seq<string>, ordered: bool)
    ensures ListTexts(CreateList(Strs(xs), ordered).items) == xs
    decreases |xs|
  {
    if |xs| > 0 {
      var items := CreateList(Strs(xs), ordered).items;
      assert items[1..] == CreateList(Strs(xs[1..]), ordered).items;
      ListShowsStrings(xs[1..], ordered);
      assert [xs[0]] + xs[1..] == xs;
    } else {
      assert CreateList(Strs(xs), ordered).items == [];
    }
  }

  // ---------------------------------------------------------------- showToast

  /** A child of `document.body`: a toast notification or anything else. */
  datatype Node = Toast(message: string, kind: string) | OtherNode(id: nat)

  function ToastCount(body: seq<Node>): nat
    decreases |body|
  {
    if |body| == 0 then 0 else (if body[0].Toast? then 1 else 0) + ToastCount(body[1..])
  }

  /** The nodes that are not toasts, in document order. */
  function NonToasts(body: seq<Node>): seq<Node>
    decreases |body|
  {
    if |body| == 0 then [] else (if body[0].Toast? then [] else [body[0]]) + NonToasts(body[1..])
  }

  /** `document.querySelector('.toast-notification')?.remove()`: the first
      toast in document order goes. */
  function RemoveFirstToast(body: seq<Node>): (r: seq<Node>)
    ensures ToastCount(r) == if ToastCount(body) == 0 then 0 else ToastCount(body) - 1
    ensures NonToasts(r) == NonToasts(body)
    decreases |body|
  {
    if |body| == 0 then []
    else if body[0].Toast? then body[1..]
    else
      var rest := RemoveFirstToast(body[1..]);
      assert ([body[0]] + rest)[1..] == rest;
      [body[0]] + rest
  }

  lemma {:induction false} AppendNode(body: seq<Node>, n: Node)
    ensures ToastCount(body + [n]) == ToastCount(body) + (if n.Toast? then 1 else 0)
    ensures NonToasts(body + [n]) == NonToasts(body) + (if n.Toast? then [] else [n])
    decreases |body|
  {
    if |body| == 0 {
      assert body + [n] == [n];
    } else {
      assert (body + [n])[1..] == body[1..] + [n];
      AppendNode(body[1..], n);
    }
  }

  /** `showToast(message, kind)`: any existing toast is removed before the
      new one is appended, so a page with at most one toast keeps exactly
      one, the new one, last; nothing else on the page changes. */
  function ShowToast(body: seq<Node>, message: string, kind: string := "success"): (r: seq<Node>)
    ensures |r| > 0 && r[|r| - 1] == Toast(message, kind)
    ensures ToastCount(r) == if ToastCount(body) == 0 then 1 else ToastCount(body)
    ensures ToastCount(body) <= 1 ==> ToastCount(r) == 1
    ensures NonToasts(r) == NonToasts(body)
  {
    var kept := RemoveFirstToast(body);
    AppendNode(kept, Toast(message, kind));
    kept + [Toast(message, kind)]
  }

  /** What can happen to the page's toasts: a new one is shown, or the
      node at some position is removed (its timer ran out, or it was clicked). */
  datatype ToastEvent = Show(message: string, kind: string) | Dismiss(index: nat)

  function RemoveAt(body: seq<Node>, i: nat): (r: seq<Node>)
    ensures ToastCount(r) <= ToastCount(body)
    decreases |body|
  {
    if |body| == 0 then []
    else if i == 0 then body[1..]
    else
      var rest := RemoveAt(body[1..], i - 1);
      assert ([body[0]] + rest)[1..] == rest;
      [body[0]] + rest
  }

  function ApplyToastEvents(body: seq<Node>, events: seq<ToastEvent>): seq<Node>
    decreases |events|
  {
    if |events| == 0 then body
    else
      var next := match events[0]
        case Show(m, k) => ShowToast(body, m, k)
        case Dismiss(i) => RemoveAt(body, i);
      ApplyToastEvents(next, events[1..])
  }

  /** Starting from a page with at most one toast, no sequence of toasts and
      dismissals ever shows two at once. */
  lemma {:induction false} AtMostOneToast(body: seq<Node>, events: seq<ToastEvent>)
    requires ToastCount(body) <= 1
    ensures ToastCount(ApplyToastEvents(body, events)) <= 1
    decreases |events|
  {
    if |events| > 0 {
      var next := match events[0]
        case Show(m, k) => ShowToast(body, m, k)
        case Dismiss(i) => RemoveAt(body, i);
      AtMostOneToast(next, events[1..]);
    }
  }
}

=== FILE: wrappers.dfy ===
/** Failure-carrying datatypes shared by every module of the model. */
module Wrappers {

  /** A value that may be absent: Python's `None`, a missing page element. */
  datatype Option<+T> = None | Some(value: T) {
    function GetOr(default: T): T {
      match this
      case Some(v) => v
      case None => default
    }
  }

  /** Either a value or the message of the exception that replaced it. */
  datatype Result<+T, +E> = Ok(value: T) | Err(error: E)
}
